=== FILE: README.md ===
# Fast R-CNN box head and ResNet backbone, modelled in Dafny

This project models two parts of a detectron2-based object detector.

**The Fast R-CNN box head** (`detectron2/modeling/roi_heads/fast_rcnn.py`):
- **Inference.** For one image it takes R rows of per-class box coordinates and R rows of K + 1 class scores, and decodes them into detections:
  - drop every row holding a non-finite value;
  - drop the background column;
  - clip the boxes;
  - keep every (region, class) pair scoring above the threshold;
  - run class-wise NMS;
  - keep a top-k prefix.

  It returns the detections together with the region each one came from. The batched version does this per image.
- **Training losses.** `FastRCNNOutputs` keeps the bookkeeping of a batch: regions per image, the concatenated ground-truth classes, and an empty-batch flag. It computes:
  - a classification loss (softmax cross-entropy);
  - one of four box-regression losses, selected by name: smooth-L1, DIoU on deltas, DIoU on boxes, or CIoU.
- **Box prediction.** It splits the decoded boxes per image, optionally picking each region's ground-truth class box.

**The ResNet backbone** (`detectron2/modeling/backbone/resnet.py`, with the ResNeSt extensions):
- the basic, bottleneck and deformable-bottleneck blocks, and the stem;
- `make_stage`;
- the `ResNet` constructor's bookkeeping of strides and channels, `forward`'s choice of outputs, `output_shape` and `freeze`;
- `build_resnet_backbone`, which turns a configuration into a backbone.

A block is modelled by its layer structure: the channels each convolution reads and writes, and the stride each layer applies. `WellFormed` says that both the main path and the shortcut take the declared input channels to the declared output channels at the declared stride. This is what makes the residual sum well-shaped.

Modules:
- `Results` holds `Option` and `Result`; `Err` stands for a raised exception.
- `Seqs` holds sums, flatten and split, and index filters.
- `Numerics` holds a float with NaN, so 0/0 is representable.
- `Variants` holds the switch between the code as written and the corrected code, for the defects listed under Findings.
- `FastRcnnInference`, `FastRcnnOutputs`, `ResNetBlocks`, `ResNet` and `ResNetBuilder` model the core.

A `BlockClass` value carries every constructor argument of its class. `make_stage` passes on only the keyword names in its set; `Bound` gives every name left out the constructor's default (resnet.py:109-124, 271-287), as Python binds a call.

Code the model does not contain is passed in as function-typed record fields:
- box clipping and batched NMS, in `Collaborators`;
- the per-row numeric loss formulas, in `RowLosses`.

## Model

| member | source | states |
|---|---|---|
| Results.AllOk | detectron2/modeling/roi_heads/fast_rcnn.py:63-69 | a per-image loop that stops at the first raise: Ok exactly when every step is Ok, with every step's value in order; otherwise the error of the first failing step |
| Results.CollectPairs | detectron2/modeling/roi_heads/fast_rcnn.py:63-69 | the two result lists of the per-image loop: Ok iff every image succeeds; then both lists have one entry per image and entry i is image i's pair; otherwise the first failing image's error |
| Seqs.Split | detectron2/modeling/roi_heads/fast_rcnn.py:578 | `split(counts)` succeeds iff the counts add up to the length; the chunks then have those lengths and concatenate back to the input |
| Seqs.SplitFlatten | detectron2/modeling/roi_heads/fast_rcnn.py:578 | splitting a concatenation by its parts' lengths gives the parts back |
| Seqs.FlattenInjective | detectron2/modeling/roi_heads/fast_rcnn.py:578 | two groupings with the same lengths and the same concatenation are equal, so the per-image split is unique |
| Numerics.Normalize | detectron2/modeling/roi_heads/fast_rcnn.py:283 | a sum divided by a count is finite iff the count is positive (0/0 is NaN), and then times the count gives the sum back |
| Numerics.ZeroMean | detectron2/modeling/roi_heads/fast_rcnn.py:283 | a zero sum over a non-empty batch normalises, and weights, to exactly zero |
| FastRcnnInference.FiniteRows | detectron2/modeling/roi_heads/fast_rcnn.py:84-87 | the kept rows are strictly increasing, every one is finite in both boxes and scores, and every finite row is kept |
| FastRcnnInference.DecodeRow | detectron2/modeling/roi_heads/fast_rcnn.py:88-95 | a decoded row has one box per regression class and one score per foreground class (background dropped), equal to the input scores |
| FastRcnnInference.RowCandidates | detectron2/modeling/roi_heads/fast_rcnn.py:97-105 | a class of one region is a candidate iff its score exceeds the threshold; candidates come in class order with the class's own box |
| FastRcnnInference.Candidates | detectron2/modeling/roi_heads/fast_rcnn.py:97-105 | over all rows: a (region, class) pair is a candidate iff its score exceeds the threshold, listed row-major like `nonzero()` |
| FastRcnnInference.CandidatesFacts | detectron2/modeling/roi_heads/fast_rcnn.py:97-105 | each candidate names a filtered row and a foreground class whose input score equals the candidate's score, above the threshold |
| FastRcnnInference.TopK | detectron2/modeling/roi_heads/fast_rcnn.py:109-110 | a prefix of the NMS output, as long as the top-k bound allows; a negative bound keeps everything |
| FastRcnnInference.Emit | detectron2/modeling/roi_heads/fast_rcnn.py:111-117 | indexing with the kept indices succeeds iff each is in range; detection j is then the candidate's box, score and class, with its region |
| FastRcnnInference.FastRcnnInferenceSingleImageAsWritten | detectron2/modeling/roi_heads/fast_rcnn.py:72-117 | raises iff NMS returns an index out of range; otherwise each returned index is a position among the FINITE rows, and detection j reads that filtered row's score |
| FastRcnnInference.FastRcnnInferenceSingleImage | detectron2/modeling/roi_heads/fast_rcnn.py:72-117 | same failure condition; each returned index is an input row that is finite, and detection j's class score in that input row is the detection's score, above the threshold |
| FastRcnnInference.EmittedDetectionsReadRows | detectron2/modeling/roi_heads/fast_rcnn.py:111-117 | mapping filtered positions back through the finite-row list yields detections that read their input rows |
| FastRcnnInference.NeverFailsWithWellBehavedNms | detectron2/modeling/roi_heads/fast_rcnn.py:108-111 | if NMS only returns candidate indices, single-image inference never raises |
| FastRcnnInference.HighThresholdGivesNoDetections | detectron2/modeling/roi_heads/fast_rcnn.py:97-117 | when no finite score exceeds the threshold there are no candidates and the image gets no detections, as written and corrected |
| FastRcnnInference.NothingAboveThreshold | detectron2/modeling/roi_heads/fast_rcnn.py:97-100 | rows with no score above the threshold yield no candidates |
| FastRcnnInference.EmitTopKKeepsBest | detectron2/modeling/roi_heads/fast_rcnn.py:109-117 | cutting a best-first survivor list to k keeps min(k, survivors) detections, in non-increasing score order, none scoring below a dropped survivor |
| FastRcnnInference.TopKKeepsHighestScoring | detectron2/modeling/roi_heads/fast_rcnn.py:108-117 | with an NMS returning indices by decreasing score, the output holds the k best NMS survivors, best first |
| FastRcnnInference.KeepFiniteRows | detectron2/modeling/roi_heads/fast_rcnn.py:84-87 | the filtered predictions keep their shape and contain only finite rows |
| FastRcnnInference.DroppingNonFiniteRowsFirstChangesNothing | detectron2/modeling/roi_heads/fast_rcnn.py:84-87 | running inference on already-filtered rows gives the same result, which is why the as-written indices are filtered positions |
| FastRcnnInference.ImageResults | detectron2/modeling/roi_heads/fast_rcnn.py:63-69 | one result per image of the zip of boxes, scores and shapes, which stops at the shortest list; entry i is image i's single-image inference, as written or corrected |
| FastRcnnInference.FastRcnnInference | detectron2/modeling/roi_heads/fast_rcnn.py:39-69 | the batch succeeds iff every image does; then entry i of both lists is image i's detections and indices; otherwise the first failing image's error; with `AsWritten` each image runs the single-image code as written, so the indices are filtered positions |
| FastRcnnInference.BatchOfOne | detectron2/modeling/roi_heads/fast_rcnn.py:63-69 | a batch of one image succeeds iff that image's single-image inference does, and then returns its indices as the only entry |
| FastRcnnInference.SingleImageVariantsAgree | detectron2/modeling/roi_heads/fast_rcnn.py:84-117 | the code as written and the corrected version fail on the same inputs with the same error and return the same detections; each corrected index is the finite-row list read at the as-written index |
| FastRcnnInference.DroppedRowBatch | detectron2/modeling/roi_heads/fast_rcnn.py:39-117 | the NaN-first-row image as a batch of one: the batch as written reports index 0, the corrected batch reports input row 1 |
| FastRcnnInference.BatchNeverFailsWithWellBehavedNms | detectron2/modeling/roi_heads/fast_rcnn.py:63-69 | with an NMS returning candidate indices, batched inference never raises, as written or corrected |
| FastRcnnInference.RegionIndexAfterDroppedRow | detectron2/modeling/roi_heads/fast_rcnn.py:84-117 | a two-row image whose first row holds NaN: as written the surviving detection reports region 0, the corrected version reports row 1 |
| FastRcnnInference.OnlySurvivorReportsItsRow | detectron2/modeling/roi_heads/fast_rcnn.py:108-117 | when exactly one candidate exists and NMS keeps it, the corrected output names that candidate's input row |
| FastRcnnOutputs.GroundTruthOf | detectron2/modeling/roi_heads/fast_rcnn.py:163-175 | ground truth is taken when the first image has it, and then holds one class per proposal over all images; it raises iff the first has it and a later image lacks it |
| FastRcnnOutputs.NewOutputsAsWritten | detectron2/modeling/roi_heads/fast_rcnn.py:126-182 | per-image counts are the proposal counts and the ground truth covers every region; the empty flag holds iff there are no IMAGES |
| FastRcnnOutputs.NewOutputs | detectron2/modeling/roi_heads/fast_rcnn.py:126-182 | same bookkeeping; the empty flag holds iff there are no REGIONS |
| FastRcnnOutputs.ForegroundRows | detectron2/modeling/roi_heads/fast_rcnn.py:252-254 | `fg_inds`: exactly the regions whose class is in [0, K), ascending |
| FastRcnnOutputs.ClassColumns | detectron2/modeling/roi_heads/fast_rcnn.py:255-264 | class k's delta window is the B columns starting at B*k |
| FastRcnnOutputs.RegressionColumns | detectron2/modeling/roi_heads/fast_rcnn.py:255-264 | class-agnostic heads read window 0, class-specific heads read the region's class window |
| FastRcnnOutputs.ClassColumnsExist | detectron2/modeling/roi_heads/fast_rcnn.py:255-264 | a class window exists in the delta tensor iff the head is class-agnostic or wide enough for that class |
| FastRcnnOutputs.ClassWindowsDisjoint | detectron2/modeling/roi_heads/fast_rcnn.py:255-264 | windows of different classes share no column |
| FastRcnnOutputs.ForegroundTerms | detectron2/modeling/roi_heads/fast_rcnn.py:252-283 | one loss term per foreground region, in order, evaluated at that region's ground-truth class |
| FastRcnnOutputs.CountedRows | detectron2/modeling/roi_heads/fast_rcnn.py:222 | the rows `F.cross_entropy` averages over: exactly those whose target is not the ignore index -100, ascending |
| FastRcnnOutputs.MeanCrossEntropy | detectron2/modeling/roi_heads/fast_rcnn.py:222 | finite iff some row counts, and then times the number of counted rows gives the sum of their cross-entropies |
| FastRcnnOutputs.SoftmaxCrossEntropyLoss | detectron2/modeling/roi_heads/fast_rcnn.py:208-222 | zero when the empty flag is set; otherwise raises without ground truth; succeeds iff every target is a logit column or the ignore index -100, raising the out-of-range error otherwise; on success the mean cross-entropy over the rows whose target is not -100 |
| FastRcnnOutputs.CrossEntropyOverAllRegions | detectron2/modeling/roi_heads/fast_rcnn.py:208-222 | when no target is -100 the classification loss is the mean over all R regions, NaN when R is 0 |
| FastRcnnOutputs.SmoothL1Loss | detectron2/modeling/roi_heads/fast_rcnn.py:224-284 | zero when the empty flag is set; otherwise succeeds iff every foreground class window exists; the foreground sum divided by ALL regions, NaN when there are none |
| FastRcnnOutputs.ComputeDiou | detectron2/modeling/roi_heads/fast_rcnn.py:381-451 | raises without ground truth; raises at the four-name unpacking of line 360 iff the box width is not 4; no empty-batch guard: finite iff there are regions, and then the foreground DIoU sum over window 0 divided by R and scaled by the weight |
| FastRcnnOutputs.ComputeDiouFvcore | detectron2/modeling/roi_heads/fast_rcnn.py:292-355 | raises without ground truth; raises at the four-name `unbind` of line 307 iff the box width is not 4; otherwise raises the bad-box assertion iff some foreground region's decoded box is unordered, and else gives the foreground DIoU sum over window 0 divided by R and weighted |
| FastRcnnOutputs.ComputeCiou | detectron2/modeling/roi_heads/fast_rcnn.py:453-511 | raises without ground truth; raises at the four-name unpacking of line 360 iff the box width is not 4; otherwise fails to broadcast iff there are several regression classes and several regions |
| FastRcnnOutputs.CiouSelectsAfterComputing | detectron2/modeling/roi_heads/fast_rcnn.py:495-511 | when it succeeds, CIoU equals the weighted foreground sum over window 0 divided by R |
| FastRcnnOutputs.BoxRegLossKindOf | detectron2/modeling/roi_heads/fast_rcnn.py:552-562 | "diou", "ciou" and "diou_bbox" select their losses; every other name selects smooth-L1 |
| FastRcnnOutputs.Losses | detectron2/modeling/roi_heads/fast_rcnn.py:537-569 | for any box width, the dictionary has exactly the keys loss_cls and loss_box_reg, holding the classification loss and the selected box loss; it fails iff either fails, with the classification error when that fails and otherwise the box-loss error |
| FastRcnnOutputs.FastRcnnLosses | detectron2/modeling/roi_heads/fast_rcnn.py:710-720 | constructing and computing: missing ground truth raises and a result has both keys; as written the classification loss is zero for a batch of no images and NaN for images with no regions; corrected it is zero whenever there are no regions |
| FastRcnnOutputs.PredictBoxes | detectron2/modeling/roi_heads/fast_rcnn.py:571-578 | the per-image groups have the per-image counts and concatenate back to the decoded rows |
| FastRcnnOutputs.PredictBoxesUnique | detectron2/modeling/roi_heads/fast_rcnn.py:571-578 | any grouping with those counts and that concatenation is the one returned |
| FastRcnnOutputs.ClampClass | detectron2/modeling/roi_heads/fast_rcnn.py:595 | `clamp(g, 0, C - 1)`: in range, unchanged when already in range, the nearer end otherwise |
| FastRcnnOutputs.NumBoxes | detectron2/modeling/roi_heads/fast_rcnn.py:590-592 | the number of boxes per row times B is the delta width; it is 1 iff the head is class-agnostic |
| FastRcnnOutputs.PredictBoxesForGtClasses | detectron2/modeling/roi_heads/fast_rcnn.py:580-599 | class-agnostic heads return the single box per region; class-specific heads return the box of the clamped ground-truth class and raise without ground truth; grouped per image |
| FastRcnnOutputs.GtClassBoxSelection | detectron2/modeling/roi_heads/fast_rcnn.py:593-598 | a foreground region gets its own class's box, and a background region gets the last class's box |
| FastRcnnOutputs.NoForegroundGivesZeroBoxLoss | detectron2/modeling/roi_heads/fast_rcnn.py:224-511 | a non-empty batch with no foreground region has box loss exactly zero under every loss kind that can be computed: the IoU kinds need box width 4, and CIoU a class-agnostic head |
| FastRcnnOutputs.ForegroundSumFrame | detectron2/modeling/roi_heads/fast_rcnn.py:252-283 | the foreground sum depends only on the terms of foreground regions |
| FastRcnnOutputs.BoxLossReadsOnlyForeground | detectron2/modeling/roi_heads/fast_rcnn.py:224-511 | changing background regions' predictions does not change any box loss |
| FastRcnnOutputs.SmoothL1ReadsOnlyForeground | detectron2/modeling/roi_heads/fast_rcnn.py:252-284 | the smooth-L1 loss reads only foreground regions |
| FastRcnnOutputs.DiouReadsOnlyForeground | detectron2/modeling/roi_heads/fast_rcnn.py:395-451 | the DIoU loss reads only foreground regions |
| FastRcnnOutputs.DiouFvcoreReadsOnlyForeground | detectron2/modeling/roi_heads/fast_rcnn.py:296-355 | the box DIoU loss and its assertion read only foreground regions |
| FastRcnnOutputs.CiouReadsOnlyForeground | detectron2/modeling/roi_heads/fast_rcnn.py:495-511 | the CIoU loss reads only foreground regions |
| FastRcnnOutputs.IouLossesIgnoreClassLabels | detectron2/modeling/roi_heads/fast_rcnn.py:296-297 | relabelling regions without changing which are foreground leaves every IoU-family loss unchanged, since all read columns 0..3 |
| FastRcnnOutputs.GuardedLossesAreFinite | detectron2/modeling/roi_heads/fast_rcnn.py:182-284 | with the region-count guard the smooth-L1 loss is never NaN, and the classification loss is NaN only when there are regions and every target is the ignore index |
| FastRcnnOutputs.EmptyImageLossIsNaNAsWritten | detectron2/modeling/roi_heads/fast_rcnn.py:182 | one image with no proposals: as written both losses are NaN; with the corrected guard both are zero |
| ResNetBlocks.FlowAppend | detectron2/modeling/backbone/resnet.py:87-100 | running two layer sequences in a row is composing their channel maps |
| ResNetBlocks.PathStrideAppend | detectron2/modeling/backbone/resnet.py:87-100 | the stride of two sequences in a row is the product of their strides |
| ResNetBlocks.Shortcut | detectron2/modeling/backbone/resnet.py:145-167 | a shortcut exists iff the channel counts differ, and then maps input to output channels at the block's stride, through the avg-pool or the strided projection |
| ResNetBlocks.ShortcutFits | detectron2/modeling/backbone/resnet.py:145-167 | the shortcut matches the block iff the channels differ or the stride is 1; an identity shortcut cannot downsample |
| ResNetBlocks.BasicBlock | detectron2/modeling/backbone/resnet.py:40-85 | the two 3x3 convolutions map input to output channels at the block's stride |
| ResNetBlocks.BasicBlockWellFormed | detectron2/modeling/backbone/resnet.py:40-85 | a basic block is well-formed iff its channels differ or its stride is 1 |
| ResNetBlocks.GroupWidth | detectron2/modeling/backbone/resnet.py:143 | with the default bottleneck width 64 the group width is bottleneck channels times groups |
| ResNetBlocks.GroupWidthDivides | detectron2/modeling/backbone/resnet.py:142-143 | with a positive num_groups, the group width is a multiple of it |
| ResNetBlocks.BottleneckGroups | detectron2/modeling/backbone/resnet.py:183-203 | the bottleneck's plain convolutions all pass `nn.Conv2d`'s group check iff split attention replaces the 3x3 convolution or num_groups is positive, as written and corrected |
| ResNetBlocks.ConvStrides | detectron2/modeling/backbone/resnet.py:172 | the stride goes entirely to the 1x1 or entirely to the 3x3 convolution |
| ResNetBlocks.BottleneckPathShape | detectron2/modeling/backbone/resnet.py:174-215 | the main path reaches the output channels iff the 3x3 convolution uses the group width; its stride is the 1x1 stride times the 3x3-or-pool stride |
| ResNetBlocks.BottleneckBlockAsWritten | detectron2/modeling/backbone/resnet.py:109-215 | declares the requested channels and stride, and has no offset predictor |
| ResNetBlocks.BottleneckAsWrittenWellFormed | detectron2/modeling/backbone/resnet.py:109-215 | as written, well-formed iff the shortcut fits and not (avd active and stride in the 1x1) |
| ResNetBlocks.FirstConvStride | detectron2/modeling/backbone/resnet.py:172-207 | the corrected 1x1 stride makes the total main-path stride exactly the block stride |
| ResNetBlocks.BottleneckBlock | detectron2/modeling/backbone/resnet.py:109-215 | the main path maps input to output channels at exactly the block stride |
| ResNetBlocks.BottleneckBlockWellFormed | detectron2/modeling/backbone/resnet.py:109-215 | corrected: well-formed iff the channels differ or the stride is 1 |
| ResNetBlocks.AvdStridesTwiceAsWritten | detectron2/modeling/backbone/resnet.py:172-207 | stride 2 with avd and stride_in_1x1: as written the main path strides 4 while the shortcut strides 2; corrected it strides 2 |
| ResNetBlocks.OffsetChannels | detectron2/modeling/backbone/resnet.py:333-339 | offsets per deformable group: 27 when modulated, 18 otherwise |
| ResNetBlocks.DeformBottleneckBlockAsWritten | detectron2/modeling/backbone/resnet.py:271-387 | the offset predictor reads bottleneck_channels channels |
| ResNetBlocks.DeformAsWrittenWellFormed | detectron2/modeling/backbone/resnet.py:271-387 | as written, well-formed iff the shortcut fits, avd does not stride twice, and the group width equals bottleneck_channels |
| ResNetBlocks.DeformBottleneckBlock | detectron2/modeling/backbone/resnet.py:271-387 | the main path maps input to output at the block stride, and the offset predictor reads conv1's output at conv2's stride with the right offset count |
| ResNetBlocks.DeformBottleneckBlockWellFormed | detectron2/modeling/backbone/resnet.py:271-387 | corrected: well-formed iff the channels differ or the stride is 1 |
| ResNetBlocks.DeformWidthMismatchAsWritten | detectron2/modeling/backbone/resnet.py:296-376 | 64 bottleneck channels in 2 groups: conv1 writes 128 channels, the as-written offset predictor expects 64, the corrected block fits |
| ResNetBlocks.DeformGroups | detectron2/modeling/backbone/resnet.py:341-349 | the deformable block's plain convolutions pass the group check iff deform_num_groups is positive and divides the channels the offset predictor reads: bottleneck_channels as written, the group width corrected |
| ResNetBlocks.BasicStem | detectron2/modeling/backbone/resnet.py:445-498 | stride 4 through its layers; the deep stem reads 3 channels and writes twice the stem width, otherwise the given channels |
| ResNet.ParseNatToString | detectron2/modeling/backbone/resnet.py:550-569 | reading back the decimal digits of `str(n)` gives n |
| ResNet.NatToStringInjective | detectron2/modeling/backbone/resnet.py:550-569 | different stage numbers get different names |
| ResNet.Resolve | detectron2/modeling/backbone/resnet.py:550-587 | every string resolves to a module whose name is that string |
| ResNet.ResolveName | detectron2/modeling/backbone/resnet.py:550-587 | resolving a module's name gives back the module |
| ResNet.NameInjective | detectron2/modeling/backbone/resnet.py:550-587 | distinct modules have distinct names |
| ResNet.Children | detectron2/modeling/backbone/resnet.py:550-580 | the children are the stem, the k stages, and avgpool and linear when there is a classifier |
| ResNet.StrideTable | detectron2/modeling/backbone/resnet.py:550-569 | the stem's stride, and for stage i the product of the stem stride and every block stride up to it |
| ResNet.ChannelTable | detectron2/modeling/backbone/resnet.py:550-569 | the stem's output channels, and for stage i the output channels of its last block |
| ResNet.NewResNet | detectron2/modeling/backbone/resnet.py:534-587 | succeeds iff no stage is empty, a classifier has a stage to follow, and the out features are non-empty known children; records the stride and channel tables; defaults to the last layer |
| ResNet.NewResNetConstructs | detectron2/modeling/backbone/resnet.py:534-587 | a constructed network satisfies the invariant that forward, output_shape and freeze rely on |
| ResNet.RequestedStages | detectron2/modeling/backbone/resnet.py:589-604 | exactly the requested stages among the first k |
| ResNet.ForwardReturnsRequestedFeatures | detectron2/modeling/backbone/resnet.py:589-604 | forward returns exactly the requested features except "avgpool", which is accepted but never returned |
| ResNet.OutputShape | detectron2/modeling/backbone/resnet.py:606-612 | defined iff every out feature has a recorded stride; then each maps to its channels and stride |
| ResNet.OutputShapeDefined | detectron2/modeling/backbone/resnet.py:606-612 | for a constructed network, defined iff neither linear nor avgpool is requested |
| ResNet.ModuleOrder | detectron2/modeling/backbone/resnet.py:614-636 | the stem first, then the stages in order |
| ResNet.FreezeIsPrefix | detectron2/modeling/backbone/resnet.py:614-636 | `freeze(f)` freezes a prefix of stem-then-stages |
| ResNet.FreezeMonotone | detectron2/modeling/backbone/resnet.py:614-636 | a larger freeze level freezes a superset |
| ResNet.FreezeCount | detectron2/modeling/backbone/resnet.py:614-636 | the number of frozen modules is the prefix length, at most stages + 1 |
| ResNet.MakeBlock | detectron2/modeling/backbone/resnet.py:660-668 | a block of the chosen class has the requested channels and stride; the corrected block is well-formed iff its channels differ or its stride is 1, and the block as written additionally needs its class to be sound at that stride (no double stride from avd with stride_in_1x1; for the deformable class, group width equal to bottleneck_channels); every plain convolution passes `nn.Conv2d`'s group check iff the class's group counts fit |
| ResNet.LaterBlocksKeepStride | detectron2/modeling/backbone/resnet.py:639-671 | when only the first block strides, the stage's stride is the first block's |
| ResNet.StageBlock | detectron2/modeling/backbone/resnet.py:660-670 | block i reads the stage input when i is 0 and the stage output after that, strides only when i is 0, and is well-formed and passes the group check under the same conditions as a block of its class |
| ResNet.MakeStage | detectron2/modeling/backbone/resnet.py:639-671 | raises the assertion iff "stride" is passed; otherwise, when there are blocks to build, raises TypeError iff the keyword arguments miss one the class requires or hold one it does not accept, and then raises ValueError iff the class, with the omitted keywords at their defaults, has a group count `nn.Conv2d` refuses; on success block i reads the stage input (i = 0) or out_channels, writes out_channels and strides first_stride (i = 0) or 1; the blocks chain, stride first_stride overall, and are all well-formed iff the first block's shortcut fits and, as written, the bound class is sound at first_stride |
| ResNet.MakeStageBlock | detectron2/modeling/backbone/resnet.py:660-670 | block i of a built stage is exactly the block of the class bound to the passed keywords (omitted ones at their defaults) for its input channels, out_channels and stride |
| ResNet.StageBlocksWellFormed | detectron2/modeling/backbone/resnet.py:660-670 | a stage's blocks are all well-formed exactly when its first block is, since every later block maps out_channels to out_channels at stride 1 |
| ResNet.Bound | detectron2/modeling/backbone/resnet.py:109-124 | a call passing every argument the class takes binds the class unchanged; binding keeps the class kind and bottleneck_channels, the one argument without a default |
| ResNet.BoundIdempotent | detectron2/modeling/backbone/resnet.py:109-124 | binding the same keyword arguments a second time changes nothing |
| ResNet.OmittedKeywordsTakeDefaults | detectron2/modeling/backbone/resnet.py:109-124 | a bottleneck stage given only bottleneck_channels builds with the defaults stride_in_1x1=False, avd=False and radix=2, whatever the class value holds, and its block lines up |
| ResNetBuilder.OutStageIndex | detectron2/modeling/backbone/resnet.py:752 | a known name gives an index 2..5 naming the matching stage |
| ResNetBuilder.OutStageIndexAccepts | detectron2/modeling/backbone/resnet.py:752 | exactly res2..res5 are known; every other name raises |
| ResNetBuilder.MaxStageIndex | detectron2/modeling/backbone/resnet.py:753 | defined iff some feature is requested; then the largest requested index |
| ResNetBuilder.StageFirstStride | detectron2/modeling/backbone/resnet.py:757 | stride 1 exactly for the first stage and a dilated res5, otherwise 2 |
| ResNetBuilder.StageKeywordsFit | detectron2/modeling/backbone/resnet.py:758-779 | the stage arguments never contain "stride"; they bind to the stage's block class unless the depth is 18 or 34 and the ResNeSt arguments reach `BasicBlock`, as they do in the code as written; binding them leaves the class unchanged, since every argument it takes is passed |
| ResNetBuilder.ScheduleClosedForm | detectron2/modeling/backbone/resnet.py:754-787 | stage j gets its table's block count and first stride; output channels res2 times 2^j; input the previous output (or the stem's); bottleneck width doubling likewise; the block class and keyword arguments the builder chooses for that stage |
| ResNetBuilder.BuildStages | detectron2/modeling/backbone/resnet.py:783 | the stage loop succeeds iff every `make_stage` call does; stage i is then `make_stage` of entry i, otherwise the error is that of a failing entry |
| ResNetBuilder.ScheduledSpec | detectron2/modeling/backbone/resnet.py:754-787 | stage j of the schedule has a positive block count, its first stride, the previous output (or the stem's) as input and res2 times 2^j as output, and after the first stage its input and output widths differ |
| ResNetBuilder.ScheduledClass | detectron2/modeling/backbone/resnet.py:762-779 | stage j uses `BasicBlock` for depths 18 and 34 and otherwise the bottleneck or deformable class its deform flag selects, with the bottleneck width doubled j times, and receives the keyword arguments the builder passes |
| ResNetBuilder.PlainStageGroups | detectron2/modeling/backbone/resnet.py:758-779 | a stage without deformable blocks passes the group check iff the depth is 18 or 34, radix is above 1, or NUM_GROUPS is positive |
| ResNetBuilder.GroupsWithoutDeform | detectron2/modeling/backbone/resnet.py:758-779 | without deformable stages, every stage passes the group check iff the depth is 18 or 34, radix is above 1, or NUM_GROUPS is positive, in both variants |
| ResNetBuilder.GroupsVariantsAgree | detectron2/modeling/backbone/resnet.py:341-349 | without deformable stages, the group check passes as written iff it passes corrected |
| ResNetBuilder.OnlyRes2Deformable | detectron2/modeling/backbone/resnet.py:758-781 | with only res2 deformable and a positive NUM_GROUPS, the group check comes down to res2's offset predictor |
| ResNetBuilder.SpecsBuild | detectron2/modeling/backbone/resnet.py:754-787 | for an accepted configuration the stage loop succeeds iff every block class accepts its arguments (as written, not for depths 18 and 34) and every stage's group counts pass `nn.Conv2d`'s check (resnet.py:183-203, 341-349); a failure is the keyword mismatch for depths 18 and 34 as written and the group error otherwise |
| ResNetBuilder.SpecBuildsStage | detectron2/modeling/backbone/resnet.py:639-671 | a built stage starts at its input width, every block writes the stage's output width, it strides first_stride overall, chains, and is well-formed iff the shortcut fits and, as written, its bound class is sound |
| ResNetBuilder.ConfigError | detectron2/modeling/backbone/resnet.py:697-753 | no error iff the configuration passes every table lookup and assertion |
| ResNetBuilder.ScheduleSatisfiesBackbone | detectron2/modeling/backbone/resnet.py:788 | the scheduled stages and out features always satisfy the `ResNet` constructor |
| ResNetBuilder.BuiltNetwork | detectron2/modeling/backbone/resnet.py:702-788 | the backbone has the configured stem, the scheduled stages, the requested out features, and their stride and channel tables |
| ResNetBuilder.Assemble | detectron2/modeling/backbone/resnet.py:702-788 | succeeds iff the configuration is accepted, as written the depth is not 18 or 34, and every stage's group counts fit; a rejected configuration gives its own error, an accepted one fails with the keyword mismatch (depths 18 and 34 as written) or the group error; the result is the built network frozen at freeze_at |
| ResNetBuilder.BuildResNetBackboneAsWritten | detectron2/modeling/backbone/resnet.py:688-788 | every depth missing from the stem-width table, including 18 and 34, raises at that lookup; otherwise it succeeds iff the configuration is accepted and every stage's group counts fit, an accepted configuration failing only with the group error; it builds the blocks as written |
| ResNetBuilder.BuildResNetBackbone | detectron2/modeling/backbone/resnet.py:688-788 | fails at the stem-width lookup only with a deep stem of unknown width; otherwise succeeds iff the configuration is accepted and every stage's corrected group counts fit, an accepted configuration failing only with the group error; where the stem width exists it fails as the code as written does whenever both fail, and without deformable stages it agrees with it on success and failure |
| ResNetBuilder.BuiltStage | detectron2/modeling/backbone/resnet.py:754-787 | stage j is non-empty, reads the previous stage's output (the stem's for j = 0), every block writes res2 times 2^j channels, the stage strides by its first stride, and its blocks chain |
| ResNetBuilder.BuiltStageSound | detectron2/modeling/backbone/resnet.py:754-787 | with a positive res2 width, stage j's blocks are all well-formed iff the stage is sound: always with the corrected classes, and as written iff its class is sound at the stage's first stride |
| ResNetBuilder.ScheduledStrides | detectron2/modeling/backbone/resnet.py:757 | after stage j the total stride is 4*2^j, except 16 after a dilated res5 |
| ResNetBuilder.BuiltFeatures | detectron2/modeling/backbone/resnet.py:754-788 | the backbone reports stride 4 for the stem, then res2 times 2^j channels and the scheduled stride for each stage |
| ResNetBuilder.BuiltFrozen | detectron2/modeling/backbone/resnet.py:788 | the frozen set is a prefix of stem-then-stages |
| ResNetBuilder.BuiltStagesChain | detectron2/modeling/backbone/resnet.py:754-787 | the first stage reads the stem's output and each stage reads its predecessor's output |
| ResNetBuilder.BuiltBlocksWellFormed | detectron2/modeling/backbone/resnet.py:754-787 | every built stage chains; with a positive res2 width, each stage's blocks are all well-formed exactly when the stage is sound, for the classes as written and for the corrected ones |
| ResNetBuilder.CorrectedBlocksWellFormed | detectron2/modeling/backbone/resnet.py:754-787 | with the corrected classes and a positive res2 width, every block of every built stage is well-formed |
| ResNetBuilder.AcceptedBuilds | detectron2/modeling/backbone/resnet.py:688-788 | an accepted configuration with the plain stem builds iff every stage's group counts fit, and then gives the scheduled backbone frozen at freeze_at; otherwise it raises the group error |
| ResNetBuilder.FourStageFeatures | detectron2/modeling/backbone/resnet.py:754-788 | four undilated stages build iff their group counts fit, and then report strides 4, 8, 16 and 32, and channels from res2 width to 8 times it; freeze 2 freezes the stem and res2 |
| ResNetBuilder.R50Backbone | detectron2/modeling/backbone/resnet.py:688-788 | the standard R-50 configuration builds with res2..res5 at strides 4..32 and 256..2048 channels |
| ResNetBuilder.R50GroupsFit | detectron2/modeling/backbone/resnet.py:714-716 | R-50's one group passes every stage's group check |
| ResNetBuilder.DeformR50GroupsRefused | detectron2/modeling/backbone/resnet.py:341-349 | with res2 deformable, three offset groups cannot split its 64 channels, as written or corrected |
| ResNetBuilder.DeformR50GroupsFit | detectron2/modeling/backbone/resnet.py:341-349 | with res2 deformable, two offset groups split its 64 channels and every stage passes the group check |
| ResNetBuilder.DeformGroupsRefused | detectron2/modeling/backbone/resnet.py:341-349 | the R-50 with a deformable res2 and DEFORM_NUM_GROUPS 3 raises the group error in both builders; with 2 it builds |
| ResNetBuilder.ZeroGroupsRefused | detectron2/modeling/backbone/resnet.py:193-203 | an accepted bottleneck configuration with NUM_GROUPS 0, radix 1, the plain stem and no deformable stage raises the group error |
| ResNetBuilder.ShallowDepthUnreachableAsWritten | detectron2/modeling/backbone/resnet.py:697 | R-18 raises at the stem-width lookup as written; corrected, it builds four scheduled basic-block stages |
| ResNetBuilder.ShallowKeywordsRefusedAsWritten | detectron2/modeling/backbone/resnet.py:758-771 | R-18's first `make_stage` raises TypeError as written, because `BasicBlock` (line 40) takes no avd, avg_down, radix or bottleneck_width, so the stage loop fails even past the stem-width lookup; with those withheld it builds |
| ResNetBuilder.ResNeStStridesTwiceAsWritten | detectron2/modeling/backbone/resnet.py:754-787 | a ResNeSt-50 configuration with avd and stride_in_1x1 builds both as written and corrected, but as written res3's blocks are not all well-formed, while corrected they are |

## Left out

- Tensor numerics are abstract. This covers convolutions, normalisation, softmax, cross-entropy, smooth-L1 and the IoU formulas. They are per-row values supplied in `RowLosses`, and the model states which rows and columns each loss reads, how it is reduced, and when it fails.
- `Boxes.clip` and `batched_nms` are not part of this model. They are parameters in `Collaborators`, and the lemmas state what they need of NMS.
- `Box2BoxTransform` decoding is not part of this model. `PredictBoxes` and `PredictBoxesForGtClasses` work on rows the transform already decoded.
- `bbox_transform` inside the IoU losses is abstract. It is folded into the per-row loss values.
- `predict_probs`, `_log_accuracy` and the `inference` wrappers are left out. They are softmax numerics, event-storage logging, and calls that only forward their arguments.
- `SplAtConv2d` (split attention) appears only as a convolution kind with its radix. Its internals live in a module that is not part of this model.
- Weight initialisation, `freeze`'s effect on parameters, and the forward dataflow of blocks and stems are not modelled. Blocks are modelled by their layer structure.
- The backbone registry, `global_cfg` and the normalisation option are left out. The loss name is passed as a parameter.
- The `avgpool` and `linear` classifier modules of `ResNet` are modelled only as names. Their feature recording is what `forward` and `output_shape` use.
- ResNetBlocks.GroupWidth: `int(bottleneck_channels * (bottleneck_width / 64.))` goes through a float. The model uses exact floor division, which differs only where the float product rounds across an integer.
- ResNet.MakeStage: checks which keyword names a block class accepts, and of the argument values only the group counts. The other values and all types are not checked.
- Only `nn.Conv2d`'s group check is modelled. The checks inside `DeformConv` and the split-attention convolutions are not part of this model; the stem's and the shortcuts' convolutions use one group and always pass.
- ResNetBuilder.BuildResNetBackbone: agrees with the code as written on success only where no stage is deformable. With a deformable stage the two offset predictors read different channel counts (the deformable-width finding), so one can pass the group check where the other fails.
- FastRcnnOutputs.FastRcnnLosses: states only the keys, the missing-ground-truth error and the empty-batch classification loss of each variant. The values of each loss are stated by the members it calls.
- The box-width error (`BadBoxDim`) assumes the transform's weights have one entry per box coordinate, as `Box2BoxTransform` (4) and its rotated form (5) do. Weights of another length are not modelled.
- FastRcnnOutputs.ComputeCiou: states only its failure conditions. Its value is stated by `CiouSelectsAfterComputing`.

## Quirks the model reproduces

- `losses()` sends every box-regression loss name other than "diou", "ciou" and "diou_bbox" to smooth-L1, so no name raises (fast_rcnn.py:552-562).
- A block builds a projection shortcut only when `in_channels != out_channels` (resnet.py:51, 145, 298). A strided block with equal channel counts gets the identity shortcut.
- `freeze(k)` with k past the last stage freezes the same modules as freezing every stage (resnet.py:630-635).
- With `deep_stem`, the stem's first convolution reads 3 channels whatever `in_channels` is (resnet.py:463).
- "avgpool" can be named in `out_features`, but `forward` never stores it (resnet.py:598-603). `output_shape` raises a KeyError for "linear" and "avgpool", which have no recorded stride (resnet.py:606-612).
- The IoU-family losses have no empty-batch guard, and they read delta columns 0..3 whatever the class (fast_rcnn.py:296-297).

## Findings

| source | as written | input that shows it | evidently intended | confidence | as-written member | corrected member |
|---|---|---|---|---|---|---|
| detectron2/modeling/roi_heads/fast_rcnn.py:84-117 | the returned indices count rows after non-finite rows were dropped | two rows, the first with a NaN box coordinate: the detection from row 1 is reported as region 0 | indices into the input rows, as documented | high, not executed | FastRcnnInference.RegionIndexAfterDroppedRow | FastRcnnInference.FastRcnnInferenceSingleImage |
| detectron2/modeling/roi_heads/fast_rcnn.py:182 | `_no_instances` tests the number of images | one image with zero proposals: the mean over 0 regions makes loss_cls and the smooth-L1 loss NaN | the guard should test the number of regions | high, not executed | FastRcnnOutputs.EmptyImageLossIsNaNAsWritten | FastRcnnOutputs.GuardedLossesAreFinite |
| detectron2/modeling/backbone/resnet.py:172-207 | with avd active and stride_in_1x1, conv1 strides and the avd pool strides again | stride 2, avd, stride_in_1x1: main path stride 4, shortcut stride 2 | the block strides by `stride` in total | medium, not executed | ResNetBlocks.AvdStridesTwiceAsWritten | ResNetBlocks.BottleneckBlockWellFormed |
| detectron2/modeling/backbone/resnet.py:296-376 | the deformable block's offset predictor (and, with radix 1, its deformable conv) read bottleneck_channels although conv1 writes group_width | 64 bottleneck channels, 2 groups: conv1 writes 128 channels, the offset predictor expects 64 | read group_width channels | medium, not executed | ResNetBlocks.DeformWidthMismatchAsWritten | ResNetBlocks.DeformBottleneckBlockWellFormed |
| detectron2/modeling/backbone/resnet.py:697 | the stem-width table has no entry for depths 18 and 34 and is read for every depth | depth 18: a KeyError before the R18/R34 assertions at 740-746 are reached | shallow depths reach their own checks and build basic-block stages | high, not executed | ResNetBuilder.ShallowDepthUnreachableAsWritten | ResNetBuilder.BuildResNetBackbone |
| detectron2/modeling/backbone/resnet.py:758-771 | the stage arguments always include avd, avg_down, radix and bottleneck_width, but `BasicBlock.__init__` (line 40) accepts only stride and norm besides the channels | depth 18, once the stem width is known: the first `make_stage` call raises TypeError | pass the ResNeSt arguments only to the bottleneck classes | high, not executed | ResNetBuilder.ShallowKeywordsRefusedAsWritten | ResNetBuilder.StageKeywordsFit |

=== FILE: fast_rcnn_inference.dfy ===
/**
  Inference-time decoding of the Fast R-CNN box head
  (`fast_rcnn_inference` and `fast_rcnn_inference_single_image`).

  One image's predictions are R rows of 4*C box coordinates and R rows of
  K+1 class scores (the last score column is background). Decoding drops
  rows holding a non-finite value, drops the background column, clips the
  boxes, keeps every (region, class) pair scoring above the threshold, runs
  class-wise NMS and keeps a top-k prefix. Box clipping and NMS are code
  this model does not contain; they are passed in as `Collaborators`.
 */
module FastRcnnInference {
  import opened Results
  import opened Numerics
  import opened Seqs
  import opened Variants

  datatype Box = Box(x1: real, y1: real, x2: real, y2: real)

  datatype ImageShape = ImageShape(height: nat, width: nat)

  /**
    External operators: `Boxes.clip` (one box to the image) and
    `batched_nms(boxes, scores, class_ids, iou_threshold)`, which returns
    indices into the candidate list.
   */
  datatype Collaborators = Collaborators(
    clip: (Box, ImageShape) -> Box,
    batchedNms: (seq<Box>, seq<real>, seq<nat>, real) -> seq<nat>)

  /** One image's head outputs: box rows of `4 * numRegClasses` coordinates, score rows of `numClasses + 1` scores. */
  datatype Predictions = Predictions(
    boxes: seq<seq<Float>>,
    scores: seq<seq<Float>>,
    numRegClasses: nat,
    numClasses: nat)

  /** A (region, class) pair that passed the score threshold; `region` counts rows after the non-finite filter. */
  datatype Candidate = Candidate(region: nat, cls: nat, score: real, box: Box)

  datatype Detection = Detection(box: Box, score: real, predClass: nat)

  /** The `Instances` of one image: its size and its detections in output order. */
  datatype Instances = Instances(imageSize: ImageShape, detections: seq<Detection>)

  datatype InferenceError = IndexOutOfRange

  /**
    The shapes the caller must supply: as many box rows as score rows, box
    rows of 4*C values with C == 1 (class-agnostic) or C == K, score rows
    of K + 1 values.
   */
  predicate WellShaped(p: Predictions) {
    && |p.boxes| == |p.scores|
    && p.numRegClasses >= 1
    && (p.numRegClasses == 1 || p.numRegClasses == p.numClasses)
    && (forall i :: 0 <= i < |p.boxes| ==> |p.boxes[i]| == 4 * p.numRegClasses)
    && (forall i :: 0 <= i < |p.scores| ==> |p.scores[i]| == p.numClasses + 1)
  }

  predicate RowIsFinite(p: Predictions, i: nat) {
    i < |p.boxes| && i < |p.scores| && AllFinite(p.boxes[i]) && AllFinite(p.scores[i])
  }

  /** The rows `valid_mask` keeps: exactly the rows whose box and score entries are all finite, in order. */
  function FiniteRows(p: Predictions): (r: seq<nat>)
    ensures StrictlyIncreasing(r)
    ensures forall j :: 0 <= j < |r| ==> r[j] < |p.boxes| && RowIsFinite(p, r[j])
    ensures forall i :: 0 <= i < |p.boxes| && RowIsFinite(p, i) ==> i in r
  {
    IndicesWhere(|p.boxes|, (i: nat) => RowIsFinite(p, i))
  }

  /** A decoded row: its C clipped boxes and its K foreground scores. */
  datatype Row = Row(boxes: seq<Box>, scores: seq<real>)

  predicate WellRow(row: Row) {
    |row.boxes| >= 1 && (|row.boxes| == 1 || |row.boxes| == |row.scores|)
  }

  /** The box a class reads: the single box when regression is class-agnostic, else the class's own box. */
  function BoxFor(row: Row, k: nat): Box
    requires WellRow(row) && k < |row.scores|
  {
    if |row.boxes| == 1 then row.boxes[0] else row.boxes[k]
  }

  function CandidateAt(region: nat, row: Row, k: nat): Candidate
    requires WellRow(row) && k < |row.scores|
  {
    Candidate(region, k, row.scores[k], BoxFor(row, k))
  }

  /** Drops the background column and clips every box of a finite row. */
  function DecodeRow(p: Predictions, i: nat, imageShape: ImageShape, ext: Collaborators): (row: Row)
    requires WellShaped(p) && RowIsFinite(p, i)
    ensures |row.boxes| == p.numRegClasses && |row.scores| == p.numClasses
    ensures WellRow(row)
    ensures forall k :: 0 <= k < p.numClasses ==> p.scores[i][k] == Fin(row.scores[k])
  {
    var coords := Reals(p.boxes[i]);
    var s := Reals(p.scores[i]);
    var c := p.numRegClasses;
    Row(
      seq(c, b requires 0 <= b < c =>
        ext.clip(Box(coords[4 * b], coords[4 * b + 1], coords[4 * b + 2], coords[4 * b + 3]), imageShape)),
      s[..p.numClasses])
  }

  function DecodeRows(p: Predictions, valid: seq<nat>, imageShape: ImageShape, ext: Collaborators): (rows: seq<Row>)
    requires WellShaped(p)
    requires forall j :: 0 <= j < |valid| ==> RowIsFinite(p, valid[j])
    ensures |rows| == |valid|
    ensures forall j :: 0 <= j < |valid| ==> rows[j] == DecodeRow(p, valid[j], imageShape, ext)
  {
    seq(|valid|, j requires 0 <= j < |valid| => DecodeRow(p, valid[j], imageShape, ext))
  }

  /** Candidate order of `filter_mask.nonzero()`: by region, then by class. */
  predicate Before(a: Candidate, b: Candidate) {
    a.region < b.region || (a.region == b.region && a.cls < b.cls)
  }

  predicate RowMajor(cs: seq<Candidate>) {
    forall a, b :: 0 <= a < b < |cs| ==> Before(cs[a], cs[b])
  }

  /** Candidates of one region over the classes `k < n`. */
  function RowCandidates(region: nat, row: Row, thresh: real, n: nat): (r: seq<Candidate>)
    requires WellRow(row) && n <= |row.scores|
    ensures forall c :: c in r ==> c.region == region && c.cls < n && c.score > thresh && c == CandidateAt(region, row, c.cls)
    ensures forall k :: 0 <= k < n && row.scores[k] > thresh ==> CandidateAt(region, row, k) in r
    ensures RowMajor(r)
  {
    if n == 0 then []
    else
      var prev := RowCandidates(region, row, thresh, n - 1);
      if row.scores[n - 1] > thresh then prev + [CandidateAt(region, row, n - 1)] else prev
  }

  /**
    All (region, class) pairs of the first `n` rows scoring above the
    threshold: exactly those, in row-major order.
   */
  function Candidates(rows: seq<Row>, thresh: real, n: nat): (r: seq<Candidate>)
    requires n <= |rows|
    requires forall i :: 0 <= i < |rows| ==> WellRow(rows[i])
    ensures forall c :: c in r ==>
      c.region < n && c.cls < |rows[c.region].scores| && c.score > thresh
      && c == CandidateAt(c.region, rows[c.region], c.cls)
    ensures forall i, k :: 0 <= i < n && 0 <= k < |rows[i].scores| && rows[i].scores[k] > thresh ==>
      CandidateAt(i, rows[i], k) in r
    ensures RowMajor(r)
  {
    if n == 0 then []
    else
      var prev := Candidates(rows, thresh, n - 1);
      var last := RowCandidates(n - 1, rows[n - 1], thresh, |rows[n - 1].scores|);
      AppendRowKeepsOrder(prev, last, n - 1);
      prev + last
  }

  /** Appending the candidates of a later region keeps row-major order. */
  lemma AppendRowKeepsOrder(prev: seq<Candidate>, last: seq<Candidate>, region: nat)
    requires RowMajor(prev) && RowMajor(last)
    requires forall c :: c in prev ==> c.region < region
    requires forall c :: c in last ==> c.region == region
    ensures RowMajor(prev + last)
  {
    forall a, b | 0 <= a < |prev| && 0 <= b < |last|
      ensures Before(prev[a], last[b])
    {
      assert prev[a] in prev;
      assert last[b] in last;
    }
    var all := prev + last;
    forall a, b | 0 <= a < b < |all|
      ensures Before(all[a], all[b])
    {
      if b < |prev| {
        assert all[a] == prev[a] && all[b] == prev[b];
      } else if a >= |prev| {
        assert all[a] == last[a - |prev|] && all[b] == last[b - |prev|];
      } else {
        assert all[a] == prev[a] && all[b] == last[b - |prev|];
      }
    }
  }

  function CandidateBoxes(cs: seq<Candidate>): (r: seq<Box>)
    ensures |r| == |cs| && forall j :: 0 <= j < |cs| ==> r[j] == cs[j].box
  {
    seq(|cs|, j requires 0 <= j < |cs| => cs[j].box)
  }

  function CandidateScores(cs: seq<Candidate>): (r: seq<real>)
    ensures |r| == |cs| && forall j :: 0 <= j < |cs| ==> r[j] == cs[j].score
  {
    seq(|cs|, j requires 0 <= j < |cs| => cs[j].score)
  }

  function CandidateClasses(cs: seq<Candidate>): (r: seq<nat>)
    ensures |r| == |cs| && forall j :: 0 <= j < |cs| ==> r[j] == cs[j].cls
  {
    seq(|cs|, j requires 0 <= j < |cs| => cs[j].cls)
  }

  /** The thresholded candidates of one image, regions numbered after the non-finite filter. */
  function ImageCandidates(p: Predictions, imageShape: ImageShape, scoreThresh: real, ext: Collaborators): (r: seq<Candidate>)
    requires WellShaped(p)
  {
    var rows := DecodeRows(p, FiniteRows(p), imageShape, ext);
    Candidates(rows, scoreThresh, |rows|)
  }

  /** Every candidate of an image reads a finite input row and a foreground score above the threshold. */
  lemma CandidateFacts(p: Predictions, imageShape: ImageShape, scoreThresh: real, ext: Collaborators, c: Candidate)
    requires WellShaped(p)
    requires c in ImageCandidates(p, imageShape, scoreThresh, ext)
    ensures c.region < |FiniteRows(p)|
    ensures c.cls < p.numClasses && c.score > scoreThresh
    ensures p.scores[FiniteRows(p)[c.region]][c.cls] == Fin(c.score)
  {
    var valid := FiniteRows(p);
    var rows := DecodeRows(p, valid, imageShape, ext);
    assert rows[c.region] == DecodeRow(p, valid[c.region], imageShape, ext);
  }

  lemma CandidatesFacts(p: Predictions, imageShape: ImageShape, scoreThresh: real, ext: Collaborators)
    requires WellShaped(p)
    ensures var cs := ImageCandidates(p, imageShape, scoreThresh, ext);
      forall m :: 0 <= m < |cs| ==>
        && cs[m].region < |FiniteRows(p)|
        && cs[m].cls < p.numClasses && cs[m].score > scoreThresh
        && p.scores[FiniteRows(p)[cs[m].region]][cs[m].cls] == Fin(cs[m].score)
  {
    var cs := ImageCandidates(p, imageShape, scoreThresh, ext);
    forall m | 0 <= m < |cs|
      ensures cs[m].region < |FiniteRows(p)|
      ensures cs[m].cls < p.numClasses && cs[m].score > scoreThresh
      ensures p.scores[FiniteRows(p)[cs[m].region]][cs[m].cls] == Fin(cs[m].score)
    {
      CandidateFacts(p, imageShape, scoreThresh, ext, cs[m]);
    }
  }

  /** What class-wise NMS keeps of the image's candidates. */
  function NmsKeep(p: Predictions, imageShape: ImageShape, scoreThresh: real, nmsThresh: real, ext: Collaborators): seq<nat>
    requires WellShaped(p)
  {
    var cs := ImageCandidates(p, imageShape, scoreThresh, ext);
    ext.batchedNms(CandidateBoxes(cs), CandidateScores(cs), CandidateClasses(cs), nmsThresh)
  }

  /** `keep[:topk]` when `topk >= 0`, otherwise all of `keep`. */
  function TopK(keep: seq<nat>, topk: int): (r: seq<nat>)
    ensures topk >= 0 ==> |r| == if topk < |keep| then topk else |keep|
    ensures topk < 0 ==> |r| == |keep|
    ensures r <= keep
  {
    if topk >= 0 && topk < |keep| then keep[..topk] else keep
  }

  predicate IndicesInRange(keep: seq<nat>, n: nat) {
    forall j :: 0 <= j < |keep| ==> keep[j] < n
  }

  /**
    The output is the kept candidates in the order of `keep`: detection j
    is candidate `keep[j]`, and region index j is that candidate's region
    as `regionOf` reports it.
   */
  predicate EmitsKept(imageShape: ImageShape, cs: seq<Candidate>, keep: seq<nat>, regionOf: nat -> nat,
                      inst: Instances, regions: seq<nat>) {
    && inst.imageSize == imageShape
    && |inst.detections| == |keep| == |regions|
    && forall j :: 0 <= j < |keep| ==>
         && keep[j] < |cs|
         && var c := cs[keep[j]];
           inst.detections[j] == Detection(c.box, c.score, c.cls) && regions[j] == regionOf(c.region)
  }

  /** Indexing the candidates with the kept indices; an index out of range raises. */
  function Emit(imageShape: ImageShape, cs: seq<Candidate>, keep: seq<nat>, regionOf: nat -> nat): (r: Result<(Instances, seq<nat>), InferenceError>)
    ensures r.Ok? <==> IndicesInRange(keep, |cs|)
    ensures r.Ok? ==> EmitsKept(imageShape, cs, keep, regionOf, r.value.0, r.value.1)
  {
    if !IndicesInRange(keep, |cs|) then Err(IndexOutOfRange)
    else
      var kept := Gather(cs, keep);
      Ok((Instances(imageShape, seq(|kept|, j requires 0 <= j < |kept| => Detection(kept[j].box, kept[j].score, kept[j].cls))),
          seq(|kept|, j requires 0 <= j < |kept| => regionOf(kept[j].region))))
  }

  /**
    Detection j came from row `valid[kept[j]]` of the input, `valid` being
    the finite rows: its class is a foreground class whose score in that
    row is the detection's score, above the threshold.
   */
  predicate DetectionsReadFilteredRows(p: Predictions, scoreThresh: real, inst: Instances, kept: seq<nat>) {
    var valid := FiniteRows(p);
    && |inst.detections| == |kept|
    && forall j :: 0 <= j < |kept| ==>
         && kept[j] < |valid|
         && inst.detections[j].score > scoreThresh
         && inst.detections[j].predClass < p.numClasses
         && valid[kept[j]] < |p.scores|
         && inst.detections[j].predClass < |p.scores[valid[kept[j]]]|
         && p.scores[valid[kept[j]]][inst.detections[j].predClass] == Fin(inst.detections[j].score)
  }

  /**
    Detection j came from input row `kept[j]`, a finite row: its class is
    a foreground class whose score in that row is the detection's score,
    above the threshold.
   */
  predicate DetectionsReadRows(p: Predictions, scoreThresh: real, inst: Instances, kept: seq<nat>) {
    && |inst.detections| == |kept|
    && forall j :: 0 <= j < |kept| ==>
         && kept[j] < |p.boxes|
         && RowIsFinite(p, kept[j])
         && inst.detections[j].score > scoreThresh
         && inst.detections[j].predClass < p.numClasses
         && inst.detections[j].predClass < |p.scores[kept[j]]|
         && p.scores[kept[j]][inst.detections[j].predClass] == Fin(inst.detections[j].score)
  }

  /**
    `fast_rcnn_inference_single_image` as written: the returned region
    indices count rows AFTER the non-finite rows were dropped.
   */
  function FastRcnnInferenceSingleImageAsWritten(
    p: Predictions, imageShape: ImageShape, scoreThresh: real, nmsThresh: real, topkPerImage: int, ext: Collaborators
  ): (r: Result<(Instances, seq<nat>), InferenceError>)
    requires WellShaped(p)
    ensures r.Ok? <==> IndicesInRange(TopK(NmsKeep(p, imageShape, scoreThresh, nmsThresh, ext), topkPerImage),
                                      |ImageCandidates(p, imageShape, scoreThresh, ext)|)
    ensures r.Ok? ==> |r.value.1| == |TopK(NmsKeep(p, imageShape, scoreThresh, nmsThresh, ext), topkPerImage)|
    ensures r.Ok? ==> DetectionsReadFilteredRows(p, scoreThresh, r.value.0, r.value.1)
    ensures r.Ok? ==>
      EmitsKept(imageShape, ImageCandidates(p, imageShape, scoreThresh, ext),
                TopK(NmsKeep(p, imageShape, scoreThresh, nmsThresh, ext), topkPerImage), (region: nat) => region,
                r.value.0, r.value.1)
  {
    var cs := ImageCandidates(p, imageShape, scoreThresh, ext);
    var keep := TopK(NmsKeep(p, imageShape, scoreThresh, nmsThresh, ext), topkPerImage);
    var r := Emit(imageShape, cs, keep, (region: nat) => region);
    if r.Ok? then
      CandidatesFacts(p, imageShape, scoreThresh, ext);
      r
    else r
  }

  /**
    `fast_rcnn_inference_single_image` with the returned region indices
    mapped back to the caller's rows, as its documentation promises.
   */
  function FastRcnnInferenceSingleImage(
    p: Predictions, imageShape: ImageShape, scoreThresh: real, nmsThresh: real, topkPerImage: int, ext: Collaborators
  ): (r: Result<(Instances, seq<nat>), InferenceError>)
    requires WellShaped(p)
    ensures r.Ok? <==> IndicesInRange(TopK(NmsKeep(p, imageShape, scoreThresh, nmsThresh, ext), topkPerImage),
                                      |ImageCandidates(p, imageShape, scoreThresh, ext)|)
    ensures r.Ok? ==> |r.value.1| == |TopK(NmsKeep(p, imageShape, scoreThresh, nmsThresh, ext), topkPerImage)|
    ensures r.Ok? ==> DetectionsReadRows(p, scoreThresh, r.value.0, r.value.1)
    ensures r.Ok? ==>
      var cs := ImageCandidates(p, imageShape, scoreThresh, ext);
      var keep := TopK(NmsKeep(p, imageShape, scoreThresh, nmsThresh, ext), topkPerImage);
      && EmitsKept(imageShape, cs, keep, RowOfRegion(FiniteRows(p)), r.value.0, r.value.1)
      && forall j :: 0 <= j < |keep| ==>
           keep[j] < |cs| && cs[keep[j]].region < |FiniteRows(p)| && r.value.1[j] == FiniteRows(p)[cs[keep[j]].region]
  {
    var cs := ImageCandidates(p, imageShape, scoreThresh, ext);
    var keep := TopK(NmsKeep(p, imageShape, scoreThresh, nmsThresh, ext), topkPerImage);
    var r := Emit(imageShape, cs, keep, RowOfRegion(FiniteRows(p)));
    if r.Ok? then
      EmittedDetectionsReadRows(p, imageShape, scoreThresh, ext, keep);
      r
    else r
  }

  /** Region i of the filtered rows is input row `valid[i]`. */
  function RowOfRegion(valid: seq<nat>): nat -> nat {
    (region: nat) => if region < |valid| then valid[region] else region
  }

  lemma EmittedDetectionsReadRows(p: Predictions, imageShape: ImageShape, scoreThresh: real, ext: Collaborators, keep: seq<nat>)
    requires WellShaped(p)
    requires Emit(imageShape, ImageCandidates(p, imageShape, scoreThresh, ext), keep, RowOfRegion(FiniteRows(p))).Ok?
    ensures var r := Emit(imageShape, ImageCandidates(p, imageShape, scoreThresh, ext), keep, RowOfRegion(FiniteRows(p)));
      DetectionsReadRows(p, scoreThresh, r.value.0, r.value.1)
  {
    CandidatesFacts(p, imageShape, scoreThresh, ext);
  }

  /** `batched_nms` returns indices into the candidate list it was given. */
  ghost predicate NmsReturnsIndices(ext: Collaborators) {
    forall b, s, c, t :: IndicesInRange(ext.batchedNms(b, s, c, t), |b|)
  }

  /** `batched_nms` returns in-range indices ordered by decreasing score. */
  ghost predicate NmsSortedByScore(ext: Collaborators) {
    forall b, s: seq<real>, c, t ::
      var keep := ext.batchedNms(b, s, c, t);
      |b| == |s| ==>
        && IndicesInRange(keep, |b|)
        && forall x, y :: 0 <= x < y < |keep| ==> s[keep[x]] >= s[keep[y]]
  }

  /** With an NMS that returns candidate indices, single-image inference never raises. */
  lemma NeverFailsWithWellBehavedNms(
    p: Predictions, imageShape: ImageShape, scoreThresh: real, nmsThresh: real, topkPerImage: int, ext: Collaborators)
    requires WellShaped(p)
    requires NmsReturnsIndices(ext)
    ensures FastRcnnInferenceSingleImage(p, imageShape, scoreThresh, nmsThresh, topkPerImage, ext).Ok?
    ensures FastRcnnInferenceSingleImageAsWritten(p, imageShape, scoreThresh, nmsThresh, topkPerImage, ext).Ok?
  {
    var cs := ImageCandidates(p, imageShape, scoreThresh, ext);
    var all := NmsKeep(p, imageShape, scoreThresh, nmsThresh, ext);
    assert IndicesInRange(all, |CandidateBoxes(cs)|);
    var keep := TopK(all, topkPerImage);
    assert forall j :: 0 <= j < |keep| ==> keep[j] == all[j];
  }

  /**
    A threshold no score exceeds (1.1 for probabilities) leaves no
    candidate, hence no detection.
   */
  lemma HighThresholdGivesNoDetections(
    p: Predictions, imageShape: ImageShape, scoreThresh: real, nmsThresh: real, topkPerImage: int, ext: Collaborators)
    requires WellShaped(p)
    requires NmsReturnsIndices(ext)
    requires forall i, k :: 0 <= i < |p.scores| && 0 <= k < |p.scores[i]| && p.scores[i][k].Fin? ==>
      p.scores[i][k].val <= scoreThresh
    ensures ImageCandidates(p, imageShape, scoreThresh, ext) == []
    ensures var r := FastRcnnInferenceSingleImage(p, imageShape, scoreThresh, nmsThresh, topkPerImage, ext);
      r.Ok? && r.value.0.detections == [] && r.value.1 == []
    ensures var r := FastRcnnInferenceSingleImageAsWritten(p, imageShape, scoreThresh, nmsThresh, topkPerImage, ext);
      r.Ok? && r.value.0.detections == [] && r.value.1 == []
  {
    var v := FiniteRows(p);
    var rows := DecodeRows(p, v, imageShape, ext);
    forall i | 0 <= i < |rows|
      ensures forall k :: 0 <= k < |rows[i].scores| ==> rows[i].scores[k] <= scoreThresh
    {
      assert rows[i] == DecodeRow(p, v[i], imageShape, ext);
    }
    NothingAboveThreshold(rows, scoreThresh, |rows|);
    var cs := ImageCandidates(p, imageShape, scoreThresh, ext);
    NeverFailsWithWellBehavedNms(p, imageShape, scoreThresh, nmsThresh, topkPerImage, ext);
    var all := NmsKeep(p, imageShape, scoreThresh, nmsThresh, ext);
    assert IndicesInRange(all, |CandidateBoxes(cs)|);
    NonEmptyKeepNeedsCandidates(all, |cs|);
  }

  /** Kept indices point into the candidates, so a non-empty keep needs a candidate. */
  lemma NonEmptyKeepNeedsCandidates(keep: seq<nat>, n: nat)
    requires IndicesInRange(keep, n)
    ensures |keep| > 0 ==> n > 0
  {
    if |keep| > 0 {
      assert keep[0] < n;
    }
  }

  lemma {:induction false} NothingAboveThreshold(rows: seq<Row>, thresh: real, n: nat)
    requires n <= |rows|
    requires forall i :: 0 <= i < |rows| ==> WellRow(rows[i])
    requires forall i :: 0 <= i < |rows| ==> forall k :: 0 <= k < |rows[i].scores| ==> rows[i].scores[k] <= thresh
    ensures Candidates(rows, thresh, n) == []
  {
    if n > 0 {
      NothingAboveThreshold(rows, thresh, n - 1);
      RowNothingAboveThreshold(n - 1, rows[n - 1], thresh, |rows[n - 1].scores|);
    }
  }

  lemma {:induction false} RowNothingAboveThreshold(region: nat, row: Row, thresh: real, n: nat)
    requires WellRow(row) && n <= |row.scores|
    requires forall k :: 0 <= k < |row.scores| ==> row.scores[k] <= thresh
    ensures RowCandidates(region, row, thresh, n) == []
  {
    if n > 0 {
      RowNothingAboveThreshold(region, row, thresh, n - 1);
    }
  }

  /**
    The detections are the `k` best of the NMS survivors `all` (indices into
    `cs`, best first): as many as `k` allows, in non-increasing score order,
    and none scoring below a survivor that was cut off.
   */
  predicate BestOfSurvivors(dets: seq<Detection>, cs: seq<Candidate>, all: seq<nat>, k: nat) {
    && IndicesInRange(all, |cs|)
    && |dets| == (if k < |all| then k else |all|)
    && (forall x, y :: 0 <= x < y < |dets| ==> dets[x].score >= dets[y].score)
    && (forall x, m :: 0 <= x < |dets| && |dets| <= m < |all| ==> dets[x].score >= cs[all[m]].score)
  }

  /** Cutting a best-first survivor list to its first `k` and emitting it keeps the best `k`. */
  lemma EmitTopKKeepsBest(imageShape: ImageShape, cs: seq<Candidate>, all: seq<nat>, k: nat, regionOf: nat -> nat)
    requires IndicesInRange(all, |cs|)
    requires forall x, y :: 0 <= x < y < |all| ==> cs[all[x]].score >= cs[all[y]].score
    ensures var r := Emit(imageShape, cs, TopK(all, k), regionOf);
      r.Ok? && BestOfSurvivors(r.value.0.detections, cs, all, k)
  {
    var keep := TopK(all, k);
    assert forall j :: 0 <= j < |keep| ==> keep[j] == all[j];
  }

  /**
    With an NMS that returns survivors by decreasing score and
    `topk_per_image >= 0`, the result holds the `topk_per_image`
    best-scoring survivors, best first.
   */
  lemma TopKKeepsHighestScoring(
    p: Predictions, imageShape: ImageShape, scoreThresh: real, nmsThresh: real, topkPerImage: int, ext: Collaborators)
    requires WellShaped(p)
    requires NmsSortedByScore(ext)
    requires topkPerImage >= 0
    ensures var r := FastRcnnInferenceSingleImage(p, imageShape, scoreThresh, nmsThresh, topkPerImage, ext);
      && r.Ok?
      && BestOfSurvivors(r.value.0.detections, ImageCandidates(p, imageShape, scoreThresh, ext),
                         NmsKeep(p, imageShape, scoreThresh, nmsThresh, ext), topkPerImage)
  {
    var cs := ImageCandidates(p, imageShape, scoreThresh, ext);
    var all := NmsKeep(p, imageShape, scoreThresh, nmsThresh, ext);
    var s := CandidateScores(cs);
    assert IndicesInRange(all, |CandidateBoxes(cs)|);
    assert forall x, y :: 0 <= x < y < |all| ==> s[all[x]] >= s[all[y]];
    EmitTopKKeepsBest(imageShape, cs, all, topkPerImage, RowOfRegion(FiniteRows(p)));
  }

  /** The rows of `p` that `valid_mask` keeps, as a new input. */
  function KeepFiniteRows(p: Predictions): (q: Predictions)
    requires WellShaped(p)
    ensures WellShaped(q)
    ensures forall i :: 0 <= i < |q.boxes| ==> RowIsFinite(q, i)
  {
    var v := FiniteRows(p);
    Predictions(Gather(p.boxes, v), Gather(p.scores, v), p.numRegClasses, p.numClasses)
  }

  /**
    Dropping the non-finite rows beforehand does not change what
    single-image inference (as written) returns.
   */
  lemma DroppingNonFiniteRowsFirstChangesNothing(
    p: Predictions, imageShape: ImageShape, scoreThresh: real, nmsThresh: real, topkPerImage: int, ext: Collaborators)
    requires WellShaped(p)
    ensures FastRcnnInferenceSingleImageAsWritten(KeepFiniteRows(p), imageShape, scoreThresh, nmsThresh, topkPerImage, ext)
         == FastRcnnInferenceSingleImageAsWritten(p, imageShape, scoreThresh, nmsThresh, topkPerImage, ext)
  {
    var q := KeepFiniteRows(p);
    var v := FiniteRows(p);
    IndicesWhereAll(|q.boxes|, (i: nat) => RowIsFinite(q, i));
    assert FiniteRows(q) == Range(|v|);
    var rq := DecodeRows(q, FiniteRows(q), imageShape, ext);
    var rp := DecodeRows(p, v, imageShape, ext);
    forall j | 0 <= j < |v|
      ensures rq[j] == rp[j]
    {
      assert q.boxes[j] == p.boxes[v[j]] && q.scores[j] == p.scores[v[j]];
    }
    assert rq == rp;
  }

  /** Image i of a batch, as `zip(scores, boxes, image_shapes)` pairs it. */
  function ImageOf(boxes: seq<seq<seq<Float>>>, scores: seq<seq<seq<Float>>>, numRegClasses: nat, numClasses: nat, i: nat): Predictions
    requires i < |boxes| && i < |scores|
  {
    Predictions(boxes[i], scores[i], numRegClasses, numClasses)
  }

  /** `zip` stops at the shortest of its three arguments. */
  function ZipLength(boxes: seq<seq<seq<Float>>>, scores: seq<seq<seq<Float>>>, imageShapes: seq<ImageShape>): (n: nat)
    ensures n <= |boxes| && n <= |scores| && n <= |imageShapes|
    ensures n == |boxes| || n == |scores| || n == |imageShapes|
  {
    if |boxes| <= |scores| && |boxes| <= |imageShapes| then |boxes|
    else if |scores| <= |imageShapes| then |scores|
    else |imageShapes|
  }

  predicate BatchWellShaped(boxes: seq<seq<seq<Float>>>, scores: seq<seq<seq<Float>>>, imageShapes: seq<ImageShape>,
                            numRegClasses: nat, numClasses: nat)
  {
    forall i :: 0 <= i < ZipLength(boxes, scores, imageShapes) ==>
      WellShaped(ImageOf(boxes, scores, numRegClasses, numClasses, i))
  }

  /**
    Single-image inference on image i of a batch: the code as written, or
    with the region indices mapped back to input rows.
   */
  function ImageInference(
    v: Variant, boxes: seq<seq<seq<Float>>>, scores: seq<seq<seq<Float>>>, imageShapes: seq<ImageShape>,
    numRegClasses: nat, numClasses: nat, scoreThresh: real, nmsThresh: real, topkPerImage: int, ext: Collaborators, i: nat
  ): Result<(Instances, seq<nat>), InferenceError>
    requires BatchWellShaped(boxes, scores, imageShapes, numRegClasses, numClasses)
    requires i < ZipLength(boxes, scores, imageShapes)
  {
    var p := ImageOf(boxes, scores, numRegClasses, numClasses, i);
    match v
    case AsWritten => FastRcnnInferenceSingleImageAsWritten(p, imageShapes[i], scoreThresh, nmsThresh, topkPerImage, ext)
    case Corrected => FastRcnnInferenceSingleImage(p, imageShapes[i], scoreThresh, nmsThresh, topkPerImage, ext)
  }

  /** The per-image results of a batch, in the order `zip` pairs the images. */
  function ImageResults(
    v: Variant, boxes: seq<seq<seq<Float>>>, scores: seq<seq<seq<Float>>>, imageShapes: seq<ImageShape>,
    numRegClasses: nat, numClasses: nat, scoreThresh: real, nmsThresh: real, topkPerImage: int, ext: Collaborators
  ): (rs: seq<Result<(Instances, seq<nat>), InferenceError>>)
    requires BatchWellShaped(boxes, scores, imageShapes, numRegClasses, numClasses)
    ensures |rs| == ZipLength(boxes, scores, imageShapes)
    ensures forall i :: 0 <= i < |rs| ==>
      rs[i] == ImageInference(v, boxes, scores, imageShapes, numRegClasses, numClasses, scoreThresh, nmsThresh, topkPerImage, ext, i)
  {
    var n := ZipLength(boxes, scores, imageShapes);
    seq(n, i requires 0 <= i < n =>
      ImageInference(v, boxes, scores, imageShapes, numRegClasses, numClasses, scoreThresh, nmsThresh, topkPerImage, ext, i))
  }

  /**
    `fast_rcnn_inference`: single-image inference on every zipped image, in
    image order; the first image that raises ends the call with its error.
   */
  function FastRcnnInference(
    v: Variant, boxes: seq<seq<seq<Float>>>, scores: seq<seq<seq<Float>>>, imageShapes: seq<ImageShape>,
    numRegClasses: nat, numClasses: nat, scoreThresh: real, nmsThresh: real, topkPerImage: int, ext: Collaborators
  ): (r: Result<(seq<Instances>, seq<seq<nat>>), InferenceError>)
    requires BatchWellShaped(boxes, scores, imageShapes, numRegClasses, numClasses)
    ensures CollectsInOrder(ImageResults(v, boxes, scores, imageShapes, numRegClasses, numClasses, scoreThresh, nmsThresh, topkPerImage, ext), r)
  {
    CollectPairs(ImageResults(v, boxes, scores, imageShapes, numRegClasses, numClasses, scoreThresh, nmsThresh, topkPerImage, ext))
  }

  /** With an NMS that returns candidate indices, batch inference never raises. */
  lemma BatchNeverFailsWithWellBehavedNms(
    v: Variant, boxes: seq<seq<seq<Float>>>, scores: seq<seq<seq<Float>>>, imageShapes: seq<ImageShape>,
    numRegClasses: nat, numClasses: nat, scoreThresh: real, nmsThresh: real, topkPerImage: int, ext: Collaborators)
    requires BatchWellShaped(boxes, scores, imageShapes, numRegClasses, numClasses)
    requires NmsReturnsIndices(ext)
    ensures FastRcnnInference(v, boxes, scores, imageShapes, numRegClasses, numClasses, scoreThresh, nmsThresh, topkPerImage, ext).Ok?
  {
    var rs := ImageResults(v, boxes, scores, imageShapes, numRegClasses, numClasses, scoreThresh, nmsThresh, topkPerImage, ext);
    forall i | 0 <= i < |rs|
      ensures rs[i].Ok?
    {
      NeverFailsWithWellBehavedNms(ImageOf(boxes, scores, numRegClasses, numClasses, i), imageShapes[i],
                                   scoreThresh, nmsThresh, topkPerImage, ext);
    }
  }

  /**
    The two readings of an image differ only in the region indices: they
    raise together, and on success give the same detections, with the
    as-written position j among the finite rows becoming input row
    `FiniteRows(p)[j]`.
   */
  lemma SingleImageVariantsAgree(
    p: Predictions, imageShape: ImageShape, scoreThresh: real, nmsThresh: real, topkPerImage: int, ext: Collaborators)
    requires WellShaped(p)
    ensures var w := FastRcnnInferenceSingleImageAsWritten(p, imageShape, scoreThresh, nmsThresh, topkPerImage, ext);
      var c := FastRcnnInferenceSingleImage(p, imageShape, scoreThresh, nmsThresh, topkPerImage, ext);
      && (w.Ok? <==> c.Ok?)
      && (w.Err? ==> w == c)
      && (w.Ok? ==>
            && w.value.0 == c.value.0
            && |w.value.1| == |c.value.1|
            && forall j :: 0 <= j < |w.value.1| ==>
                 w.value.1[j] < |FiniteRows(p)| && c.value.1[j] == FiniteRows(p)[w.value.1[j]])
  {
    var w := FastRcnnInferenceSingleImageAsWritten(p, imageShape, scoreThresh, nmsThresh, topkPerImage, ext);
    var c := FastRcnnInferenceSingleImage(p, imageShape, scoreThresh, nmsThresh, topkPerImage, ext);
    if w.Ok? {
      CandidatesFacts(p, imageShape, scoreThresh, ext);
      assert w.value.0.detections == c.value.0.detections;
    }
  }

  /** Two regions of one foreground class; the first region's box has a NaN coordinate. */
  function DroppedRowInput(): Predictions {
    Predictions(
      [[NaN, Fin(0.0), Fin(1.0), Fin(1.0)], [Fin(0.0), Fin(0.0), Fin(1.0), Fin(1.0)]],
      [[Fin(0.9), Fin(0.1)], [Fin(0.9), Fin(0.1)]], 1, 1)
  }

  /** A clip that changes nothing and an NMS that keeps every candidate. */
  function KeepAllCollaborators(): Collaborators {
    Collaborators((b: Box, s: ImageShape) => b, (b: seq<Box>, s: seq<real>, c: seq<nat>, t: real) => Range(|b|))
  }

  lemma DroppedRowFiltered()
    ensures WellShaped(DroppedRowInput())
    ensures !RowIsFinite(DroppedRowInput(), 0)
    ensures FiniteRows(DroppedRowInput()) == [1]
  {
    var p := DroppedRowInput();
    assert !RowIsFinite(p, 0) by { assert !p.boxes[0][0].Fin?; }
    assert RowIsFinite(p, 1);
    var pred := (i: nat) => RowIsFinite(p, i);
    assert IndicesWhere(0, pred) == [];
    assert IndicesWhere(1, pred) == [];
  }

  lemma DroppedRowCandidates()
    ensures WellShaped(DroppedRowInput())
    ensures var cs := ImageCandidates(DroppedRowInput(), ImageShape(10, 10), 0.5, KeepAllCollaborators());
      |cs| == 1 && cs[0].region == 0
    ensures NmsKeep(DroppedRowInput(), ImageShape(10, 10), 0.5, 0.5, KeepAllCollaborators()) == [0]
  {
    var p := DroppedRowInput();
    var ext := KeepAllCollaborators();
    DroppedRowFiltered();
    var rows := DecodeRows(p, [1], ImageShape(10, 10), ext);
    assert rows[0].scores == [0.9];
    var cs := ImageCandidates(p, ImageShape(10, 10), 0.5, ext);
    assert RowCandidates(0, rows[0], 0.5, 0) == [];
    assert cs == [CandidateAt(0, rows[0], 0)];
  }

  /**
    The region indices as written point into the rows left after the
    non-finite filter: with input row 0 non-finite, the detection taken
    from input row 1 is reported as region 0, a row that was dropped.
    The corrected decoder reports row 1.
   */
  lemma RegionIndexAfterDroppedRow()
    ensures
      var p := DroppedRowInput();
      var ext := KeepAllCollaborators();
      && WellShaped(p)
      && !RowIsFinite(p, 0)
      && var asWritten := FastRcnnInferenceSingleImageAsWritten(p, ImageShape(10, 10), 0.5, 0.5, -1, ext);
         var corrected := FastRcnnInferenceSingleImage(p, ImageShape(10, 10), 0.5, 0.5, -1, ext);
         && asWritten.Ok? && asWritten.value.1 == [0]
         && corrected.Ok? && corrected.value.1 == [1]
  {
    DroppedRowAsWritten();
    DroppedRowCorrected();
  }

  lemma DroppedRowAsWritten()
    ensures WellShaped(DroppedRowInput())
    ensures var r := FastRcnnInferenceSingleImageAsWritten(DroppedRowInput(), ImageShape(10, 10), 0.5, 0.5, -1, KeepAllCollaborators());
      r.Ok? && r.value.1 == [0]
  {
    var p := DroppedRowInput();
    var ext := KeepAllCollaborators();
    DroppedRowCandidates();
    var cs := ImageCandidates(p, ImageShape(10, 10), 0.5, ext);
    var keep := TopK(NmsKeep(p, ImageShape(10, 10), 0.5, 0.5, ext), -1);
    assert keep == [0];
    EmitsRegionOfOnlyCandidate(ImageShape(10, 10), cs, (region: nat) => region);
    assert FastRcnnInferenceSingleImageAsWritten(p, ImageShape(10, 10), 0.5, 0.5, -1, ext)
        == Emit(ImageShape(10, 10), cs, keep, (region: nat) => region);
  }

  lemma DroppedRowCorrected()
    ensures WellShaped(DroppedRowInput())
    ensures var r := FastRcnnInferenceSingleImage(DroppedRowInput(), ImageShape(10, 10), 0.5, 0.5, -1, KeepAllCollaborators());
      r.Ok? && r.value.1 == [1]
  {
    DroppedRowFiltered();
    DroppedRowCandidates();
    OnlySurvivorReportsItsRow(DroppedRowInput(), ImageShape(10, 10), 0.5, 0.5, KeepAllCollaborators());
  }

  /** A batch of one image is that image's single-image inference. */
  lemma BatchOfOne(v: Variant, p: Predictions, imageShape: ImageShape, scoreThresh: real, nmsThresh: real,
                   topkPerImage: int, ext: Collaborators)
    requires WellShaped(p)
    ensures BatchWellShaped([p.boxes], [p.scores], [imageShape], p.numRegClasses, p.numClasses)
    ensures var r := FastRcnnInference(v, [p.boxes], [p.scores], [imageShape], p.numRegClasses, p.numClasses,
                                       scoreThresh, nmsThresh, topkPerImage, ext);
      var s := match v
               case AsWritten => FastRcnnInferenceSingleImageAsWritten(p, imageShape, scoreThresh, nmsThresh, topkPerImage, ext)
               case Corrected => FastRcnnInferenceSingleImage(p, imageShape, scoreThresh, nmsThresh, topkPerImage, ext);
      && (r.Ok? <==> s.Ok?)
      && (r.Ok? ==> r.value.1 == [s.value.1])
  {
    var boxes, scores, shapes := [p.boxes], [p.scores], [imageShape];
    assert ZipLength(boxes, scores, shapes) == 1;
    assert ImageOf(boxes, scores, p.numRegClasses, p.numClasses, 0) == p;
    var rs := ImageResults(v, boxes, scores, shapes, p.numRegClasses, p.numClasses, scoreThresh, nmsThresh, topkPerImage, ext);
    var s := ImageInference(v, boxes, scores, shapes, p.numRegClasses, p.numClasses, scoreThresh, nmsThresh, topkPerImage, ext, 0);
    assert rs == [s];
    var r := FastRcnnInference(v, boxes, scores, shapes, p.numRegClasses, p.numClasses, scoreThresh, nmsThresh, topkPerImage, ext);
    assert r.Ok? ==> r.value.1 == [s.value.1] by {
      if r.Ok? {
        assert rs[0] == Ok((r.value.0[0], r.value.1[0]));
      }
    }
  }

  /** The dropped-row image as a batch of one: the batch reports position 0 as written and input row 1 corrected. */
  lemma DroppedRowBatch()
    ensures var p := DroppedRowInput();
      BatchWellShaped([p.boxes], [p.scores], [ImageShape(10, 10)], 1, 1)
    ensures var p := DroppedRowInput();
      var r := FastRcnnInference(AsWritten, [p.boxes], [p.scores], [ImageShape(10, 10)], 1, 1, 0.5, 0.5, -1, KeepAllCollaborators());
      r.Ok? && r.value.1 == [[0]]
    ensures var p := DroppedRowInput();
      var r := FastRcnnInference(Corrected, [p.boxes], [p.scores], [ImageShape(10, 10)], 1, 1, 0.5, 0.5, -1, KeepAllCollaborators());
      r.Ok? && r.value.1 == [[1]]
  {
    DroppedRowAsWritten();
    DroppedRowCorrected();
    BatchOfOne(AsWritten, DroppedRowInput(), ImageShape(10, 10), 0.5, 0.5, -1, KeepAllCollaborators());
    BatchOfOne(Corrected, DroppedRowInput(), ImageShape(10, 10), 0.5, 0.5, -1, KeepAllCollaborators());
  }

  /** When NMS keeps a lone candidate, corrected inference reports that candidate's input row. */
  lemma OnlySurvivorReportsItsRow(p: Predictions, imageShape: ImageShape, scoreThresh: real, nmsThresh: real, ext: Collaborators)
    requires WellShaped(p)
    requires |ImageCandidates(p, imageShape, scoreThresh, ext)| == 1
    requires NmsKeep(p, imageShape, scoreThresh, nmsThresh, ext) == [0]
    ensures var cs := ImageCandidates(p, imageShape, scoreThresh, ext);
      var r := FastRcnnInferenceSingleImage(p, imageShape, scoreThresh, nmsThresh, -1, ext);
      && cs[0].region < |FiniteRows(p)|
      && r.Ok? && r.value.1 == [FiniteRows(p)[cs[0].region]]
  {
    var cs := ImageCandidates(p, imageShape, scoreThresh, ext);
    CandidatesFacts(p, imageShape, scoreThresh, ext);
    var rowOf := RowOfRegion(FiniteRows(p));
    EmitsRegionOfOnlyCandidate(imageShape, cs, rowOf);
  }

  lemma EmitsRegionOfOnlyCandidate(imageShape: ImageShape, cs: seq<Candidate>, regionOf: nat -> nat)
    requires |cs| == 1
    ensures var r := Emit(imageShape, cs, [0], regionOf);
      r.Ok? && r.value.1 == [regionOf(cs[0].region)]
  {
  }
}

=== FILE: fast_rcnn_outputs.dfy ===
/**
  The index, selection and normalisation logic of `FastRCNNOutputs`: which
  regions count as foreground, which delta columns a region's box loss
  reads, how each loss is normalised, which loss a configuration string
  selects, and how per-region predictions are split back per image.

  The per-row numerics (cross-entropy, smooth-L1, the IoU-family formulas,
  box decoding) are left abstract: `RowLosses` supplies one real per row.
 */
module FastRcnnOutputs {
  import opened Results
  import opened Numerics
  import opened Seqs
  import opened Variants

  /** One image's proposals; `gtClasses` is present only at training time (fields gt_boxes and gt_classes). */
  datatype ProposalSet = ProposalSet(numProposals: nat, gtClasses: Option<seq<int>>)

  /** Every field of an `Instances` has one entry per proposal. */
  predicate ValidProposalSet(p: ProposalSet) {
    p.gtClasses.Some? ==> |p.gtClasses.value| == p.numProposals
  }

  /**
    The bookkeeping `FastRCNNOutputs.__init__` keeps: regions per image,
    the width of the logits (K + 1) and of the deltas (C * B), the box
    dimension B, the concatenated ground-truth classes when training, and
    the empty-batch flag.
   */
  datatype Outputs = Outputs(
    numPredsPerImage: seq<nat>,
    numLogitColumns: nat,
    numDeltaColumns: nat,
    boxDim: nat,
    gtClasses: Option<seq<int>>,
    noInstances: bool)
  {
    /** R, the number of regions over the whole batch. */
    function NumRegions(): nat {
      SumNat(numPredsPerImage)
    }

    predicate Valid() {
      && (gtClasses.Some? ==> |gtClasses.value| == NumRegions())
      && boxDim > 0
      && numDeltaColumns >= boxDim
      && numDeltaColumns % boxDim == 0
    }

    /** Regression is class-agnostic when the deltas hold a single box. */
    predicate ClassAgnostic() {
      numDeltaColumns == boxDim
    }
  }

  datatype LossError =
    | MissingGroundTruth   // a ground-truth field is read that was never set
    | TargetOutOfRange     // a cross-entropy target outside [0, K]
    | IndexOutOfRange      // a delta column that does not exist
    | BadBox               // the x2 >= x1 / y2 >= y1 assertion on predicted boxes
    | ShapeMismatch        // tensors whose lengths cannot be broadcast together
    | BadBoxDim            // four names unpacked from boxes or transform weights of another width

  /** Per-row values of the numeric loss formulas, which this model leaves abstract. */
  datatype RowLosses = RowLosses(
    crossEntropy: (nat, int) -> real,          // -log softmax(logits[i])[target]
    smoothL1: (nat, seq<nat>) -> real,         // smooth-L1 of row i's given delta columns against its target deltas
    diouFromDeltas: (nat, seq<nat>) -> real,   // 1 - DIoU of row i, boxes decoded from the given delta columns
    diouFromBoxes: (nat, seq<nat>) -> real,    // 1 - DIoU of row i's decoded box in the given columns against its gt box
    boxIsOrdered: (nat, seq<nat>) -> bool,     // x2 >= x1 and y2 >= y1 for that decoded box
    ciouFromDeltas: (nat, seq<nat>) -> real)   // 1 - CIoU of row i, boxes decoded from the given delta columns

  // ---------------------------------------------------------------- construction

  /** The concatenated ground-truth classes, present when the first image has them. */
  function GroundTruthOf(proposals: seq<ProposalSet>): (r: Result<Option<seq<int>>, LossError>)
    requires forall i :: 0 <= i < |proposals| ==> ValidProposalSet(proposals[i])
    ensures r.Err? <==> |proposals| > 0 && proposals[0].gtClasses.Some?
                        && exists i :: 0 <= i < |proposals| && proposals[i].gtClasses.None?
    ensures r.Ok? && r.value.Some? ==>
      |proposals| > 0 && |r.value.value| == SumNat(ProposalCounts(proposals))
  {
    if |proposals| == 0 || proposals[0].gtClasses.None? then Ok(None)
    else if exists i :: 0 <= i < |proposals| && proposals[i].gtClasses.None? then Err(MissingGroundTruth)
    else
      var parts := seq(|proposals|, i requires 0 <= i < |proposals| => proposals[i].gtClasses.value);
      forall i | 0 <= i < |proposals| ensures |parts[i]| == proposals[i].numProposals {
        assert ValidProposalSet(proposals[i]);
      }
      assert Lengths(parts) == ProposalCounts(proposals);
      Ok(Some(Flatten(parts)))
  }

  /** `num_preds_per_image`: `len(p)` for every image. */
  function ProposalCounts(proposals: seq<ProposalSet>): (r: seq<nat>)
    ensures |r| == |proposals|
    ensures forall i :: 0 <= i < |proposals| ==> r[i] == proposals[i].numProposals
  {
    seq(|proposals|, i requires 0 <= i < |proposals| => proposals[i].numProposals)
  }

  /** The shape promises of the head: deltas are C whole boxes of dimension B. */
  predicate HeadShape(numDeltaColumns: nat, boxDim: nat) {
    boxDim > 0 && numDeltaColumns >= boxDim && numDeltaColumns % boxDim == 0
  }

  /**
    `FastRCNNOutputs.__init__` as written: the empty-batch flag tests the
    number of IMAGES, `len(proposals) == 0`.
   */
  function NewOutputsAsWritten(proposals: seq<ProposalSet>, numLogitColumns: nat, numDeltaColumns: nat, boxDim: nat)
    : (r: Result<Outputs, LossError>)
    requires forall i :: 0 <= i < |proposals| ==> ValidProposalSet(proposals[i])
    requires HeadShape(numDeltaColumns, boxDim)
    ensures r.Ok? <==> GroundTruthOf(proposals).Ok?
    ensures r.Ok? ==> r.value.Valid() && r.value.numPredsPerImage == ProposalCounts(proposals)
    ensures r.Ok? ==> (r.value.noInstances <==> |proposals| == 0)
  {
    var gt :- GroundTruthOf(proposals);
    Ok(Outputs(ProposalCounts(proposals), numLogitColumns, numDeltaColumns, boxDim, gt, |proposals| == 0))
  }

  /**
    `FastRCNNOutputs.__init__` with the empty-batch flag testing what its
    comment says, that no region was found.
   */
  function NewOutputs(proposals: seq<ProposalSet>, numLogitColumns: nat, numDeltaColumns: nat, boxDim: nat)
    : (r: Result<Outputs, LossError>)
    requires forall i :: 0 <= i < |proposals| ==> ValidProposalSet(proposals[i])
    requires HeadShape(numDeltaColumns, boxDim)
    ensures r.Ok? <==> GroundTruthOf(proposals).Ok?
    ensures r.Ok? ==> r.value.Valid() && r.value.numPredsPerImage == ProposalCounts(proposals)
    ensures r.Ok? ==> (r.value.noInstances <==> r.value.NumRegions() == 0)
  {
    var gt :- GroundTruthOf(proposals);
    var counts := ProposalCounts(proposals);
    Ok(Outputs(counts, numLogitColumns, numDeltaColumns, boxDim, gt, SumNat(counts) == 0))
  }

  // ---------------------------------------------------------------- selection

  /** A region is foreground when `0 <= gt < bg`, bg being the last logit column. */
  predicate IsForeground(gt: int, numLogitColumns: nat) {
    0 <= gt < numLogitColumns - 1
  }

  /** `fg_inds`: exactly the foreground regions, ascending. */
  function ForegroundRows(gt: seq<int>, numLogitColumns: nat): (r: seq<nat>)
    ensures StrictlyIncreasing(r)
    ensures forall j :: 0 <= j < |r| ==> r[j] < |gt| && IsForeground(gt[r[j]], numLogitColumns)
    ensures forall i :: 0 <= i < |gt| && IsForeground(gt[i], numLogitColumns) ==> i in r
  {
    IndicesWhere(|gt|, (i: nat) => i < |gt| && IsForeground(gt[i], numLogitColumns))
  }

  /** The delta columns of class k: `b*k .. b*k + b - 1`. */
  function ClassColumns(boxDim: nat, k: nat): (cols: seq<nat>)
    ensures |cols| == boxDim
    ensures forall j :: 0 <= j < boxDim ==> cols[j] == boxDim * k + j
  {
    seq(boxDim, j requires 0 <= j < boxDim => boxDim * k + j)
  }

  /**
    The columns the smooth-L1 loss reads for a region of class k: its own
    class window, or the only box when regression is class-agnostic.
   */
  function RegressionColumns(o: Outputs, k: nat): (cols: seq<nat>)
    ensures o.ClassAgnostic() ==> cols == ClassColumns(o.boxDim, 0)
    ensures !o.ClassAgnostic() ==> cols == ClassColumns(o.boxDim, k)
  {
    if o.ClassAgnostic() then ClassColumns(o.boxDim, 0) else ClassColumns(o.boxDim, k)
  }

  predicate ColumnsExist(o: Outputs, cols: seq<nat>) {
    forall j :: 0 <= j < |cols| ==> cols[j] < o.numDeltaColumns
  }

  /** A class's window exists in the delta tensor exactly when the tensor is wide enough for class k. */
  lemma ClassColumnsExist(o: Outputs, k: nat)
    requires o.Valid()
    ensures ColumnsExist(o, RegressionColumns(o, k)) <==> o.ClassAgnostic() || o.boxDim * (k + 1) <= o.numDeltaColumns
  {
    var cols := RegressionColumns(o, k);
    if !o.ClassAgnostic() && ColumnsExist(o, cols) {
      assert cols[o.boxDim - 1] == o.boxDim * k + o.boxDim - 1;
    }
  }

  /** Distinct classes own disjoint column windows. */
  lemma ClassWindowsDisjoint(boxDim: nat, k1: nat, k2: nat, j1: nat, j2: nat)
    requires k1 != k2 && j1 < boxDim && j2 < boxDim
    ensures ClassColumns(boxDim, k1)[j1] != ClassColumns(boxDim, k2)[j2]
  {
    if k1 < k2 {
      WindowBelow(boxDim, k1, k2 - k1);
    } else {
      WindowBelow(boxDim, k2, k1 - k2);
    }
  }

  lemma WindowBelow(b: nat, k: nat, d: nat)
    requires d >= 1
    ensures b * k + b <= b * (k + d)
  {
    assert b * (k + d) == b * k + b * d;
    assert b * d == b + b * (d - 1);
  }

  /** One term per foreground region i, `term(i, gt[i])`, in region order. */
  function ForegroundTerms(gt: seq<int>, numLogitColumns: nat, term: (nat, nat) -> real): (r: seq<real>)
    ensures |r| == |ForegroundRows(gt, numLogitColumns)|
    ensures forall j :: 0 <= j < |r| ==>
      var i := ForegroundRows(gt, numLogitColumns)[j];
      r[j] == term(i, gt[i] as nat)
  {
    var fg := ForegroundRows(gt, numLogitColumns);
    seq(|fg|, j requires 0 <= j < |fg| => term(fg[j], gt[fg[j]] as nat))
  }

  function ForegroundSum(gt: seq<int>, numLogitColumns: nat, term: (nat, nat) -> real): real {
    SumReal(ForegroundTerms(gt, numLogitColumns, term))
  }

  // ---------------------------------------------------------------- losses

  /** `F.cross_entropy`'s default `ignore_index`: a row with this target is left out of the loss. */
  const IgnoreIndex: int := -100

  /** A cross-entropy target is a logit column or the ignore index; any other target raises. */
  predicate TargetAccepted(t: int, numLogitColumns: nat) {
    t == IgnoreIndex || 0 <= t < numLogitColumns
  }

  /** The rows whose target is not the ignore index, ascending. */
  function CountedRows(gt: seq<int>): (r: seq<nat>)
    ensures StrictlyIncreasing(r)
    ensures forall j :: 0 <= j < |r| ==> r[j] < |gt| && gt[r[j]] != IgnoreIndex
    ensures forall i :: 0 <= i < |gt| && gt[i] != IgnoreIndex ==> i in r
  {
    IndicesWhere(|gt|, (i: nat) => i < |gt| && gt[i] != IgnoreIndex)
  }

  /** The cross-entropy of every counted row, in row order. */
  function CrossEntropyTerms(gt: seq<int>, rl: RowLosses): (r: seq<real>)
    ensures |r| == |CountedRows(gt)|
    ensures forall j :: 0 <= j < |r| ==> r[j] == rl.crossEntropy(CountedRows(gt)[j], gt[CountedRows(gt)[j]])
  {
    var rows := CountedRows(gt);
    seq(|rows|, j requires 0 <= j < |rows| => rl.crossEntropy(rows[j], gt[rows[j]]))
  }

  /**
    `softmax_cross_entropy_loss`: zero for an empty batch, otherwise the
    mean cross-entropy over the regions whose target is not the ignore
    index, background included; every other target must be a logit column.
   */
  function SoftmaxCrossEntropyLoss(o: Outputs, rl: RowLosses): (r: Result<Float, LossError>)
    requires o.Valid()
    ensures o.noInstances ==> r == Ok(Fin(0.0))
    ensures !o.noInstances && o.gtClasses.None? ==> r == Err(MissingGroundTruth)
    ensures !o.noInstances && o.gtClasses.Some? ==>
      var gt := o.gtClasses.value;
      && (r.Ok? <==> forall i :: 0 <= i < |gt| ==> TargetAccepted(gt[i], o.numLogitColumns))
      && (r.Err? ==> r.error == TargetOutOfRange)
    ensures r.Ok? && !o.noInstances ==> r.value == MeanCrossEntropy(o.gtClasses.value, rl)
  {
    if o.noInstances then Ok(Fin(0.0))
    else if o.gtClasses.None? then Err(MissingGroundTruth)
    else
      var gt := o.gtClasses.value;
      if exists i :: 0 <= i < |gt| && !TargetAccepted(gt[i], o.numLogitColumns) then Err(TargetOutOfRange)
      else Ok(MeanCrossEntropy(gt, rl))
  }

  /** The mean cross-entropy over the counted rows: NaN when no row counts. */
  function MeanCrossEntropy(gt: seq<int>, rl: RowLosses): (r: Float)
    ensures r.Fin? <==> |CountedRows(gt)| > 0
    ensures r.Fin? ==> r.val * (|CountedRows(gt)| as real) == SumReal(CrossEntropyTerms(gt, rl))
  {
    Normalize(SumReal(CrossEntropyTerms(gt, rl)), |CountedRows(gt)|)
  }

  /**
    When no target is the ignore index, the classification loss is the
    mean over all R regions (NaN when R is 0).
   */
  lemma CrossEntropyOverAllRegions(o: Outputs, rl: RowLosses)
    requires o.Valid() && !o.noInstances && o.gtClasses.Some?
    requires forall i :: 0 <= i < |o.gtClasses.value| ==> o.gtClasses.value[i] != IgnoreIndex
    requires SoftmaxCrossEntropyLoss(o, rl).Ok?
    ensures var gt := o.gtClasses.value;
      SoftmaxCrossEntropyLoss(o, rl).value == Normalize(SumReal(seq(|gt|, i requires 0 <= i < |gt| => rl.crossEntropy(i, gt[i]))), |gt|)
  {
    var gt := o.gtClasses.value;
    assert SoftmaxCrossEntropyLoss(o, rl).value == MeanCrossEntropy(gt, rl);
    CountedRowsAll(gt);
    CrossEntropyTermsAll(gt, rl);
  }

  /** With no ignored target the cross-entropy terms are those of every row. */
  lemma CrossEntropyTermsAll(gt: seq<int>, rl: RowLosses)
    requires forall i :: 0 <= i < |gt| ==> gt[i] != IgnoreIndex
    ensures CrossEntropyTerms(gt, rl) == seq(|gt|, i requires 0 <= i < |gt| => rl.crossEntropy(i, gt[i]))
  {
    CountedRowsAll(gt);
    var terms := CrossEntropyTerms(gt, rl);
    var all := seq(|gt|, i requires 0 <= i < |gt| => rl.crossEntropy(i, gt[i]));
    forall j | 0 <= j < |gt| ensures terms[j] == all[j] {
      assert CountedRows(gt)[j] == j;
    }
  }

  /** With no ignored target every row counts. */
  lemma CountedRowsAll(gt: seq<int>)
    requires forall i :: 0 <= i < |gt| ==> gt[i] != IgnoreIndex
    ensures CountedRows(gt) == Range(|gt|)
  {
    IndicesWhereAll(|gt|, (i: nat) => i < |gt| && gt[i] != IgnoreIndex);
  }

  /** The smooth-L1 term of a foreground region of class k: its regression columns. */
  function SmoothL1Term(o: Outputs, rl: RowLosses): (nat, nat) -> real {
    (i: nat, k: nat) => rl.smoothL1(i, RegressionColumns(o, k))
  }

  /**
    Every foreground region's regression columns exist in the delta tensor
    (by `ClassColumnsExist`, the window of class k exists when b*(k+1) <= C*b).
   */
  predicate ForegroundColumnsExist(o: Outputs, gt: seq<int>) {
    var fg := ForegroundRows(gt, o.numLogitColumns);
    forall j :: 0 <= j < |fg| ==> o.ClassAgnostic() || o.boxDim * (gt[fg[j]] + 1) <= o.numDeltaColumns
  }

  /**
    `smooth_l1_loss`: the sum over foreground regions of the smooth-L1 of
    their class's delta columns, divided by R (all regions).
   */
  function SmoothL1Loss(o: Outputs, rl: RowLosses): (r: Result<Float, LossError>)
    requires o.Valid()
    ensures o.noInstances ==> r == Ok(Fin(0.0))
    ensures !o.noInstances && o.gtClasses.None? ==> r == Err(MissingGroundTruth)
    ensures !o.noInstances && o.gtClasses.Some? ==>
      var gt := o.gtClasses.value;
      && (r.Ok? <==> ForegroundColumnsExist(o, gt))
      && (r.Ok? ==> (r.value.Fin? <==> |gt| > 0))
      && (r.Ok? ==> r.value == Normalize(ForegroundSum(gt, o.numLogitColumns, SmoothL1Term(o, rl)), |gt|))
  {
    if o.noInstances then Ok(Fin(0.0))
    else if o.gtClasses.None? then Err(MissingGroundTruth)
    else
      var gt := o.gtClasses.value;
      if !ForegroundColumnsExist(o, gt) then Err(IndexOutOfRange)
      else
        var sum := ForegroundSum(gt, o.numLogitColumns, SmoothL1Term(o, rl));
        Ok(Normalize(sum, |gt|))
  }

  /** The DIoU term of a foreground region: columns 0..3 whatever its class. */
  function DiouTerm(o: Outputs, rl: RowLosses): (nat, nat) -> real {
    (i: nat, k: nat) => rl.diouFromDeltas(i, ClassColumns(o.boxDim, 0))
  }

  /**
    `compute_diou`: DIoU on boxes decoded from deltas, reading delta columns
    0..3 for every foreground region even under class-specific regression;
    the sum is divided by R and scaled by the box-loss weight. There is no
    empty-batch guard.
   */
  function ComputeDiou(o: Outputs, rl: RowLosses, boxLossWeight: real): (r: Result<Float, LossError>)
    requires o.Valid()
    ensures o.gtClasses.None? <==> r == Err(MissingGroundTruth)
    ensures r == Err(BadBoxDim) <==> o.gtClasses.Some? && o.boxDim != 4
    ensures r.Ok? ==>
      var gt := o.gtClasses.value;
      && (r.value.Fin? <==> |gt| > 0)
      && (|gt| > 0 ==> r.value.val == ForegroundSum(gt, o.numLogitColumns, DiouTerm(o, rl)) / (|gt| as real) * boxLossWeight)
  {
    if o.gtClasses.None? then Err(MissingGroundTruth)
    else if o.boxDim != 4 then Err(BadBoxDim)
    else
      var gt := o.gtClasses.value;
      Ok(Scale(Normalize(ForegroundSum(gt, o.numLogitColumns, DiouTerm(o, rl)), |gt|), boxLossWeight))
  }

  /** The box-DIoU term of a foreground region: decoded-box columns 0..3 whatever its class. */
  function DiouBoxTerm(o: Outputs, rl: RowLosses): (nat, nat) -> real {
    (i: nat, k: nat) => rl.diouFromBoxes(i, ClassColumns(o.boxDim, 0))
  }

  /**
    `compute_diou_fvcore`: DIoU on decoded boxes against ground-truth boxes,
    columns 0..3 for every foreground region; it first asserts that every
    selected predicted box is ordered (x2 >= x1, y2 >= y1).
   */
  function ComputeDiouFvcore(o: Outputs, rl: RowLosses, boxLossWeight: real): (r: Result<Float, LossError>)
    requires o.Valid()
    ensures o.gtClasses.None? <==> r == Err(MissingGroundTruth)
    ensures r == Err(BadBoxDim) <==> o.gtClasses.Some? && o.boxDim != 4
    ensures o.gtClasses.Some? && o.boxDim == 4 ==>
      var gt := o.gtClasses.value;
      var fg := ForegroundRows(gt, o.numLogitColumns);
      && (r == Err(BadBox) <==> exists j :: 0 <= j < |fg| && !rl.boxIsOrdered(fg[j], ClassColumns(o.boxDim, 0)))
      && (r.Ok? ==> (r.value.Fin? <==> |gt| > 0))
      && (r.Ok? && |gt| > 0 ==>
            r.value.val == ForegroundSum(gt, o.numLogitColumns, DiouBoxTerm(o, rl)) / (|gt| as real) * boxLossWeight)
  {
    if o.gtClasses.None? then Err(MissingGroundTruth)
    else if o.boxDim != 4 then Err(BadBoxDim)
    else
      var gt := o.gtClasses.value;
      var fg := ForegroundRows(gt, o.numLogitColumns);
      if exists j :: 0 <= j < |fg| && !rl.boxIsOrdered(fg[j], ClassColumns(o.boxDim, 0)) then Err(BadBox)
      else Ok(Scale(Normalize(ForegroundSum(gt, o.numLogitColumns, DiouBoxTerm(o, rl)), |gt|), boxLossWeight))
  }

  /**
    The CIoU values `compute_ciou` computes before selecting: the decoded
    prediction tensor is flattened to R*C entries (entry e is region e / C,
    class e % C), one per predicted box of every region, foreground or not.
   */
  function CiouEntries(rl: RowLosses, numRegions: nat, numBoxes: nat): (r: seq<real>)
    requires numBoxes >= 1
    ensures |r| == numRegions * numBoxes
  {
    seq(numRegions * numBoxes, e requires 0 <= e < numRegions * numBoxes =>
      rl.ciouFromDeltas(e / numBoxes, ClassColumns(4, e % numBoxes)))
  }

  /** The CIoU term of a foreground region once selected: columns 0..3. */
  function CiouTerm(rl: RowLosses): (nat, nat) -> real {
    (i: nat, k: nat) => rl.ciouFromDeltas(i, ClassColumns(4, 0))
  }

  /**
    `compute_ciou`: CIoU computed on every region's decoded boxes against
    every region's target, and only then restricted to the foreground; the
    flattened predictions (R*C) broadcast against the R targets only when
    C == 1 or R <= 1.
   */
  function ComputeCiou(o: Outputs, rl: RowLosses, boxLossWeight: real): (r: Result<Float, LossError>)
    requires o.Valid()
    ensures o.gtClasses.None? <==> r == Err(MissingGroundTruth)
    ensures r == Err(BadBoxDim) <==> o.gtClasses.Some? && o.boxDim != 4
    ensures o.gtClasses.Some? && o.boxDim == 4 ==>
      (r == Err(ShapeMismatch) <==> o.numDeltaColumns / 4 > 1 && |o.gtClasses.value| > 1)
  {
    if o.gtClasses.None? then Err(MissingGroundTruth)
    else if o.boxDim != 4 then Err(BadBoxDim)
    else
      var gt := o.gtClasses.value;
      var numBoxes := o.numDeltaColumns / 4;
      if numBoxes > 1 && |gt| > 1 then Err(ShapeMismatch)
      else
        var all := CiouEntries(rl, |gt|, numBoxes);
        var fg := ForegroundRows(gt, o.numLogitColumns);
        assert forall j :: 0 <= j < |fg| ==> fg[j] < |all| by {
          AtMostMultiple(|gt|, numBoxes);
        }
        Ok(Scale(Normalize(SumReal(seq(|fg|, j requires 0 <= j < |fg| => all[fg[j]])), |gt|), boxLossWeight))
  }

  lemma AtMostMultiple(a: nat, b: nat)
    requires b >= 1
    ensures a <= a * b
  {
  }

  lemma ZeroDivMod(b: nat)
    requires b >= 1
    ensures 0 / b == 0 && 0 % b == 0
  {
  }

  /**
    Computing CIoU for all regions and then selecting the foreground ones
    gives the foreground sum of each region's own columns 0..3, divided by
    R and weighted.
   */
  lemma CiouSelectsAfterComputing(o: Outputs, rl: RowLosses, boxLossWeight: real)
    requires o.Valid()
    requires ComputeCiou(o, rl, boxLossWeight).Ok?
    ensures var gt := o.gtClasses.value;
      ComputeCiou(o, rl, boxLossWeight)
        == Ok(Scale(Normalize(ForegroundSum(gt, o.numLogitColumns, CiouTerm(rl)), |gt|), boxLossWeight))
  {
    var gt := o.gtClasses.value;
    var numBoxes := o.numDeltaColumns / 4;
    var all := CiouEntries(rl, |gt|, numBoxes);
    var fg := ForegroundRows(gt, o.numLogitColumns);
    AtMostMultiple(|gt|, numBoxes);
    var selected := seq(|fg|, j requires 0 <= j < |fg| => all[fg[j]]);
    forall j | 0 <= j < |fg|
      ensures selected[j] == ForegroundTerms(gt, o.numLogitColumns, CiouTerm(rl))[j]
    {
      var i := fg[j];
      assert all[i] == rl.ciouFromDeltas(i / numBoxes, ClassColumns(4, i % numBoxes));
      if numBoxes == 1 {
        assert i / 1 == i && i % 1 == 0;
      } else {
        assert i == 0;
        ZeroDivMod(numBoxes);
      }
    }
    assert selected == ForegroundTerms(gt, o.numLogitColumns, CiouTerm(rl));
  }

  // ---------------------------------------------------------------- dispatch

  datatype BoxRegLossKind = DiouFromDeltas | Ciou | DiouFromBoxes | SmoothL1

  /** `MODEL.ROI_BOX_HEAD.LOSS`: three names select an IoU loss; every other string selects smooth-L1. */
  function BoxRegLossKindOf(name: string): (k: BoxRegLossKind)
    ensures k == DiouFromDeltas <==> name == "diou"
    ensures k == Ciou <==> name == "ciou"
    ensures k == DiouFromBoxes <==> name == "diou_bbox"
    ensures k == SmoothL1 <==> name !in {"diou", "ciou", "diou_bbox"}
  {
    if name == "diou" then DiouFromDeltas
    else if name == "ciou" then Ciou
    else if name == "diou_bbox" then DiouFromBoxes
    else SmoothL1
  }

  /** The IoU losses unpack four box coordinates; other box widths make them raise. */
  predicate SupportsLoss(o: Outputs, name: string) {
    BoxRegLossKindOf(name) != SmoothL1 ==> o.boxDim == 4
  }

  function BoxRegLoss(o: Outputs, rl: RowLosses, name: string, boxLossWeight: real): Result<Float, LossError>
    requires o.Valid()
  {
    match BoxRegLossKindOf(name)
    case DiouFromDeltas => ComputeDiou(o, rl, boxLossWeight)
    case Ciou => ComputeCiou(o, rl, boxLossWeight)
    case DiouFromBoxes => ComputeDiouFvcore(o, rl, boxLossWeight)
    case SmoothL1 => SmoothL1Loss(o, rl)
  }

  /**
    `losses`: always `loss_cls` (computed first) and `loss_box_reg` from
    the loss the configuration names.
   */
  function Losses(o: Outputs, rl: RowLosses, name: string, boxLossWeight: real): (r: Result<map<string, Float>, LossError>)
    requires o.Valid()
    ensures r.Ok? <==> SoftmaxCrossEntropyLoss(o, rl).Ok? && BoxRegLoss(o, rl, name, boxLossWeight).Ok?
    ensures SoftmaxCrossEntropyLoss(o, rl).Err? ==> r == Err(SoftmaxCrossEntropyLoss(o, rl).error)
    ensures SoftmaxCrossEntropyLoss(o, rl).Ok? && BoxRegLoss(o, rl, name, boxLossWeight).Err? ==>
      r == Err(BoxRegLoss(o, rl, name, boxLossWeight).error)
    ensures r.Ok? ==>
      && r.value.Keys == {"loss_cls", "loss_box_reg"}
      && r.value["loss_cls"] == SoftmaxCrossEntropyLoss(o, rl).value
      && r.value["loss_box_reg"] == BoxRegLoss(o, rl, name, boxLossWeight).value
  {
    var cls :- SoftmaxCrossEntropyLoss(o, rl);
    var reg :- BoxRegLoss(o, rl, name, boxLossWeight);
    Ok(map["loss_cls" := cls, "loss_box_reg" := reg])
  }

  /**
    `FastRCNNOutputLayers.losses`: build the bookkeeping, then compute both
    losses; as written the empty-batch flag counts images, corrected it
    counts regions.
   */
  function FastRcnnLosses(v: Variant, proposals: seq<ProposalSet>, numLogitColumns: nat, numDeltaColumns: nat, boxDim: nat,
                          rl: RowLosses, name: string, boxLossWeight: real)
    : (r: Result<map<string, Float>, LossError>)
    requires forall i :: 0 <= i < |proposals| ==> ValidProposalSet(proposals[i])
    requires HeadShape(numDeltaColumns, boxDim)
    ensures GroundTruthOf(proposals).Err? ==> r == Err(MissingGroundTruth)
    ensures r.Ok? ==> r.value.Keys == {"loss_cls", "loss_box_reg"}
    ensures r.Ok? && |proposals| == 0 ==> r.value["loss_cls"] == Fin(0.0)
    ensures r.Ok? && v == Corrected && SumNat(ProposalCounts(proposals)) == 0 ==> r.value["loss_cls"] == Fin(0.0)
    ensures r.Ok? && v == AsWritten && |proposals| > 0 && SumNat(ProposalCounts(proposals)) == 0 ==> r.value["loss_cls"] == NaN
  {
    var o :- match v
             case AsWritten => NewOutputsAsWritten(proposals, numLogitColumns, numDeltaColumns, boxDim)
             case Corrected => NewOutputs(proposals, numLogitColumns, numDeltaColumns, boxDim);
    Losses(o, rl, name, boxLossWeight)
  }

  // ---------------------------------------------------------------- predictions

  /** `predict_boxes` / `predict_probs`: per-region rows split back into per-image groups. */
  function PredictBoxes<T>(o: Outputs, rows: seq<T>): (r: seq<seq<T>>)
    requires |rows| == o.NumRegions()
    ensures Lengths(r) == o.numPredsPerImage
    ensures Flatten(r) == rows
  {
    Split(rows, o.numPredsPerImage).value
  }

  /** Any grouping with the per-image counts that concatenates back to the rows is the one `PredictBoxes` returns. */
  lemma PredictBoxesUnique<T>(o: Outputs, rows: seq<T>, groups: seq<seq<T>>)
    requires |rows| == o.NumRegions()
    requires Lengths(groups) == o.numPredsPerImage && Flatten(groups) == rows
    ensures PredictBoxes(o, rows) == groups
  {
    FlattenInjective(PredictBoxes(o, rows), groups);
  }

  /** `torch.clamp(g, 0, n - 1)` on a class label. */
  function ClampClass(g: int, numBoxes: nat): (k: nat)
    requires numBoxes >= 1
    ensures k < numBoxes
    ensures 0 <= g < numBoxes ==> k == g
    ensures g < 0 ==> k == 0
    ensures g >= numBoxes ==> k == numBoxes - 1
  {
    if g < 0 then 0 else if g >= numBoxes then numBoxes - 1 else g
  }

  /** The number of boxes a region's decoded prediction holds, C = (C*B) / B. */
  function NumBoxes(o: Outputs): (c: nat)
    requires o.Valid()
    ensures c >= 1
    ensures c * o.boxDim == o.numDeltaColumns
    ensures c == 1 <==> o.ClassAgnostic()
  {
    var c := o.numDeltaColumns / o.boxDim;
    assert c * o.boxDim == o.numDeltaColumns;
    c
  }

  /**
    `predict_boxes_for_gt_classes`: for class-specific regression, each
    region's box of its ground-truth class clamped to [0, C-1] (background
    and ignored labels pick a valid class); for class-agnostic regression,
    the only box. `decoded[i]` is region i's decoded boxes, one per class.
   */
  function PredictBoxesForGtClasses<T>(o: Outputs, decoded: seq<seq<T>>): (r: Result<seq<seq<T>>, LossError>)
    requires o.Valid() && |decoded| == o.NumRegions()
    requires forall i :: 0 <= i < |decoded| ==> |decoded[i]| == NumBoxes(o)
    ensures r.Err? <==> !o.ClassAgnostic() && o.gtClasses.None?
    ensures r.Ok? ==> Lengths(r.value) == o.numPredsPerImage
    ensures r.Ok? && o.ClassAgnostic() ==>
      forall i :: 0 <= i < |decoded| ==> |decoded[i]| == 1 && Flatten(r.value)[i] == decoded[i][0]
    ensures r.Ok? && !o.ClassAgnostic() ==>
      forall i :: 0 <= i < |decoded| ==>
        Flatten(r.value)[i] == decoded[i][ClampClass(o.gtClasses.value[i], NumBoxes(o))]
  {
    if o.ClassAgnostic() then
      assert NumBoxes(o) == 1;
      Ok(PredictBoxes(o, seq(|decoded|, i requires 0 <= i < |decoded| => decoded[i][0])))
    else if o.gtClasses.None? then Err(MissingGroundTruth)
    else
      var gt := o.gtClasses.value;
      Ok(PredictBoxes(o, seq(|decoded|, i requires 0 <= i < |decoded| => decoded[i][ClampClass(gt[i], NumBoxes(o))])))
  }

  /**
    Under class-specific regression with one box per foreground class, a
    foreground region gets the box of its own class and a background region
    the box of the last class.
   */
  lemma GtClassBoxSelection<T>(o: Outputs, decoded: seq<seq<T>>, i: nat)
    requires o.Valid() && |decoded| == o.NumRegions()
    requires forall i :: 0 <= i < |decoded| ==> |decoded[i]| == NumBoxes(o)
    requires !o.ClassAgnostic() && o.gtClasses.Some? && i < |decoded|
    requires NumBoxes(o) == o.numLogitColumns - 1
    ensures var gt := o.gtClasses.value;
      && (IsForeground(gt[i], o.numLogitColumns) ==>
            Flatten(PredictBoxesForGtClasses(o, decoded).value)[i] == decoded[i][gt[i]])
      && (gt[i] == o.numLogitColumns - 1 ==>
            Flatten(PredictBoxesForGtClasses(o, decoded).value)[i] == decoded[i][NumBoxes(o) - 1])
  {
  }

  // ---------------------------------------------------------------- properties

  /** No foreground region means the foreground sum is empty. */
  lemma NoForegroundNoTerms(gt: seq<int>, numLogitColumns: nat, term: (nat, nat) -> real)
    requires forall i :: 0 <= i < |gt| ==> !IsForeground(gt[i], numLogitColumns)
    ensures ForegroundRows(gt, numLogitColumns) == []
    ensures ForegroundSum(gt, numLogitColumns, term) == 0.0
  {
    IndicesWhereNone(|gt|, (i: nat) => i < |gt| && IsForeground(gt[i], numLogitColumns));
  }

  /**
    A batch with regions but no foreground region has a zero box-regression
    loss for every loss kind (CIoU needs its broadcast to succeed).
   */
  lemma NoForegroundGivesZeroBoxLoss(o: Outputs, rl: RowLosses, name: string, boxLossWeight: real)
    requires o.Valid() && SupportsLoss(o, name)
    requires o.gtClasses.Some? && |o.gtClasses.value| > 0
    requires forall i :: 0 <= i < |o.gtClasses.value| ==> !IsForeground(o.gtClasses.value[i], o.numLogitColumns)
    requires BoxRegLossKindOf(name) == Ciou ==> o.ClassAgnostic()
    ensures BoxRegLoss(o, rl, name, boxLossWeight) == Ok(Fin(0.0))
  {
    var gt := o.gtClasses.value;
    match BoxRegLossKindOf(name)
    case SmoothL1 =>
      NoForegroundNoTerms(gt, o.numLogitColumns, SmoothL1Term(o, rl));
      ZeroMean(|gt|, boxLossWeight);
      assert SmoothL1Loss(o, rl) == Ok(Fin(0.0));
    case DiouFromDeltas =>
      NoForegroundNoTerms(gt, o.numLogitColumns, DiouTerm(o, rl));
      ZeroMean(|gt|, boxLossWeight);
      assert ComputeDiou(o, rl, boxLossWeight) == Ok(Fin(0.0));
    case DiouFromBoxes =>
      NoForegroundNoTerms(gt, o.numLogitColumns, DiouBoxTerm(o, rl));
      ZeroMean(|gt|, boxLossWeight);
      assert ComputeDiouFvcore(o, rl, boxLossWeight) == Ok(Fin(0.0));
    case Ciou =>
      NoForegroundNoTerms(gt, o.numLogitColumns, CiouTerm(rl));
      CiouSelectsAfterComputing(o, rl, boxLossWeight);
      ZeroMean(|gt|, boxLossWeight);
      assert ComputeCiou(o, rl, boxLossWeight) == Ok(Fin(0.0));
  }

  /** Two per-row loss tables that agree on every foreground region. */
  ghost predicate AgreeOnForeground(rl1: RowLosses, rl2: RowLosses, gt: seq<int>, numLogitColumns: nat) {
    forall i: nat, cols: seq<nat> :: i < |gt| && IsForeground(gt[i], numLogitColumns) ==>
      && rl1.smoothL1(i, cols) == rl2.smoothL1(i, cols)
      && rl1.diouFromDeltas(i, cols) == rl2.diouFromDeltas(i, cols)
      && rl1.diouFromBoxes(i, cols) == rl2.diouFromBoxes(i, cols)
      && rl1.boxIsOrdered(i, cols) == rl2.boxIsOrdered(i, cols)
      && rl1.ciouFromDeltas(i, cols) == rl2.ciouFromDeltas(i, cols)
  }

  lemma ForegroundSumFrame(gt: seq<int>, numLogitColumns: nat, t1: (nat, nat) -> real, t2: (nat, nat) -> real)
    requires forall i :: 0 <= i < |gt| && IsForeground(gt[i], numLogitColumns) ==> t1(i, gt[i] as nat) == t2(i, gt[i] as nat)
    ensures ForegroundSum(gt, numLogitColumns, t1) == ForegroundSum(gt, numLogitColumns, t2)
  {
    assert ForegroundTerms(gt, numLogitColumns, t1) == ForegroundTerms(gt, numLogitColumns, t2);
  }

  /**
    The box-regression loss reads only foreground regions: background and
    ignored regions (CIoU computes them too) do not change it.
   */
  lemma BoxLossReadsOnlyForeground(o: Outputs, rl1: RowLosses, rl2: RowLosses, name: string, boxLossWeight: real)
    requires o.Valid() && o.gtClasses.Some?
    requires AgreeOnForeground(rl1, rl2, o.gtClasses.value, o.numLogitColumns)
    ensures BoxRegLoss(o, rl1, name, boxLossWeight) == BoxRegLoss(o, rl2, name, boxLossWeight)
  {
    match BoxRegLossKindOf(name)
    case SmoothL1 => SmoothL1ReadsOnlyForeground(o, rl1, rl2);
    case DiouFromDeltas => DiouReadsOnlyForeground(o, rl1, rl2, boxLossWeight);
    case DiouFromBoxes => DiouFvcoreReadsOnlyForeground(o, rl1, rl2, boxLossWeight);
    case Ciou => CiouReadsOnlyForeground(o, rl1, rl2, boxLossWeight);
  }

  lemma SmoothL1ReadsOnlyForeground(o: Outputs, rl1: RowLosses, rl2: RowLosses)
    requires o.Valid() && o.gtClasses.Some?
    requires AgreeOnForeground(rl1, rl2, o.gtClasses.value, o.numLogitColumns)
    ensures SmoothL1Loss(o, rl1) == SmoothL1Loss(o, rl2)
  {
    var gt := o.gtClasses.value;
    forall i | 0 <= i < |gt| && IsForeground(gt[i], o.numLogitColumns)
      ensures SmoothL1Term(o, rl1)(i, gt[i] as nat) == SmoothL1Term(o, rl2)(i, gt[i] as nat)
    {
      var own := RegressionColumns(o, gt[i] as nat);
      assert rl1.smoothL1(i, own) == rl2.smoothL1(i, own);
    }
    ForegroundSumFrame(gt, o.numLogitColumns, SmoothL1Term(o, rl1), SmoothL1Term(o, rl2));
  }

  lemma DiouReadsOnlyForeground(o: Outputs, rl1: RowLosses, rl2: RowLosses, boxLossWeight: real)
    requires o.Valid() && o.gtClasses.Some?
    requires AgreeOnForeground(rl1, rl2, o.gtClasses.value, o.numLogitColumns)
    ensures ComputeDiou(o, rl1, boxLossWeight) == ComputeDiou(o, rl2, boxLossWeight)
  {
    var gt := o.gtClasses.value;
    forall i | 0 <= i < |gt| && IsForeground(gt[i], o.numLogitColumns)
      ensures DiouTerm(o, rl1)(i, gt[i] as nat) == DiouTerm(o, rl2)(i, gt[i] as nat)
    {
      var first := ClassColumns(o.boxDim, 0);
      assert rl1.diouFromDeltas(i, first) == rl2.diouFromDeltas(i, first);
    }
    ForegroundSumFrame(gt, o.numLogitColumns, DiouTerm(o, rl1), DiouTerm(o, rl2));
  }

  lemma DiouFvcoreReadsOnlyForeground(o: Outputs, rl1: RowLosses, rl2: RowLosses, boxLossWeight: real)
    requires o.Valid() && o.gtClasses.Some?
    requires AgreeOnForeground(rl1, rl2, o.gtClasses.value, o.numLogitColumns)
    ensures ComputeDiouFvcore(o, rl1, boxLossWeight) == ComputeDiouFvcore(o, rl2, boxLossWeight)
  {
    var gt := o.gtClasses.value;
    forall i | 0 <= i < |gt| && IsForeground(gt[i], o.numLogitColumns)
      ensures DiouBoxTerm(o, rl1)(i, gt[i] as nat) == DiouBoxTerm(o, rl2)(i, gt[i] as nat)
    {
      var first := ClassColumns(o.boxDim, 0);
      assert rl1.diouFromBoxes(i, first) == rl2.diouFromBoxes(i, first);
    }
    ForegroundSumFrame(gt, o.numLogitColumns, DiouBoxTerm(o, rl1), DiouBoxTerm(o, rl2));
  }

  lemma CiouReadsOnlyForeground(o: Outputs, rl1: RowLosses, rl2: RowLosses, boxLossWeight: real)
    requires o.Valid() && o.gtClasses.Some?
    requires AgreeOnForeground(rl1, rl2, o.gtClasses.value, o.numLogitColumns)
    ensures ComputeCiou(o, rl1, boxLossWeight) == ComputeCiou(o, rl2, boxLossWeight)
  {
    var gt := o.gtClasses.value;
    if ComputeCiou(o, rl1, boxLossWeight).Ok? {
      forall i | 0 <= i < |gt| && IsForeground(gt[i], o.numLogitColumns)
        ensures CiouTerm(rl1)(i, gt[i] as nat) == CiouTerm(rl2)(i, gt[i] as nat)
      {
        assert rl1.ciouFromDeltas(i, ClassColumns(4, 0)) == rl2.ciouFromDeltas(i, ClassColumns(4, 0));
      }
      CiouSelectsAfterComputing(o, rl1, boxLossWeight);
      CiouSelectsAfterComputing(o, rl2, boxLossWeight);
      ForegroundSumFrame(gt, o.numLogitColumns, CiouTerm(rl1), CiouTerm(rl2));
    }
  }

  /**
    The IoU losses read columns 0..3 whatever a region's class: relabelling
    foreground regions with other foreground classes leaves them unchanged.
   */
  lemma IouLossesIgnoreClassLabels(o: Outputs, gt2: seq<int>, rl: RowLosses, name: string, boxLossWeight: real)
    requires o.Valid() && o.gtClasses.Some?
    requires BoxRegLossKindOf(name) != SmoothL1
    requires |gt2| == |o.gtClasses.value|
    requires forall i :: 0 <= i < |gt2| ==>
      (IsForeground(gt2[i], o.numLogitColumns) <==> IsForeground(o.gtClasses.value[i], o.numLogitColumns))
    ensures BoxRegLoss(o.(gtClasses := Some(gt2)), rl, name, boxLossWeight) == BoxRegLoss(o, rl, name, boxLossWeight)
  {
    var gt := o.gtClasses.value;
    var o2 := o.(gtClasses := Some(gt2));
    var L := o.numLogitColumns;
    IndicesWhereExt(|gt|, (i: nat) => i < |gt| && IsForeground(gt[i], L), (i: nat) => i < |gt2| && IsForeground(gt2[i], L));
    assert ForegroundRows(gt, L) == ForegroundRows(gt2, L);
    assert ForegroundTerms(gt, L, DiouTerm(o, rl)) == ForegroundTerms(gt2, L, DiouTerm(o2, rl));
    assert ForegroundTerms(gt, L, DiouBoxTerm(o, rl)) == ForegroundTerms(gt2, L, DiouBoxTerm(o2, rl));
    assert ForegroundTerms(gt, L, CiouTerm(rl)) == ForegroundTerms(gt2, L, CiouTerm(rl));
    if BoxRegLossKindOf(name) == Ciou && ComputeCiou(o, rl, boxLossWeight).Ok? {
      CiouSelectsAfterComputing(o, rl, boxLossWeight);
      CiouSelectsAfterComputing(o2, rl, boxLossWeight);
    }
  }

  /**
    With the corrected empty-batch flag the smooth-L1 loss is never NaN (an
    empty batch gives 0 and otherwise R > 0), and the classification loss
    is NaN only when regions exist and every one of them has the ignore
    index as its target.
   */
  lemma GuardedLossesAreFinite(proposals: seq<ProposalSet>, numLogitColumns: nat, numDeltaColumns: nat, boxDim: nat, rl: RowLosses)
    requires forall i :: 0 <= i < |proposals| ==> ValidProposalSet(proposals[i])
    requires HeadShape(numDeltaColumns, boxDim)
    requires NewOutputs(proposals, numLogitColumns, numDeltaColumns, boxDim).Ok?
    ensures var o := NewOutputs(proposals, numLogitColumns, numDeltaColumns, boxDim).value;
      && (SoftmaxCrossEntropyLoss(o, rl).Ok? && !SoftmaxCrossEntropyLoss(o, rl).value.Fin? ==>
            && o.gtClasses.Some? && |o.gtClasses.value| > 0
            && forall i :: 0 <= i < |o.gtClasses.value| ==> o.gtClasses.value[i] == IgnoreIndex)
      && (SmoothL1Loss(o, rl).Ok? ==> SmoothL1Loss(o, rl).value.Fin?)
  {
  }

  /**
    One image with no proposals: the as-written flag (which counts images)
    is off, so both losses divide 0 by 0; the corrected flag gives 0.
   */
  lemma EmptyImageLossIsNaNAsWritten()
    ensures var proposals := [ProposalSet(0, Some([]))];
      var rl := RowLosses((i: nat, t: int) => 1.0, (i: nat, c: seq<nat>) => 1.0, (i: nat, c: seq<nat>) => 1.0,
                          (i: nat, c: seq<nat>) => 1.0, (i: nat, c: seq<nat>) => true, (i: nat, c: seq<nat>) => 1.0);
      var asWritten := NewOutputsAsWritten(proposals, 2, 4, 4).value;
      var corrected := NewOutputs(proposals, 2, 4, 4).value;
      && SoftmaxCrossEntropyLoss(asWritten, rl) == Ok(NaN)
      && SmoothL1Loss(asWritten, rl) == Ok(NaN)
      && SoftmaxCrossEntropyLoss(corrected, rl) == Ok(Fin(0.0))
      && SmoothL1Loss(corrected, rl) == Ok(Fin(0.0))
  {
    var proposals := [ProposalSet(0, Some([]))];
    var parts := seq(1, i requires 0 <= i < 1 => proposals[i].gtClasses.value);
    assert Flatten(parts) == [];
    assert GroundTruthOf(proposals) == Ok(Some([]));
    assert SumNat(ProposalCounts(proposals)) == 0;
  }
}

=== FILE: numerics.dfy ===
/**
  Scalars as the tensor library sees them: a finite real or one of the
  non-finite IEEE values. Only the distinction finite / non-finite and the
  way a mean over nothing becomes NaN matter to this model; rounding does not.
 */
module Numerics {

  datatype Float = Fin(val: real) | PosInf | NegInf | NaN {
    predicate IsFinite() {
      Fin?
    }
  }

  /** True when every entry of a tensor row is finite (`torch.isfinite(row).all()`). */
  predicate AllFinite(row: seq<Float>) {
    forall j :: 0 <= j < |row| ==> row[j].Fin?
  }

  /** The real values of a row known to be finite. */
  function Reals(row: seq<Float>): (r: seq<real>)
    requires AllFinite(row)
    ensures |r| == |row|
    ensures forall j :: 0 <= j < |row| ==> row[j] == Fin(r[j])
  {
    seq(|row|, j requires 0 <= j < |row| => row[j].val)
  }

  /**
    A sum divided by a count, as a tensor division does it: dividing by a
    count of zero gives NaN (the model's sums are finite reals).
   */
  function Normalize(sum: real, count: nat): (r: Float)
    ensures r.Fin? <==> count > 0
    ensures count > 0 ==> r.val * (count as real) == sum
  {
    if count == 0 then NaN else Fin(sum / count as real)
  }

  /** A zero sum over a non-empty batch normalises, and scales, to zero. */
  lemma ZeroMean(count: nat, w: real)
    requires count > 0
    ensures Normalize(0.0, count) == Fin(0.0)
    ensures Scale(Normalize(0.0, count), w) == Fin(0.0)
  {
    assert 0.0 / count as real == 0.0;
  }

  /** Multiplication of a tensor scalar by a real weight; NaN stays NaN. */
  function Scale(x: Float, w: real): (r: Float)
    ensures x.Fin? ==> r == Fin(x.val * w)
    ensures x.NaN? ==> r.NaN?
  {
    if x.Fin? then Fin(x.val * w)
    else if x.NaN? || w == 0.0 then NaN
    else if (w > 0.0) == x.PosInf? then PosInf
    else NegInf
  }
}

=== FILE: resnet.dfy ===
/**
  The bookkeeping of the `ResNet` backbone: stage names, the stride and
  channel tables recorded per feature, the validation of the requested
  output features, which modules `freeze` freezes, which features
  `forward` returns, and `make_stage`.
 */
module ResNet {
  import opened Results
  import opened Variants
  import opened ResNetBlocks

  // ---------------------------------------------------------------- names

  function DigitChar(d: nat): char
    requires d < 10
  {
    ('0' as int + d) as char
  }

  function DigitValue(c: char): int {
    c as int - '0' as int
  }

  /** `str(n)` for a natural number: its decimal digits, most significant first. */
  function NatToString(n: nat): (s: string)
    ensures |s| >= 1
    decreases n
  {
    if n < 10 then [DigitChar(n)] else NatToString(n / 10) + [DigitChar(n % 10)]
  }

  /** The value of a string of decimal digits. */
  function ParseNat(s: string): int
    requires |s| >= 1
    decreases |s|
  {
    if |s| == 1 then DigitValue(s[0]) else 10 * ParseNat(s[..|s| - 1]) + DigitValue(s[|s| - 1])
  }

  lemma {:induction false} ParseNatToString(n: nat)
    ensures ParseNat(NatToString(n)) == n
    decreases n
  {
    if n >= 10 {
      var s := NatToString(n);
      assert s[..|s| - 1] == NatToString(n / 10);
      ParseNatToString(n / 10);
    }
  }

  lemma NatToStringInjective(a: nat, b: nat)
    requires NatToString(a) == NatToString(b)
    ensures a == b
  {
    ParseNatToString(a);
    ParseNatToString(b);
  }

  /**
    The direct children of the backbone, by role: the stem, the i-th stage
    (registered as `"res" + str(i + 2)`), the classifier's pool and linear
    layer; `Unknown` holds any other string.
   */
  datatype ModuleName = StemModule | StageModule(index: nat) | AvgPoolModule | LinearModule | Unknown(name: string)

  /** The string a module is registered under. */
  function Name(m: ModuleName): string {
    match m
    case StemModule => "stem"
    case StageModule(i) => "res" + NatToString(i + 2)
    case AvgPoolModule => "avgpool"
    case LinearModule => "linear"
    case Unknown(s) => s
  }

  /** The decimal numerals `str` produces: no sign, no leading zero. */
  predicate IsNumeral(t: string) {
    |t| >= 1 && ParseNat(t) >= 0 && NatToString(ParseNat(t)) == t
  }

  /** The module a string names, `Unknown` when it names none; `Name` undoes it. */
  function Resolve(s: string): (m: ModuleName)
    ensures Name(m) == s
  {
    if s == "stem" then StemModule
    else if s == "avgpool" then AvgPoolModule
    else if s == "linear" then LinearModule
    else if |s| >= 4 && s[..3] == "res" && IsNumeral(s[3..]) && ParseNat(s[3..]) >= 2 then
      assert s == s[..3] + s[3..];
      StageModule(ParseNat(s[3..]) - 2)
    else Unknown(s)
  }

  /** Every module of the backbone is found again from its registered name. */
  lemma ResolveName(m: ModuleName)
    requires !m.Unknown?
    ensures Resolve(Name(m)) == m
  {
    if m.StageModule? {
      var s := Name(m);
      var t := NatToString(m.index + 2);
      assert s[0] == 'r';
      assert s[..3] == "res" && s[3..] == t;
      ParseNatToString(m.index + 2);
    }
  }

  /** Distinct modules are registered under distinct names. */
  lemma NameInjective(a: ModuleName, b: ModuleName)
    requires !a.Unknown? && !b.Unknown? && Name(a) == Name(b)
    ensures a == b
  {
    ResolveName(a);
    ResolveName(b);
  }

  /** The direct children of a backbone with k stages, as `named_children` lists them. */
  function Children(k: nat, hasClassifier: bool): (c: set<ModuleName>)
    ensures forall m :: m in c <==>
      m == StemModule || (m.StageModule? && m.index < k) || (hasClassifier && (m == AvgPoolModule || m == LinearModule))
  {
    {StemModule} + (set i | 0 <= i < k :: StageModule(i)) + (if hasClassifier then {AvgPoolModule, LinearModule} else {})
  }

  // ---------------------------------------------------------------- strides

  /** The product of the strides of a list of blocks (`np.prod([k.stride for k in blocks])`). */
  function BlocksStride(blocks: seq<Block>): nat
    decreases |blocks|
  {
    if blocks == [] then 1 else blocks[0].stride * BlocksStride(blocks[1..])
  }

  /** The stride after the first k stages, starting from the stem's stride. */
  function StrideAfter(stemStride: nat, stages: seq<seq<Block>>, k: nat): nat
    requires k <= |stages|
    decreases k
  {
    if k == 0 then stemStride else StrideAfter(stemStride, stages, k - 1) * BlocksStride(stages[k - 1])
  }

  /**
    The stride table `__init__` fills while walking the stages: the
    running stride is multiplied by each stage's block strides and recorded
    under the stage's name. `first` is the index of `stages[0]`.
   */
  function StageStrides(current: nat, stages: seq<seq<Block>>, first: nat): (m: map<ModuleName, nat>)
    ensures m.Keys == set i | first <= i < first + |stages| :: StageModule(i)
    decreases |stages|
  {
    if stages == [] then map[]
    else
      var next := current * BlocksStride(stages[0]);
      map[StageModule(first) := next] + StageStrides(next, stages[1..], first + 1)
  }

  /** The running-product table records, for every stage, the stem stride times all block strides up to it. */
  lemma {:induction false} StageStridesClosedForm(stemStride: nat, stages: seq<seq<Block>>, k: nat, i: nat)
    requires k <= i < |stages|
    ensures StageModule(i) in StageStrides(StrideAfter(stemStride, stages, k), stages[k..], k)
    ensures StageStrides(StrideAfter(stemStride, stages, k), stages[k..], k)[StageModule(i)] == StrideAfter(stemStride, stages, i + 1)
    decreases i - k
  {
    assert stages[k..][0] == stages[k] && stages[k..][1..] == stages[k + 1..];
    if i > k {
      StageStridesClosedForm(stemStride, stages, k + 1, i);
    }
  }

  /** The complete stride table: the stem's stride and the running product per stage. */
  function StrideTable(stemStride: nat, stages: seq<seq<Block>>): (m: map<ModuleName, nat>)
    ensures m.Keys == {StemModule} + (set i | 0 <= i < |stages| :: StageModule(i))
    ensures m[StemModule] == stemStride
    ensures forall i :: 0 <= i < |stages| ==> m[StageModule(i)] == StrideAfter(stemStride, stages, i + 1)
  {
    var strides := StageStrides(stemStride, stages, 0);
    forall i | 0 <= i < |stages|
      ensures StageModule(i) in strides && strides[StageModule(i)] == StrideAfter(stemStride, stages, i + 1)
    {
      assert stages[0..] == stages;
      StageStridesClosedForm(stemStride, stages, 0, i);
    }
    strides[StemModule := stemStride]
  }

  /** The channel table: the stem's output channels and each stage's last block's. */
  function ChannelTable(stem: Stem, stages: seq<seq<Block>>): (m: map<ModuleName, nat>)
    requires forall i :: 0 <= i < |stages| ==> stages[i] != []
    ensures m.Keys == {StemModule} + (set i | 0 <= i < |stages| :: StageModule(i))
    ensures m[StemModule] == stem.outChannels
    ensures forall i :: 0 <= i < |stages| ==> m[StageModule(i)] == stages[i][|stages[i]| - 1].outChannels
  {
    var perStage := map i | 0 <= i < |stages| :: StageModule(i) := stages[i][|stages[i]| - 1].outChannels;
    perStage[StemModule := stem.outChannels]
  }

  // ---------------------------------------------------------------- the backbone

  datatype ResNetError =
    | EmptyStage            // `assert len(blocks) > 0`
    | UndefinedName         // `curr_channels` or `name` read before any stage set it
    | NoOutFeatures         // `assert len(self._out_features)`
    | UnknownOutFeature     // an out feature that is not a child module
    | StrideGivenToStage    // `assert "stride" not in kwargs`
    | KeywordMismatch       // a block constructor given an argument it does not take, or missing one it requires
    | GroupsMismatch        // `nn.Conv2d` refusing its `groups`: not positive, or not dividing the channels

  /** A constructed backbone: its parts, the requested outputs and the tables `__init__` records. */
  datatype Network = Network(
    stem: Stem,
    stages: seq<seq<Block>>,
    numClasses: Option<nat>,
    outFeatures: seq<ModuleName>,
    featureStrides: map<ModuleName, nat>,
    featureChannels: map<ModuleName, nat>)

  /** The last layer, the default output feature. */
  function LastLayer(numStages: nat, numClasses: Option<nat>): Option<ModuleName> {
    if numClasses.Some? then Some(LinearModule)
    else if numStages > 0 then Some(StageModule(numStages - 1))
    else None
  }

  function ResolveAll(names: seq<string>): (ms: seq<ModuleName>)
    ensures |ms| == |names|
    ensures forall j :: 0 <= j < |names| ==> ms[j] == Resolve(names[j]) && Name(ms[j]) == names[j]
  {
    seq(|names|, j requires 0 <= j < |names| => Resolve(names[j]))
  }

  /**
    `ResNet.__init__`: every stage must be non-empty; the classifier needs a
    stage before it; without explicit out features the last layer is
    returned; the out features must be non-empty and name child modules.
   */
  function NewResNet(stem: Stem, stages: seq<seq<Block>>, numClasses: Option<nat>, outFeatures: Option<seq<string>>)
    : (r: Result<Network, ResNetError>)
    ensures (exists i :: 0 <= i < |stages| && stages[i] == []) ==> r == Err(EmptyStage)
    ensures r.Ok? <==>
      && (forall i :: 0 <= i < |stages| ==> stages[i] != [])
      && (numClasses.Some? ==> |stages| > 0)
      && (outFeatures.Some? || LastLayer(|stages|, numClasses).Some?)
      && (outFeatures.Some? ==> |outFeatures.value| > 0
                                && forall f :: f in outFeatures.value ==> Resolve(f) in Children(|stages|, numClasses.Some?))
    ensures r.Ok? ==>
      && r.value.stem == stem && r.value.stages == stages && r.value.numClasses == numClasses
      && |r.value.outFeatures| > 0
      && (forall m :: m in r.value.outFeatures ==> m in Children(|stages|, numClasses.Some?))
      && (outFeatures.Some? ==> r.value.outFeatures == ResolveAll(outFeatures.value))
      && (outFeatures.None? ==> r.value.outFeatures == [LastLayer(|stages|, numClasses).value])
      && r.value.featureStrides == StrideTable(stem.stride, stages)
      && r.value.featureChannels == ChannelTable(stem, stages)
  {
    if exists i :: 0 <= i < |stages| && stages[i] == [] then Err(EmptyStage)
    else if numClasses.Some? && |stages| == 0 then Err(UndefinedName)
    else if outFeatures.None? && LastLayer(|stages|, numClasses).None? then Err(UndefinedName)
    else
      var outs := if outFeatures.Some? then ResolveAll(outFeatures.value) else [LastLayer(|stages|, numClasses).value];
      if |outs| == 0 then Err(NoOutFeatures)
      else if exists m :: m in outs && m !in Children(|stages|, numClasses.Some?) then Err(UnknownOutFeature)
      else Ok(Network(stem, stages, numClasses, outs, StrideTable(stem.stride, stages), ChannelTable(stem, stages)))
  }

  /** The backbones `NewResNet` returns. */
  predicate Constructed(n: Network) {
    && (forall i :: 0 <= i < |n.stages| ==> n.stages[i] != [])
    && |n.outFeatures| > 0
    && (forall m :: m in n.outFeatures ==> m in Children(|n.stages|, n.numClasses.Some?))
    && n.featureStrides == StrideTable(n.stem.stride, n.stages)
    && n.featureChannels == ChannelTable(n.stem, n.stages)
  }

  lemma NewResNetConstructs(stem: Stem, stages: seq<seq<Block>>, numClasses: Option<nat>, outFeatures: Option<seq<string>>)
    requires NewResNet(stem, stages, numClasses, outFeatures).Ok?
    ensures Constructed(NewResNet(stem, stages, numClasses, outFeatures).value)
  {
  }

  // ---------------------------------------------------------------- forward

  /** The requested stages among the first k, in order. */
  function RequestedStages(k: nat, outFeatures: seq<ModuleName>): (r: seq<ModuleName>)
    ensures forall m :: m in r <==> m in outFeatures && m.StageModule? && m.index < k
    decreases k
  {
    if k == 0 then []
    else RequestedStages(k - 1, outFeatures) + (if StageModule(k - 1) in outFeatures then [StageModule(k - 1)] else [])
  }

  /** The keys of the dictionary `forward` returns, in insertion order. */
  function ForwardOutputs(n: Network): seq<ModuleName> {
    (if StemModule in n.outFeatures then [StemModule] else [])
    + RequestedStages(|n.stages|, n.outFeatures)
    + (if n.numClasses.Some? && LinearModule in n.outFeatures then [LinearModule] else [])
  }

  /**
    `forward` returns exactly the requested features, except "avgpool":
    `__init__` accepts it as a child module, but `forward` never records it.
   */
  lemma ForwardReturnsRequestedFeatures(n: Network)
    requires Constructed(n)
    ensures forall m :: m in ForwardOutputs(n) <==> m in n.outFeatures && m != AvgPoolModule
  {
  }

  /** `output_shape`: (channels, stride) of every out feature; "linear" and "avgpool" have none recorded. */
  function OutputShape(n: Network): (r: Option<map<ModuleName, (nat, nat)>>)
    requires n.featureChannels.Keys == n.featureStrides.Keys
    ensures r.Some? <==> forall m :: m in n.outFeatures ==> m in n.featureStrides
    ensures r.Some? ==> r.value.Keys == set m | m in n.outFeatures
    ensures r.Some? ==> forall m :: m in n.outFeatures ==> r.value[m] == (n.featureChannels[m], n.featureStrides[m])
  {
    if forall m :: m in n.outFeatures ==> m in n.featureStrides then
      Some(map m | m in n.outFeatures :: (n.featureChannels[m], n.featureStrides[m]))
    else None
  }

  /** A constructed backbone has a shape for every out feature unless the classifier's layers are requested. */
  lemma OutputShapeDefined(n: Network)
    requires Constructed(n)
    ensures OutputShape(n).Some? <==> LinearModule !in n.outFeatures && AvgPoolModule !in n.outFeatures
  {
  }

  // ---------------------------------------------------------------- freeze

  /**
    `freeze(freeze_at)`: the modules whose parameters stop training — the
    stem when freeze_at >= 1, and stage i (named res{i+2}) when
    freeze_at >= i + 2.
   */
  function FrozenModules(n: Network, freezeAt: int): set<ModuleName> {
    (if freezeAt >= 1 then {StemModule} else {})
    + set i | 0 <= i < |n.stages| && freezeAt >= i + 2 :: StageModule(i)
  }

  /** The stem followed by the stages, in forward order. */
  function ModuleOrder(numStages: nat): (order: seq<ModuleName>)
    ensures |order| == numStages + 1
    ensures order[0] == StemModule
    ensures forall i :: 0 <= i < numStages ==> order[i + 1] == StageModule(i)
  {
    [StemModule] + seq(numStages, i requires 0 <= i < numStages => StageModule(i))
  }

  /** How many modules freeze_at covers: clamped to [0, stages + 1]. */
  function FrozenCount(freezeAt: int, numStages: nat): (c: nat)
    ensures c <= numStages + 1
  {
    if freezeAt <= 0 then 0 else if freezeAt >= numStages + 1 then numStages + 1 else freezeAt
  }

  /** Freezing covers exactly a prefix of the modules in forward order. */
  lemma FreezeIsPrefix(n: Network, freezeAt: int)
    ensures FrozenModules(n, freezeAt) == set x | x in ModuleOrder(|n.stages|)[..FrozenCount(freezeAt, |n.stages|)]
  {
    var k := |n.stages|;
    var prefix := ModuleOrder(k)[..FrozenCount(freezeAt, k)];
    forall i | 0 <= i < k && freezeAt >= i + 2 ensures StageModule(i) in prefix {
      assert prefix[i + 1] == StageModule(i);
    }
    assert freezeAt >= 1 ==> prefix[0] == StemModule;
  }

  /** Freezing more never unfreezes a module. */
  lemma FreezeMonotone(n: Network, f: int, g: int)
    requires f <= g
    ensures FrozenModules(n, f) <= FrozenModules(n, g)
  {
  }

  lemma {:induction false} DistinctCardinality(s: seq<ModuleName>)
    requires forall i, j :: 0 <= i < j < |s| ==> s[i] != s[j]
    ensures |set x | x in s| == |s|
    decreases |s|
  {
    if s != [] {
      var init := s[..|s| - 1];
      DistinctCardinality(init);
      assert (set x | x in s) == (set x | x in init) + {s[|s| - 1]};
    }
  }

  /** freeze_at = f freezes exactly min(max(f, 0), stages + 1) modules. */
  lemma FreezeCount(n: Network, freezeAt: int)
    ensures |FrozenModules(n, freezeAt)| == FrozenCount(freezeAt, |n.stages|)
  {
    var k := |n.stages|;
    FreezeIsPrefix(n, freezeAt);
    DistinctCardinality(ModuleOrder(k)[..FrozenCount(freezeAt, k)]);
  }

  // ---------------------------------------------------------------- make_stage

  /** The block class, with the values of its constructor's keyword arguments. */
  datatype BlockClass =
    | BasicBlockClass
    | BottleneckClass(args: BottleneckArgs)
    | DeformBottleneckClass(args: BottleneckArgs, deform: DeformArgs)

  /** The names of the block constructors' keyword arguments, `stride` among them. */
  datatype Keyword =
    | Stride | Norm | BottleneckChannels | NumGroups | StrideIn1x1 | Dilation
    | DeformModulated | DeformNumGroups | Avd | AvgDown | Radix | BottleneckWidth

  /** The keyword arguments the class's constructor takes besides in_channels, out_channels and stride. */
  function AcceptedKeywords(cls: BlockClass): set<Keyword> {
    match cls
    case BasicBlockClass => {Norm}
    case BottleneckClass(_) =>
      {BottleneckChannels, NumGroups, Norm, StrideIn1x1, Dilation, Avd, AvgDown, Radix, BottleneckWidth}
    case DeformBottleneckClass(_, _) =>
      {BottleneckChannels, NumGroups, Norm, StrideIn1x1, Dilation, DeformModulated, DeformNumGroups,
       Avd, AvgDown, Radix, BottleneckWidth}
  }

  /** The keyword arguments without a default: `bottleneck_channels` for the bottleneck blocks. */
  function RequiredKeywords(cls: BlockClass): (k: set<Keyword>)
    ensures k <= AcceptedKeywords(cls)
    ensures cls.BasicBlockClass? <==> k == {}
  {
    if cls.BasicBlockClass? then {} else {BottleneckChannels}
  }

  /** A constructor call with these keyword arguments binds every one of them and misses none it needs. */
  predicate KeywordsFit(cls: BlockClass, kwargs: set<Keyword>) {
    RequiredKeywords(cls) <= kwargs <= AcceptedKeywords(cls)
  }

  /**
    The bottleneck arguments the constructor binds: a keyword argument that
    is passed keeps its value, one left out takes the constructor's default
    (`num_groups=1`, `stride_in_1x1=False`, `dilation=1`, `avd=False`,
    `avg_down=False`, `radix=2`, `bottleneck_width=64`).
   */
  function BoundArgs(a: BottleneckArgs, kwargs: set<Keyword>): BottleneckArgs {
    BottleneckArgs(
      a.bottleneckChannels,
      if NumGroups in kwargs then a.numGroups else 1,
      if StrideIn1x1 in kwargs then a.strideIn1x1 else false,
      if Dilation in kwargs then a.dilation else 1,
      if Avd in kwargs then a.avd else false,
      if AvgDown in kwargs then a.avgDown else false,
      if Radix in kwargs then a.radix else 2,
      if BottleneckWidth in kwargs then a.bottleneckWidth else 64)
  }

  /**
    The class as its constructor sees a call with these keyword arguments:
    the values passed, and the defaults (`deform_modulated=False`,
    `deform_num_groups=1` besides the bottleneck ones) for the rest.
   */
  function Bound(cls: BlockClass, kwargs: set<Keyword>): (c: BlockClass)
    ensures AcceptedKeywords(cls) <= kwargs ==> c == cls
    ensures c.BasicBlockClass? == cls.BasicBlockClass? && c.BottleneckClass? == cls.BottleneckClass?
    ensures !cls.BasicBlockClass? ==> c.args.bottleneckChannels == cls.args.bottleneckChannels
  {
    match cls
    case BasicBlockClass => BasicBlockClass
    case BottleneckClass(a) => BottleneckClass(BoundArgs(a, kwargs))
    case DeformBottleneckClass(a, d) =>
      DeformBottleneckClass(BoundArgs(a, kwargs), DeformArgs(if DeformModulated in kwargs then d.modulated else false,
                                                             if DeformNumGroups in kwargs then d.deformGroups else 1))
  }

  /** Binding is settled after one call: binding the bound class again changes nothing. */
  lemma BoundIdempotent(cls: BlockClass, kwargs: set<Keyword>)
    ensures Bound(Bound(cls, kwargs), kwargs) == Bound(cls, kwargs)
  {
  }

  /**
    Whether the class's blocks pass `nn.Conv2d`'s group check: a plain 3x3
    convolution (radix at most 1) needs a positive `num_groups`, and the
    deformable block's offset predictor needs `deform_num_groups` positive
    and dividing the channels it reads.
   */
  predicate ClassGroupsFit(v: Variant, cls: BlockClass) {
    match cls
    case BasicBlockClass => true
    case BottleneckClass(a) => a.radix > 1 || a.numGroups > 0
    case DeformBottleneckClass(a, d) =>
      d.deformGroups > 0 && (if v == AsWritten then a.bottleneckChannels else GroupWidth(a)) % d.deformGroups == 0
  }

  /**
    Whether the class's block as written lines up at this stride: a
    bottleneck block must not stride twice (avd with `stride_in_1x1`), and
    the deformable one also needs `group_width == bottleneck_channels`.
   */
  predicate SourceBlockSound(cls: BlockClass, stride: nat) {
    match cls
    case BasicBlockClass => true
    case BottleneckClass(a) => !(AvdActive(a, stride) && a.strideIn1x1)
    case DeformBottleneckClass(a, _) => !(AvdActive(a, stride) && a.strideIn1x1) && GroupWidth(a) == a.bottleneckChannels
  }

  /**
    `block_class(in_channels, out_channels, stride=stride, **kwargs)`, with
    the block classes as written or corrected: the corrected blocks line up
    whenever the shortcut fits, the ones as written only where
    `SourceBlockSound` holds as well.
   */
  function MakeBlock(v: Variant, cls: BlockClass, inChannels: nat, outChannels: nat, stride: nat): (b: Block)
    ensures b.inChannels == inChannels && b.outChannels == outChannels && b.stride == stride
    ensures WellFormed(b) <==> (inChannels != outChannels || stride == 1) && (v == AsWritten ==> SourceBlockSound(cls, stride))
    ensures BlockGroupsFit(b) <==> ClassGroupsFit(v, cls)
  {
    match cls
    case BasicBlockClass =>
      BasicBlockWellFormed(inChannels, outChannels, stride);
      BasicBlock(inChannels, outChannels, stride)
    case BottleneckClass(a) =>
      BottleneckGroups(inChannels, outChannels, stride, a);
      if v == AsWritten then
        BottleneckAsWrittenWellFormed(inChannels, outChannels, stride, a);
        BottleneckBlockAsWritten(inChannels, outChannels, stride, a)
      else
        BottleneckBlockWellFormed(inChannels, outChannels, stride, a);
        BottleneckBlock(inChannels, outChannels, stride, a)
    case DeformBottleneckClass(a, d) =>
      DeformGroups(inChannels, outChannels, stride, a, d);
      if v == AsWritten then
        DeformAsWrittenWellFormed(inChannels, outChannels, stride, a, d);
        DeformBottleneckBlockAsWritten(inChannels, outChannels, stride, a, d)
      else
        DeformBottleneckBlockWellFormed(inChannels, outChannels, stride, a, d);
        DeformBottleneckBlock(inChannels, outChannels, stride, a, d)
  }

  /** Every block of a stage is well formed. */
  predicate AllWellFormed(blocks: seq<Block>) {
    forall i :: 0 <= i < |blocks| ==> WellFormed(blocks[i])
  }

  /** Consecutive blocks agree on channels: each block reads what the previous one writes. */
  predicate Chained(blocks: seq<Block>) {
    forall i :: 0 <= i < |blocks| - 1 ==> blocks[i].outChannels == blocks[i + 1].inChannels
  }

  lemma {:induction false} LaterBlocksKeepStride(blocks: seq<Block>)
    requires forall i :: 1 <= i < |blocks| ==> blocks[i].stride == 1
    ensures blocks != [] ==> BlocksStride(blocks) == blocks[0].stride
    ensures blocks == [] ==> BlocksStride(blocks) == 1
    decreases |blocks|
  {
    if |blocks| > 1 {
      LaterBlocksKeepStride(blocks[1..]);
    }
  }

  /** The i-th block of a stage: the stage's input channels and stride for the first, out_channels and 1 after. */
  function StageBlock(v: Variant, cls: BlockClass, i: nat, firstStride: nat, inChannels: nat, outChannels: nat): (b: Block)
    ensures b.inChannels == (if i == 0 then inChannels else outChannels)
    ensures b.outChannels == outChannels
    ensures b.stride == (if i == 0 then firstStride else 1)
    ensures WellFormed(b) <==> (b.inChannels != outChannels || b.stride == 1) && (v == AsWritten ==> SourceBlockSound(cls, b.stride))
    ensures BlockGroupsFit(b) <==> ClassGroupsFit(v, cls)
  {
    MakeBlock(v, cls, if i == 0 then inChannels else outChannels, outChannels, if i == 0 then firstStride else 1)
  }

  /**
    `make_stage`: `num_blocks` blocks of one class, the first taking the
    stage's input channels and `first_stride`, every later one stride 1;
    all of them output `out_channels`. Passing `stride` among the keyword
    arguments is refused; so (at the first block) is a set of keyword
    arguments the class's constructor cannot bind, and then a group count
    `nn.Conv2d` refuses. Each block's constructor sees the keyword
    arguments passed and its defaults for the rest (`Bound`).
   */
  function MakeStage(v: Variant, cls: BlockClass, numBlocks: nat, firstStride: nat, inChannels: nat, outChannels: nat,
                     kwargs: set<Keyword>): (r: Result<seq<Block>, ResNetError>)
    ensures Stride in kwargs ==> r == Err(StrideGivenToStage)
    ensures r.Err? <==>
      Stride in kwargs || (numBlocks > 0 && (!KeywordsFit(cls, kwargs) || !ClassGroupsFit(v, Bound(cls, kwargs))))
    ensures r.Err? && Stride !in kwargs ==> r.error == (if KeywordsFit(cls, kwargs) then GroupsMismatch else KeywordMismatch)
    ensures r.Ok? ==> |r.value| == numBlocks && forall i :: 0 <= i < numBlocks ==>
      && r.value[i].inChannels == (if i == 0 then inChannels else outChannels)
      && r.value[i].outChannels == outChannels
      && r.value[i].stride == (if i == 0 then firstStride else 1)
    ensures r.Ok? ==>
      var blocks := r.value;
      && Chained(blocks)
      && (numBlocks > 0 ==> blocks[0].inChannels == inChannels && blocks[numBlocks - 1].outChannels == outChannels)
      && BlocksStride(blocks) == (if numBlocks > 0 then firstStride else 1)
    ensures r.Ok? && numBlocks > 0 ==>
      (AllWellFormed(r.value)
       <==> (inChannels != outChannels || firstStride == 1) && (v == AsWritten ==> SourceBlockSound(Bound(cls, kwargs), firstStride)))
  {
    var bound := Bound(cls, kwargs);
    if Stride in kwargs then Err(StrideGivenToStage)
    else if numBlocks > 0 && !KeywordsFit(cls, kwargs) then Err(KeywordMismatch)
    else if numBlocks > 0 && !BlockGroupsFit(StageBlock(v, bound, 0, firstStride, inChannels, outChannels)) then Err(GroupsMismatch)
    else
      var blocks := seq(numBlocks, i requires 0 <= i < numBlocks => StageBlock(v, bound, i, firstStride, inChannels, outChannels));
      assert forall i :: 0 <= i < numBlocks ==> blocks[i] == StageBlock(v, bound, i, firstStride, inChannels, outChannels);
      LaterBlocksKeepStride(blocks);
      StageBlocksWellFormed(v, bound, blocks, firstStride, inChannels, outChannels);
      Ok(blocks)
  }

  /**
    A stage's blocks are all well-formed exactly when its first block is: the
    later ones repeat the output width at stride 1, which every class accepts.
   */
  lemma StageBlocksWellFormed(v: Variant, cls: BlockClass, blocks: seq<Block>, firstStride: nat, inChannels: nat, outChannels: nat)
    requires forall i :: 0 <= i < |blocks| ==> blocks[i] == StageBlock(v, cls, i, firstStride, inChannels, outChannels)
    ensures |blocks| > 0 ==>
      (AllWellFormed(blocks)
       <==> (inChannels != outChannels || firstStride == 1) && (v == AsWritten ==> SourceBlockSound(cls, firstStride)))
  {
    assert SourceBlockSound(cls, firstStride) ==> SourceBlockSound(cls, 1);
    if |blocks| > 0 {
      assert blocks[0] == StageBlock(v, cls, 0, firstStride, inChannels, outChannels);
    }
  }

  /** Block i of a stage is the block class's block for its channels and stride. */
  lemma MakeStageBlock(v: Variant, cls: BlockClass, numBlocks: nat, firstStride: nat, inChannels: nat, outChannels: nat,
                       kwargs: set<Keyword>, i: nat)
    requires MakeStage(v, cls, numBlocks, firstStride, inChannels, outChannels, kwargs).Ok? && i < numBlocks
    ensures MakeStage(v, cls, numBlocks, firstStride, inChannels, outChannels, kwargs).value[i]
      == MakeBlock(v, Bound(cls, kwargs), if i == 0 then inChannels else outChannels, outChannels, if i == 0 then firstStride else 1)
  {
  }

  /**
    Keyword arguments left out take the constructor's defaults, whatever the
    class value holds for them: given only `bottleneck_channels`, a
    bottleneck stage strides in the 3x3 convolution, has no avd pool and
    uses split attention (radix 2), so its block lines up.
   */
  lemma OmittedKeywordsTakeDefaults()
    ensures var cls := BottleneckClass(BottleneckArgs(64, 1, true, 1, true, false, 1, 64));
      var r := MakeStage(AsWritten, cls, 1, 2, 64, 256, {BottleneckChannels});
      && r.Ok? && AllWellFormed(r.value)
      && |r.value[0].main| == 3 && r.value[0].main[1].Conv? && r.value[0].main[1].kind.radix == 2
  {
    var cls := BottleneckClass(BottleneckArgs(64, 1, true, 1, true, false, 1, 64));
    var bound := BottleneckClass(BottleneckArgs(64, 1, false, 1, false, false, 2, 64));
    assert Bound(cls, {BottleneckChannels}) == bound;
    MakeStageBlock(AsWritten, cls, 1, 2, 64, 256, {BottleneckChannels}, 0);
  }
}

=== FILE: resnet_blocks.dfy ===
/**
  The shape rules of the residual blocks and the stem: each block is
  described by the layers on its main path, the layers on its shortcut
  path, and (for deformable blocks) the layer predicting the sampling
  offsets. A block is well formed when both paths carry the declared input
  channels to the declared output channels with the declared spatial
  stride, so that the residual addition lines up.
 */
module ResNetBlocks {
  import opened Results
  import opened Variants

  /** The deformable-convolution options of a 3x3 convolution. */
  datatype DeformArgs = DeformArgs(modulated: bool, deformGroups: nat)

  /** What kind of 3x3 convolution a layer is: split attention when radix > 1, deformable when `deform` is set. */
  datatype ConvKind = ConvKind(radix: nat, deform: Option<DeformArgs>)

  const PlainConv := ConvKind(1, None)

  datatype Layer =
    | Conv(kind: ConvKind, kernel: nat, inChannels: nat, outChannels: nat, stride: nat, dilation: nat, groups: nat)
    | AvgPool(kernel: nat, stride: nat)
    | MaxPool(kernel: nat, stride: nat)

  /** The channels a path produces from `c` input channels, or None when a convolution receives the wrong number. */
  function Flow(path: seq<Layer>, c: nat): Option<nat>
    decreases |path|
  {
    if path == [] then Some(c)
    else if path[0].Conv? then
      if path[0].inChannels == c then Flow(path[1..], path[0].outChannels) else None
    else Flow(path[1..], c)
  }

  /** The spatial downsampling of a path: the product of its layers' strides. */
  function PathStride(path: seq<Layer>): nat
    decreases |path|
  {
    if path == [] then 1 else path[0].stride * PathStride(path[1..])
  }

  lemma {:induction false} FlowAppend(a: seq<Layer>, b: seq<Layer>, c: nat)
    ensures Flow(a + b, c) == if Flow(a, c).None? then None else Flow(b, Flow(a, c).value)
    decreases |a|
  {
    if a == [] {
      assert a + b == b;
    } else {
      assert (a + b)[0] == a[0] && (a + b)[1..] == a[1..] + b;
      if a[0].Conv? {
        FlowAppend(a[1..], b, a[0].outChannels);
      } else {
        FlowAppend(a[1..], b, c);
      }
    }
  }

  lemma {:induction false} PathStrideAppend(a: seq<Layer>, b: seq<Layer>)
    ensures PathStride(a + b) == PathStride(a) * PathStride(b)
    decreases |a|
  {
    if a == [] {
      assert a + b == b;
    } else {
      assert (a + b)[0] == a[0] && (a + b)[1..] == a[1..] + b;
      PathStrideAppend(a[1..], b);
      MulAssociates(a[0].stride, PathStride(a[1..]), PathStride(b));
    }
  }

  lemma MulAssociates(x: nat, y: nat, z: nat)
    ensures x * (y * z) == (x * y) * z
  {
  }

  /** A single layer's channel flow and stride. */
  lemma OneLayer(l: Layer, c: nat)
    ensures Flow([l], c) == if l.Conv? && l.inChannels != c then None else if l.Conv? then Some(l.outChannels) else Some(c)
    ensures PathStride([l]) == l.stride
  {
    assert [l][1..] == [];
  }

  /** Flow and stride of a path given as its first layer followed by the rest. */
  lemma Cons(l: Layer, rest: seq<Layer>, c: nat)
    ensures Flow([l] + rest, c) == if l.Conv? && l.inChannels != c then None else if l.Conv? then Flow(rest, l.outChannels) else Flow(rest, c)
    ensures PathStride([l] + rest) == l.stride * PathStride(rest)
  {
    assert ([l] + rest)[1..] == rest;
  }

  /**
    A block as `CNNBlockBase` declares it (input and output channels,
    stride) together with its layers. An empty shortcut is the identity.
   */
  datatype Block = Block(
    inChannels: nat,
    outChannels: nat,
    stride: nat,
    main: seq<Layer>,
    shortcut: seq<Layer>,
    offsetPredictor: Option<Layer>)

  /** The offset channels a 3x3 deformable convolution needs per deformable group: (2 or 3) * 3 * 3. */
  function OffsetChannels(d: DeformArgs): (n: nat)
    ensures n == (if d.modulated then 3 else 2) * 3 * 3
  {
    if d.modulated then 27 else 18
  }

  /**
    The offset predictor reads the output of the first convolution, moves
    with the same stride as the deformable convolution and produces the
    offsets (and masks) that convolution consumes.
   */
  predicate OffsetsFit(b: Block) {
    b.offsetPredictor.Some? ==>
      && |b.main| >= 2 && b.main[0].Conv? && b.main[1].Conv? && b.main[1].kind.deform.Some?
      && var off := b.offsetPredictor.value;
      && off.Conv?
      && off.inChannels == b.main[0].outChannels
      && off.stride == b.main[1].stride
      && off.outChannels == OffsetChannels(b.main[1].kind.deform.value) * b.main[1].kind.deform.value.deformGroups
  }

  /** Both paths map the declared input to the declared output with the declared stride. */
  predicate WellFormed(b: Block) {
    && Flow(b.main, b.inChannels) == Some(b.outChannels)
    && Flow(b.shortcut, b.inChannels) == Some(b.outChannels)
    && PathStride(b.main) == b.stride
    && PathStride(b.shortcut) == b.stride
    && OffsetsFit(b)
  }

  // ---------------------------------------------------------------- grouped convolutions

  /**
    `nn.Conv2d`'s construction check: `groups` is positive and divides both
    channel counts, or the constructor raises a ValueError. Only plain
    convolutions are checked; the deformable and split-attention layers
    come from their own constructors.
   */
  predicate GroupsFit(l: Layer) {
    l.Conv? && l.kind == PlainConv ==> l.groups > 0 && l.inChannels % l.groups == 0 && l.outChannels % l.groups == 0
  }

  /** Every plain convolution of the block passes the group check, so building the block does not raise. */
  predicate BlockGroupsFit(b: Block) {
    && (forall i :: 0 <= i < |b.main| ==> GroupsFit(b.main[i]))
    && (forall i :: 0 <= i < |b.shortcut| ==> GroupsFit(b.shortcut[i]))
    && (b.offsetPredictor.Some? ==> GroupsFit(b.offsetPredictor.value))
  }

  /** A multiple of a positive group count is divisible by it. */
  lemma MultipleDivides(x: nat, g: nat)
    requires g > 0
    ensures (x * g) % g == 0
  {
    var n := x * g;
    var d, m := n / g, n % g;
    assert n == g * d + m && 0 <= m < g;
    var k := x - d;
    assert g * k == m;
  }

  // ---------------------------------------------------------------- shortcuts

  /**
    The projection shortcut, present only when the channel counts differ:
    with `avg_down`, an average pool carrying the stride followed by a
    stride-1 projection; otherwise a strided 1x1 projection.
   */
  function Shortcut(inChannels: nat, outChannels: nat, stride: nat, avgDown: bool): (s: seq<Layer>)
    ensures inChannels == outChannels <==> s == []
    ensures inChannels != outChannels ==>
      Flow(s, inChannels) == Some(outChannels) && PathStride(s) == stride
    ensures forall i :: 0 <= i < |s| ==> GroupsFit(s[i])
  {
    if inChannels == outChannels then []
    else if avgDown then
      var pool := AvgPool(stride, stride);
      var projection := Conv(PlainConv, 1, inChannels, outChannels, 1, 1, 1);
      OneLayer(projection, inChannels);
      Cons(pool, [projection], inChannels);
      assert [pool, projection] == [pool] + [projection];
      [pool, projection]
    else
      var projection := Conv(PlainConv, 1, inChannels, outChannels, stride, 1, 1);
      OneLayer(projection, inChannels);
      [projection]
  }

  /** The identity shortcut lines up exactly when the block keeps both channels and resolution. */
  lemma ShortcutFits(inChannels: nat, outChannels: nat, stride: nat, avgDown: bool)
    ensures var s := Shortcut(inChannels, outChannels, stride, avgDown);
      Flow(s, inChannels) == Some(outChannels) && PathStride(s) == stride
      <==> inChannels != outChannels || stride == 1
  {
  }

  // ---------------------------------------------------------------- basic block

  /** `BasicBlock`: two 3x3 convolutions, the first one strided. */
  function BasicBlock(inChannels: nat, outChannels: nat, stride: nat): (b: Block)
    ensures b.inChannels == inChannels && b.outChannels == outChannels && b.stride == stride
    ensures Flow(b.main, inChannels) == Some(outChannels) && PathStride(b.main) == stride
    ensures BlockGroupsFit(b)
  {
    var conv1 := Conv(PlainConv, 3, inChannels, outChannels, stride, 1, 1);
    var conv2 := Conv(PlainConv, 3, outChannels, outChannels, 1, 1, 1);
    Cons(conv1, [conv2], inChannels);
    OneLayer(conv2, outChannels);
    assert [conv1, conv2] == [conv1] + [conv2];
    Block(inChannels, outChannels, stride, [conv1, conv2], Shortcut(inChannels, outChannels, stride, false), None)
  }

  lemma BasicBlockWellFormed(inChannels: nat, outChannels: nat, stride: nat)
    ensures WellFormed(BasicBlock(inChannels, outChannels, stride)) <==> inChannels != outChannels || stride == 1
  {
    ShortcutFits(inChannels, outChannels, stride, false);
  }

  // ---------------------------------------------------------------- bottleneck blocks

  /** The keyword arguments shared by the bottleneck blocks. */
  datatype BottleneckArgs = BottleneckArgs(
    bottleneckChannels: nat,
    numGroups: nat,
    strideIn1x1: bool,
    dilation: nat,
    avd: bool,
    avgDown: bool,
    radix: nat,
    bottleneckWidth: nat)

  /**
    `group_width = int(bottleneck_channels * (bottleneck_width / 64.)) * cardinality`;
    the float product is exact for the widths in use, so the truncation is a floor.
   */
  function GroupWidth(a: BottleneckArgs): (gw: nat)
    ensures a.bottleneckWidth == 64 ==> gw == a.bottleneckChannels * a.numGroups
  {
    (a.bottleneckChannels * a.bottleneckWidth / 64) * a.numGroups
  }

  /** The average-pool downsampling of ResNeSt is active only for strided blocks. */
  predicate AvdActive(a: BottleneckArgs, stride: nat) {
    a.avd && stride > 1
  }

  /** `(stride_1x1, stride_3x3)`: the stride goes to the first 1x1 convolution or to the 3x3 one. */
  function ConvStrides(a: BottleneckArgs, stride: nat): (s: (nat, nat))
    ensures s.0 * s.1 == stride
    ensures a.strideIn1x1 ==> s.1 == 1
    ensures !a.strideIn1x1 ==> s.0 == 1
  {
    if a.strideIn1x1 then (stride, 1) else (1, stride)
  }

  /** The kind of the 3x3 convolution: split attention when radix > 1. */
  function MiddleKind(a: BottleneckArgs, deform: Option<DeformArgs>): ConvKind {
    ConvKind(if a.radix > 1 then a.radix else 1, deform)
  }

  /**
    The main path conv1 (1x1), conv2 (3x3), the optional avd pool and
    conv3 (1x1), given the first convolution's stride and the width the 3x3
    convolution reads and writes.
   */
  function BottleneckPath(inChannels: nat, outChannels: nat, stride: nat, a: BottleneckArgs,
                          stride1x1: nat, middleWidth: nat, deform: Option<DeformArgs>): seq<Layer>
  {
    var gw := GroupWidth(a);
    var conv1 := Conv(PlainConv, 1, inChannels, gw, stride1x1, 1, 1);
    var conv2 := Conv(MiddleKind(a, deform), 3, middleWidth, middleWidth,
                      if AvdActive(a, stride) then 1 else ConvStrides(a, stride).1, a.dilation, a.numGroups);
    var pool := if AvdActive(a, stride) then [AvgPool(3, stride)] else [];
    var conv3 := Conv(PlainConv, 1, gw, outChannels, 1, 1, 1);
    [conv1, conv2] + pool + [conv3]
  }

  /** Flow and stride of a bottleneck path, stated from its parts. */
  lemma BottleneckPathShape(inChannels: nat, outChannels: nat, stride: nat, a: BottleneckArgs,
                            stride1x1: nat, middleWidth: nat, deform: Option<DeformArgs>)
    ensures var p := BottleneckPath(inChannels, outChannels, stride, a, stride1x1, middleWidth, deform);
      && |p| >= 3 && p[0].Conv? && p[1].Conv? && p[1].kind.deform == deform
      && p[0].outChannels == GroupWidth(a)
      && (Flow(p, inChannels) == Some(outChannels) <==> middleWidth == GroupWidth(a))
      && PathStride(p) == stride1x1 * (if AvdActive(a, stride) then stride else ConvStrides(a, stride).1)
  {
    var p := BottleneckPath(inChannels, outChannels, stride, a, stride1x1, middleWidth, deform);
    var gw := GroupWidth(a);
    var conv1 := p[0];
    var conv2 := p[1];
    var conv3 := p[|p| - 1];
    var pool := if AvdActive(a, stride) then [AvgPool(3, stride)] else [];
    assert p == [conv1] + ([conv2] + (pool + [conv3]));
    OneLayer(conv3, gw);
    if AvdActive(a, stride) {
      Cons(pool[0], [conv3], middleWidth);
      assert pool + [conv3] == [pool[0]] + [conv3];
    } else {
      assert pool + [conv3] == [conv3];
    }
    Cons(conv2, pool + [conv3], gw);
    Cons(conv1, [conv2] + (pool + [conv3]), inChannels);
  }

  /**
    Only the 3x3 convolution of a bottleneck path is grouped: the path
    passes the group check iff that convolution is split attention or its
    `num_groups` is positive and divides its width.
   */
  lemma BottleneckPathGroups(inChannels: nat, outChannels: nat, stride: nat, a: BottleneckArgs,
                             stride1x1: nat, middleWidth: nat, deform: Option<DeformArgs>)
    ensures var p := BottleneckPath(inChannels, outChannels, stride, a, stride1x1, middleWidth, deform);
      (forall i :: 0 <= i < |p| ==> GroupsFit(p[i]))
      <==> (a.radix > 1 || deform.Some? || (a.numGroups > 0 && middleWidth % a.numGroups == 0))
  {
    var p := BottleneckPath(inChannels, outChannels, stride, a, stride1x1, middleWidth, deform);
    assert GroupsFit(p[0]) && GroupsFit(p[|p| - 1]);
    assert forall i :: 0 <= i < |p| && i != 1 ==> GroupsFit(p[i]);
    assert GroupsFit(p[1]) <==> (a.radix > 1 || deform.Some? || (a.numGroups > 0 && middleWidth % a.numGroups == 0));
  }

  /** The group width is a multiple of the group count, so a positive count always divides it. */
  lemma GroupWidthDivides(a: BottleneckArgs)
    requires a.numGroups > 0
    ensures GroupWidth(a) % a.numGroups == 0
  {
    MultipleDivides(a.bottleneckChannels * a.bottleneckWidth / 64, a.numGroups);
  }

  /**
    `BottleneckBlock` as written: with avd active the 3x3 convolution drops
    its stride for the avd pool, but conv1 keeps `stride_1x1`, so with
    `stride_in_1x1` the main path is strided twice.
   */
  function BottleneckBlockAsWritten(inChannels: nat, outChannels: nat, stride: nat, a: BottleneckArgs): (b: Block)
    ensures b.inChannels == inChannels && b.outChannels == outChannels && b.stride == stride
    ensures b.offsetPredictor.None?
  {
    var main := BottleneckPath(inChannels, outChannels, stride, a, ConvStrides(a, stride).0, GroupWidth(a), None);
    Block(inChannels, outChannels, stride, main, Shortcut(inChannels, outChannels, stride, a.avgDown), None)
  }

  /** The stride of conv1: none when the avd pool carries the block's stride. */
  function FirstConvStride(a: BottleneckArgs, stride: nat): (s: nat)
    ensures s * (if AvdActive(a, stride) then stride else ConvStrides(a, stride).1) == stride
  {
    if AvdActive(a, stride) then 1 else ConvStrides(a, stride).0
  }

  /** `BottleneckBlock` with the avd pool carrying the whole stride of the main path. */
  function BottleneckBlock(inChannels: nat, outChannels: nat, stride: nat, a: BottleneckArgs): (b: Block)
    ensures b.inChannels == inChannels && b.outChannels == outChannels && b.stride == stride
    ensures Flow(b.main, inChannels) == Some(outChannels) && PathStride(b.main) == stride
  {
    BottleneckPathShape(inChannels, outChannels, stride, a, FirstConvStride(a, stride), GroupWidth(a), None);
    var main := BottleneckPath(inChannels, outChannels, stride, a, FirstConvStride(a, stride), GroupWidth(a), None);
    Block(inChannels, outChannels, stride, main, Shortcut(inChannels, outChannels, stride, a.avgDown), None)
  }

  lemma BottleneckBlockWellFormed(inChannels: nat, outChannels: nat, stride: nat, a: BottleneckArgs)
    ensures WellFormed(BottleneckBlock(inChannels, outChannels, stride, a)) <==> inChannels != outChannels || stride == 1
  {
    ShortcutFits(inChannels, outChannels, stride, a.avgDown);
  }

  /**
    As written, a strided bottleneck block with avd and `stride_in_1x1`
    downsamples its main path by stride * stride while its shortcut
    downsamples by stride, so the residual addition cannot line up.
   */
  lemma BottleneckAsWrittenWellFormed(inChannels: nat, outChannels: nat, stride: nat, a: BottleneckArgs)
    ensures WellFormed(BottleneckBlockAsWritten(inChannels, outChannels, stride, a))
      <==> (inChannels != outChannels || stride == 1) && !(AvdActive(a, stride) && a.strideIn1x1)
  {
    var b := BottleneckBlockAsWritten(inChannels, outChannels, stride, a);
    BottleneckPathShape(inChannels, outChannels, stride, a, ConvStrides(a, stride).0, GroupWidth(a), None);
    ShortcutFits(inChannels, outChannels, stride, a.avgDown);
    if AvdActive(a, stride) && a.strideIn1x1 {
      assert PathStride(b.main) == stride * stride;
      assert stride * stride > stride;
    }
  }

  /**
    A bottleneck block raises at construction iff its 3x3 convolution is a
    plain one with no groups: `num_groups` 0 without split attention.
   */
  lemma BottleneckGroups(inChannels: nat, outChannels: nat, stride: nat, a: BottleneckArgs)
    ensures BlockGroupsFit(BottleneckBlockAsWritten(inChannels, outChannels, stride, a)) <==> a.radix > 1 || a.numGroups > 0
    ensures BlockGroupsFit(BottleneckBlock(inChannels, outChannels, stride, a)) <==> a.radix > 1 || a.numGroups > 0
  {
    BottleneckPathGroups(inChannels, outChannels, stride, a, ConvStrides(a, stride).0, GroupWidth(a), None);
    BottleneckPathGroups(inChannels, outChannels, stride, a, FirstConvStride(a, stride), GroupWidth(a), None);
    if a.numGroups > 0 {
      GroupWidthDivides(a);
    }
  }

  /** A concrete case: stride 2 with avd and `stride_in_1x1` gives a main path of stride 4. */
  lemma AvdStridesTwiceAsWritten()
    ensures var a := BottleneckArgs(64, 1, true, 1, true, false, 1, 64);
      && PathStride(BottleneckBlockAsWritten(256, 512, 2, a).main) == 4
      && PathStride(BottleneckBlockAsWritten(256, 512, 2, a).shortcut) == 2
      && PathStride(BottleneckBlock(256, 512, 2, a).main) == 2
  {
    var a := BottleneckArgs(64, 1, true, 1, true, false, 1, 64);
    BottleneckPathShape(256, 512, 2, a, 2, GroupWidth(a), None);
  }

  /**
    `DeformBottleneckBlock` as written: the offset predictor and (for radix
    1) the deformable convolution are sized by `bottleneck_channels`
    although conv1 produces `group_width` channels; the stride placement is
    the bottleneck block's.
   */
  function DeformBottleneckBlockAsWritten(inChannels: nat, outChannels: nat, stride: nat, a: BottleneckArgs, d: DeformArgs): (b: Block)
    ensures b.inChannels == inChannels && b.outChannels == outChannels && b.stride == stride
    ensures b.offsetPredictor.Some? && b.offsetPredictor.value.Conv?
    ensures b.offsetPredictor.value.inChannels == a.bottleneckChannels
  {
    var conv2Width := if a.radix > 1 then GroupWidth(a) else a.bottleneckChannels;
    var main := BottleneckPath(inChannels, outChannels, stride, a, ConvStrides(a, stride).0, conv2Width, Some(d));
    var offset := Conv(PlainConv, 3, a.bottleneckChannels, OffsetChannels(d) * d.deformGroups,
                       if AvdActive(a, stride) then 1 else ConvStrides(a, stride).1, a.dilation, d.deformGroups);
    Block(inChannels, outChannels, stride, main, Shortcut(inChannels, outChannels, stride, a.avgDown), Some(offset))
  }

  /** `DeformBottleneckBlock` with every 3x3 layer sized by `group_width` and the avd stride fixed. */
  function DeformBottleneckBlock(inChannels: nat, outChannels: nat, stride: nat, a: BottleneckArgs, d: DeformArgs): (b: Block)
    ensures b.inChannels == inChannels && b.outChannels == outChannels && b.stride == stride
    ensures Flow(b.main, inChannels) == Some(outChannels) && PathStride(b.main) == stride
    ensures OffsetsFit(b)
  {
    BottleneckPathShape(inChannels, outChannels, stride, a, FirstConvStride(a, stride), GroupWidth(a), Some(d));
    var main := BottleneckPath(inChannels, outChannels, stride, a, FirstConvStride(a, stride), GroupWidth(a), Some(d));
    var offset := Conv(PlainConv, 3, GroupWidth(a), OffsetChannels(d) * d.deformGroups,
                       if AvdActive(a, stride) then 1 else ConvStrides(a, stride).1, a.dilation, d.deformGroups);
    Block(inChannels, outChannels, stride, main, Shortcut(inChannels, outChannels, stride, a.avgDown), Some(offset))
  }

  lemma DeformBottleneckBlockWellFormed(inChannels: nat, outChannels: nat, stride: nat, a: BottleneckArgs, d: DeformArgs)
    ensures WellFormed(DeformBottleneckBlock(inChannels, outChannels, stride, a, d)) <==> inChannels != outChannels || stride == 1
  {
    ShortcutFits(inChannels, outChannels, stride, a.avgDown);
  }

  /**
    As written, the deformable block's layers line up only when
    `group_width == bottleneck_channels` (and the avd stride is not doubled).
   */
  lemma DeformAsWrittenWellFormed(inChannels: nat, outChannels: nat, stride: nat, a: BottleneckArgs, d: DeformArgs)
    ensures WellFormed(DeformBottleneckBlockAsWritten(inChannels, outChannels, stride, a, d))
      <==> && (inChannels != outChannels || stride == 1)
           && !(AvdActive(a, stride) && a.strideIn1x1)
           && GroupWidth(a) == a.bottleneckChannels
  {
    var b := DeformBottleneckBlockAsWritten(inChannels, outChannels, stride, a, d);
    var conv2Width := if a.radix > 1 then GroupWidth(a) else a.bottleneckChannels;
    BottleneckPathShape(inChannels, outChannels, stride, a, ConvStrides(a, stride).0, conv2Width, Some(d));
    ShortcutFits(inChannels, outChannels, stride, a.avgDown);
    if AvdActive(a, stride) && a.strideIn1x1 {
      assert PathStride(b.main) == stride * stride;
      assert stride * stride > stride;
    }
  }

  /**
    The deformable block's grouped plain convolution is the offset
    predictor, grouped by `deform_num_groups`: it must be positive and
    divide the channels the predictor reads (`bottleneck_channels` as
    written, `group_width` corrected).
   */
  lemma DeformGroups(inChannels: nat, outChannels: nat, stride: nat, a: BottleneckArgs, d: DeformArgs)
    ensures BlockGroupsFit(DeformBottleneckBlockAsWritten(inChannels, outChannels, stride, a, d))
      <==> d.deformGroups > 0 && a.bottleneckChannels % d.deformGroups == 0
    ensures BlockGroupsFit(DeformBottleneckBlock(inChannels, outChannels, stride, a, d))
      <==> d.deformGroups > 0 && GroupWidth(a) % d.deformGroups == 0
  {
    var conv2Width := if a.radix > 1 then GroupWidth(a) else a.bottleneckChannels;
    BottleneckPathGroups(inChannels, outChannels, stride, a, ConvStrides(a, stride).0, conv2Width, Some(d));
    BottleneckPathGroups(inChannels, outChannels, stride, a, FirstConvStride(a, stride), GroupWidth(a), Some(d));
    if d.deformGroups > 0 {
      MultipleDivides(OffsetChannels(d), d.deformGroups);
    }
  }

  /** A concrete case: ResNeXt-style groups (64 channels, 2 groups) make the as-written offsets read 64 of 128 channels. */
  lemma DeformWidthMismatchAsWritten()
    ensures var a := BottleneckArgs(64, 2, false, 1, false, false, 1, 64);
      var d := DeformArgs(false, 1);
      && GroupWidth(a) == 128
      && !WellFormed(DeformBottleneckBlockAsWritten(256, 512, 2, a, d))
      && WellFormed(DeformBottleneckBlock(256, 512, 2, a, d))
  {
    var a := BottleneckArgs(64, 2, false, 1, false, false, 1, 64);
    var d := DeformArgs(false, 1);
    DeformAsWrittenWellFormed(256, 512, 2, a, d);
    DeformBottleneckBlockWellFormed(256, 512, 2, a, d);
  }

  // ---------------------------------------------------------------- stem

  /** The stem as declared (input channels, output channels, stride) and its layers. */
  datatype Stem = Stem(inChannels: nat, outChannels: nat, stride: nat, layers: seq<Layer>)

  /**
    `BasicStem`: the ResNeSt deep stem (three 3x3 convolutions, the first
    strided, reading 3 channels whatever `in_channels` says, ending with
    2 * stem_width channels) or the ResNet 7x7 strided convolution, each
    followed by a stride-2 max pool. Either way the declared stride is 4 and
    the declared channels are the ones the layers produce.
   */
  function BasicStem(inChannels: nat, outChannels: nat, deepStem: bool, stemWidth: nat): (s: Stem)
    ensures s.stride == 4 && PathStride(s.layers) == s.stride
    ensures Flow(s.layers, s.inChannels) == Some(s.outChannels)
    ensures deepStem ==> s.inChannels == 3 && s.outChannels == 2 * stemWidth
    ensures !deepStem ==> s.inChannels == inChannels && s.outChannels == outChannels
  {
    var pool := MaxPool(3, 2);
    OneLayer(pool, 0);
    if deepStem then
      var c1 := Conv(PlainConv, 3, 3, stemWidth, 2, 1, 1);
      var c2 := Conv(PlainConv, 3, stemWidth, stemWidth, 1, 1, 1);
      var c3 := Conv(PlainConv, 3, stemWidth, stemWidth * 2, 1, 1, 1);
      OneLayer(pool, stemWidth * 2);
      Cons(c3, [pool], stemWidth);
      Cons(c2, [c3, pool], stemWidth);
      assert [c2, c3, pool] == [c2] + [c3, pool];
      assert [c3, pool] == [c3] + [pool];
      Cons(c1, [c2, c3, pool], 3);
      assert [c1, c2, c3, pool] == [c1] + [c2, c3, pool];
      Stem(3, stemWidth * 2, 4, [c1, c2, c3, pool])
    else
      var c1 := Conv(PlainConv, 7, inChannels, outChannels, 2, 1, 1);
      OneLayer(pool, outChannels);
      Cons(c1, [pool], inChannels);
      assert [c1, pool] == [c1] + [pool];
      Stem(inChannels, outChannels, 4, [c1, pool])
  }
}

=== FILE: resnet_builder.dfy ===
/**
  `build_resnet_backbone`: from the configuration to a backbone — the
  per-depth tables, the configuration checks, the stage schedule (which
  stage is strided or dilated, how channels double), the stages built with
  `make_stage`, the `ResNet` constructor and `freeze`.
 */
module ResNetBuilder {
  import opened Results
  import opened Variants
  import opened ResNetBlocks
  import opened ResNet

  /** The `MODEL.RESNETS` and `MODEL.BACKBONE` options the builder reads (normalisation is not modelled). */
  datatype Config = Config(
    depth: nat,
    radix: nat,
    deepStem: bool,
    inputChannels: nat,
    stemOutChannels: nat,
    freezeAt: int,
    outFeatures: seq<string>,
    numGroups: nat,
    widthPerGroup: nat,
    res2OutChannels: nat,
    strideIn1x1: bool,
    res5Dilation: nat,
    deformOnPerStage: seq<bool>,
    deformModulated: bool,
    deformNumGroups: nat,
    avd: bool,
    avgDown: bool,
    bottleneckWidth: nat)

  datatype BuildError =
    | UnknownDepth          // a depth missing from a per-depth table
    | BadRes5Dilation       // `assert res5_dilation in {1, 2}`
    | ShallowUnsupported    // one of the R18/R34 assertions
    | NotAStageName         // an out feature other than res2..res5
    | NoStageRequested      // `max` of no stage indices
    | DeformListTooShort    // `deform_on_per_stage[idx]` past its end
    | Backbone(cause: ResNetError)

  /** The result: the backbone and the modules `freeze(freeze_at)` froze. */
  datatype Built = Built(network: Network, frozen: set<ModuleName>)

  function StemWidthTable(depth: nat): Option<nat> {
    if depth == 50 then Some(32)
    else if depth in {101, 152, 200, 269} then Some(64)
    else None
  }

  function NumBlocksTable(depth: nat): (r: Option<seq<nat>>)
    ensures r.Some? ==> |r.value| == 4 && forall j :: 0 <= j < 4 ==> r.value[j] > 0
  {
    if depth == 18 then Some([2, 2, 2, 2])
    else if depth == 34 || depth == 50 then Some([3, 4, 6, 3])
    else if depth == 101 then Some([3, 4, 23, 3])
    else if depth == 152 then Some([3, 8, 36, 3])
    else if depth == 200 then Some([3, 24, 36, 3])
    else if depth == 269 then Some([3, 30, 48, 8])
    else None
  }

  predicate Shallow(depth: nat) {
    depth == 18 || depth == 34
  }

  /** ResNeSt (radix > 1) forces the deep stem, avd and avg_down. */
  predicate DeepStem(cfg: Config) {
    cfg.deepStem || cfg.radix > 1
  }

  /** `{"res2": 2, "res3": 3, "res4": 4, "res5": 5}[f]`. */
  function OutStageIndex(f: string): (r: Option<nat>)
    ensures r.Some? ==> 2 <= r.value <= 5 && Resolve(f) == StageModule(r.value - 2)
  {
    match Resolve(f)
    case StageModule(i) => if i <= 3 then Some(i + 2) else None
    case _ => None
  }

  /** Exactly the four stage names are accepted as out features. */
  lemma OutStageIndexAccepts(f: string)
    ensures OutStageIndex(f).Some? <==> f == "res2" || f == "res3" || f == "res4" || f == "res5"
  {
    if OutStageIndex(f).Some? {
      var i := OutStageIndex(f).value - 2;
      assert f == Name(StageModule(i));
      assert NatToString(i + 2) == [DigitChar(i + 2)];
    }
    if f == "res2" || f == "res3" || f == "res4" || f == "res5" {
      var i: nat := if f == "res2" then 0 else if f == "res3" then 1 else if f == "res4" then 2 else 3;
      assert f == Name(StageModule(i)) by {
        assert NatToString(i + 2) == [DigitChar(i + 2)];
      }
      ResolveName(StageModule(i));
    }
  }

  /** The deepest requested stage (`max(out_stage_idx)`), when every out feature names a stage. */
  function MaxStageIndex(outFeatures: seq<string>): (r: Option<nat>)
    requires forall f :: f in outFeatures ==> OutStageIndex(f).Some?
    ensures r.Some? <==> |outFeatures| > 0
    ensures r.Some? ==> 2 <= r.value <= 5
    ensures r.Some? ==> forall f :: f in outFeatures ==> OutStageIndex(f).value <= r.value
    ensures r.Some? ==> exists f :: f in outFeatures && OutStageIndex(f).value == r.value
    decreases |outFeatures|
  {
    if outFeatures == [] then None
    else
      var head := OutStageIndex(outFeatures[0]).value;
      match MaxStageIndex(outFeatures[1..])
      case None => Some(head)
      case Some(m) => Some(if head >= m then head else m)
  }

  /** x doubled j times, as the stage loop doubles its widths: x * 2^j. */
  function Doubled(x: nat, j: nat): (d: nat)
    ensures d > 0 <==> x > 0
    decreases j
  {
    if j == 0 then x else 2 * Doubled(x, j - 1)
  }

  /** Doubling once more before the remaining j - 1 doublings is doubling j times. */
  lemma {:induction false} DoubledShift(x: nat, j: nat)
    requires j > 0
    ensures Doubled(x * 2, j - 1) == Doubled(x, j)
    decreases j
  {
    if j > 1 {
      DoubledShift(x, j - 1);
    }
  }

  // ---------------------------------------------------------------- the schedule

  /** One stage's arguments to `make_stage`: the named ones, the block class and the keyword arguments passed on to it. */
  datatype StageSpec = StageSpec(numBlocks: nat, firstStride: nat, inChannels: nat, outChannels: nat,
                                 cls: BlockClass, kwargs: set<Keyword>)

  /** `res5_dilation` for the fourth stage (res5), 1 before it. */
  function StageDilation(cfg: Config, idx: nat): nat {
    if idx + 2 == 5 then cfg.res5Dilation else 1
  }

  /** Only the first stage and a dilated res5 keep the resolution; every other stage halves it. */
  function StageFirstStride(cfg: Config, idx: nat): (s: nat)
    ensures s == 1 <==> idx == 0 || (idx == 3 && cfg.res5Dilation == 2)
    ensures s == 1 || s == 2
  {
    if idx == 0 || (idx + 2 == 5 && StageDilation(cfg, idx) == 2) then 1 else 2
  }

  /** The block class and its keyword arguments for stage idx. */
  function StageClass(cfg: Config, idx: nat, bottleneckChannels: nat): BlockClass
    requires !Shallow(cfg.depth) ==> idx < |cfg.deformOnPerStage|
  {
    if Shallow(cfg.depth) then BasicBlockClass
    else
      var args := BottleneckArgs(bottleneckChannels, cfg.numGroups, cfg.strideIn1x1, StageDilation(cfg, idx),
                                 cfg.avd || cfg.radix > 1, cfg.avgDown || cfg.radix > 1, cfg.radix, cfg.bottleneckWidth);
      if cfg.deformOnPerStage[idx] then DeformBottleneckClass(args, DeformArgs(cfg.deformModulated, cfg.deformNumGroups))
      else BottleneckClass(args)
  }

  /**
    The names of the keyword arguments the loop hands on to the block
    class. As written, `norm` and the four ResNeSt options go to every
    class, `BasicBlock` included; corrected, `BasicBlock` receives `norm`
    alone. The bottleneck classes also get their own options.
   */
  function StageKeywords(cfg: Config, idx: nat, v: Variant): set<Keyword>
    requires !Shallow(cfg.depth) ==> idx < |cfg.deformOnPerStage|
  {
    var common := {Norm, Avd, AvgDown, Radix, BottleneckWidth};
    if Shallow(cfg.depth) then (if v == AsWritten then common else {Norm})
    else
      var bottleneck := common + {BottleneckChannels, StrideIn1x1, Dilation, NumGroups};
      if cfg.deformOnPerStage[idx] then bottleneck + {DeformModulated, DeformNumGroups} else bottleneck
  }

  /**
    The keyword arguments of a stage never include `stride`, and its block
    class binds them all except when `BasicBlock` receives the ResNeSt
    options as written.
   */
  lemma StageKeywordsFit(cfg: Config, idx: nat, bottleneckChannels: nat, v: Variant)
    requires !Shallow(cfg.depth) ==> idx < |cfg.deformOnPerStage|
    ensures Stride !in StageKeywords(cfg, idx, v)
    ensures KeywordsFit(StageClass(cfg, idx, bottleneckChannels), StageKeywords(cfg, idx, v))
      <==> v == Corrected || !Shallow(cfg.depth)
    ensures Bound(StageClass(cfg, idx, bottleneckChannels), StageKeywords(cfg, idx, v)) == StageClass(cfg, idx, bottleneckChannels)
  {
    var kwargs := StageKeywords(cfg, idx, v);
    if Shallow(cfg.depth) && v == AsWritten {
      assert Avd in kwargs && Avd !in AcceptedKeywords(BasicBlockClass);
    }
  }

  /**
    The stage loop: stage idx takes `in_channels`, `out_channels` and
    `bottleneck_channels`; afterwards in := out and out, bottleneck double.
   */
  function Schedule(cfg: Config, v: Variant, blocksPerStage: seq<nat>, idx: nat, count: nat,
                    inChannels: nat, outChannels: nat, bottleneckChannels: nat): (specs: seq<StageSpec>)
    requires idx <= count <= |blocksPerStage|
    requires !Shallow(cfg.depth) ==> count <= |cfg.deformOnPerStage|
    ensures |specs| == count - idx
    decreases count - idx
  {
    if idx == count then []
    else
      [StageSpec(blocksPerStage[idx], StageFirstStride(cfg, idx), inChannels, outChannels,
                 StageClass(cfg, idx, bottleneckChannels), StageKeywords(cfg, idx, v))]
      + Schedule(cfg, v, blocksPerStage, idx + 1, count, outChannels, outChannels * 2, bottleneckChannels * 2)
  }

  /**
    The loop's accumulators in closed form: stage idx + j outputs
    out * 2^j channels with bottleneck * 2^j, and reads the previous stage's
    output (the given input for the first).
   */
  lemma {:induction false} ScheduleClosedForm(cfg: Config, v: Variant, blocksPerStage: seq<nat>, idx: nat, count: nat,
                                              inChannels: nat, outChannels: nat, bottleneckChannels: nat, j: nat)
    requires idx <= count <= |blocksPerStage|
    requires !Shallow(cfg.depth) ==> count <= |cfg.deformOnPerStage|
    requires j < count - idx
    ensures var s := Schedule(cfg, v, blocksPerStage, idx, count, inChannels, outChannels, bottleneckChannels)[j];
      && s.numBlocks == blocksPerStage[idx + j]
      && s.firstStride == StageFirstStride(cfg, idx + j)
      && s.outChannels == Doubled(outChannels, j)
      && s.inChannels == (if j == 0 then inChannels else Doubled(outChannels, j - 1))
      && s.cls == StageClass(cfg, idx + j, Doubled(bottleneckChannels, j))
      && s.kwargs == StageKeywords(cfg, idx + j, v)
    decreases j
  {
    var specs := Schedule(cfg, v, blocksPerStage, idx, count, inChannels, outChannels, bottleneckChannels);
    if j > 0 {
      var rest := Schedule(cfg, v, blocksPerStage, idx + 1, count, outChannels, outChannels * 2, bottleneckChannels * 2);
      assert specs[j] == rest[j - 1];
      ScheduleClosedForm(cfg, v, blocksPerStage, idx + 1, count, outChannels, outChannels * 2, bottleneckChannels * 2, j - 1);
      DoubledShift(outChannels, j);
      DoubledShift(bottleneckChannels, j);
      if j > 1 {
        DoubledShift(outChannels, j - 1);
      }
    }
  }

  /** `ResNet.make_stage(**stage_kargs)` for one stage. */
  function SpecStage(s: StageSpec, v: Variant): Result<seq<Block>, ResNetError> {
    MakeStage(v, s.cls, s.numBlocks, s.firstStride, s.inChannels, s.outChannels, s.kwargs)
  }

  /** Each stage built from its arguments in turn, the first stage `make_stage` refuses ending the loop. */
  function BuildStages(specs: seq<StageSpec>, v: Variant): (r: Result<seq<seq<Block>>, ResNetError>)
    ensures r.Ok? <==> forall j :: 0 <= j < |specs| ==> SpecStage(specs[j], v).Ok?
    ensures r.Ok? ==> |r.value| == |specs| && forall j :: 0 <= j < |specs| ==> SpecStage(specs[j], v) == Ok(r.value[j])
    ensures r.Err? ==> exists j :: 0 <= j < |specs| && SpecStage(specs[j], v) == Err(r.error)
  {
    var rs := seq(|specs|, j requires 0 <= j < |specs| => SpecStage(specs[j], v));
    assert forall j :: 0 <= j < |specs| ==> rs[j] == SpecStage(specs[j], v);
    AllOk(rs)
  }

  /** Every check of the builder after the stem-width lookup passes. */
  predicate ConfigAccepted(cfg: Config) {
    && (cfg.res5Dilation == 1 || cfg.res5Dilation == 2)
    && NumBlocksTable(cfg.depth).Some?
    && !(Shallow(cfg.depth) && (cfg.res2OutChannels != 64 || true in cfg.deformOnPerStage
                                || cfg.res5Dilation != 1 || cfg.numGroups != 1))
    && (forall f :: f in cfg.outFeatures ==> OutStageIndex(f).Some?)
    && |cfg.outFeatures| > 0
    && (!Shallow(cfg.depth) ==> MaxStageIndex(cfg.outFeatures).value - 1 <= |cfg.deformOnPerStage|)
  }

  /** Stages res2 up to the deepest requested one are built. */
  function StageCount(cfg: Config): (c: nat)
    requires ConfigAccepted(cfg)
    ensures 1 <= c <= 4
  {
    MaxStageIndex(cfg.outFeatures).value - 1
  }

  /** The block class of built stage j: its bottleneck width is `num_groups * width_per_group` doubled j times. */
  function ScheduledBlockClass(cfg: Config, j: nat): BlockClass
    requires ConfigAccepted(cfg) && j < StageCount(cfg)
  {
    StageClass(cfg, j, Doubled(cfg.numGroups * cfg.widthPerGroup, j))
  }

  /** Every built stage's block class passes `nn.Conv2d`'s group check. */
  predicate GroupsAccepted(cfg: Config, v: Variant)
    requires ConfigAccepted(cfg)
  {
    forall j :: 0 <= j < StageCount(cfg) ==> ClassGroupsFit(v, ScheduledBlockClass(cfg, j))
  }

  /**
    The checks pass, every stage's block class binds the keyword arguments it
    is given, and every stage's convolutions take their group counts.
   */
  predicate Buildable(cfg: Config, v: Variant) {
    ConfigAccepted(cfg) && (v == AsWritten ==> !Shallow(cfg.depth)) && GroupsAccepted(cfg, v)
  }

  /** A stage without deformable blocks passes the group check as the whole backbone does in GroupsWithoutDeform. */
  lemma PlainStageGroups(cfg: Config, v: Variant, j: nat)
    requires ConfigAccepted(cfg) && j < StageCount(cfg) && (!Shallow(cfg.depth) ==> !cfg.deformOnPerStage[j])
    ensures ClassGroupsFit(v, ScheduledBlockClass(cfg, j)) <==> Shallow(cfg.depth) || cfg.radix > 1 || cfg.numGroups > 0
  {
  }

  /** Without deformable stages, both variants' blocks pass the group check alike. */
  lemma GroupsVariantsAgree(cfg: Config)
    ensures ConfigAccepted(cfg) && !(true in cfg.deformOnPerStage) ==>
      (GroupsAccepted(cfg, AsWritten) <==> GroupsAccepted(cfg, Corrected))
  {
    if ConfigAccepted(cfg) && !(true in cfg.deformOnPerStage) {
      GroupsWithoutDeform(cfg, AsWritten);
      GroupsWithoutDeform(cfg, Corrected);
    }
  }

  /** The error the stage loop stops with: the keyword mismatch of R18 and R34 as written, otherwise a group count. */
  function StageLoopError(cfg: Config, v: Variant): ResNetError {
    if v == AsWritten && Shallow(cfg.depth) then KeywordMismatch else GroupsMismatch
  }

  /**
    Without deformable stages the group check does not depend on the
    variant, and it passes exactly when the depth is shallow (basic
    blocks), ResNeSt's split attention replaces the 3x3 convolution, or
    `NUM_GROUPS` is positive.
   */
  lemma GroupsWithoutDeform(cfg: Config, v: Variant)
    requires ConfigAccepted(cfg) && !(true in cfg.deformOnPerStage)
    ensures GroupsAccepted(cfg, v) <==> Shallow(cfg.depth) || cfg.radix > 1 || cfg.numGroups > 0
  {
    assert ScheduledBlockClass(cfg, 0) == StageClass(cfg, 0, Doubled(cfg.numGroups * cfg.widthPerGroup, 0));
    if !Shallow(cfg.depth) {
      forall j | 0 <= j < StageCount(cfg) ensures !cfg.deformOnPerStage[j] {
        assert cfg.deformOnPerStage[j] in cfg.deformOnPerStage;
      }
    }
  }

  /** The input of res2: the deep stem's 2 * stem_width or STEM_OUT_CHANNELS. */
  function FirstStageInput(cfg: Config, stemWidth: nat): nat {
    if DeepStem(cfg) then 2 * stemWidth else cfg.stemOutChannels
  }

  function StemOf(cfg: Config, stemWidth: nat): Stem {
    BasicStem(cfg.inputChannels, cfg.stemOutChannels, DeepStem(cfg), stemWidth)
  }

  function Specs(cfg: Config, stemWidth: nat, v: Variant): (specs: seq<StageSpec>)
    requires ConfigAccepted(cfg)
    ensures |specs| == StageCount(cfg)
  {
    Schedule(cfg, v, NumBlocksTable(cfg.depth).value, 0, StageCount(cfg), FirstStageInput(cfg, stemWidth),
             cfg.res2OutChannels, cfg.numGroups * cfg.widthPerGroup)
  }

  /** The spec of stage j: a non-empty stage doubling the channels of the one before it. */
  lemma ScheduledSpec(cfg: Config, stemWidth: nat, v: Variant, j: nat)
    requires ConfigAccepted(cfg) && j < StageCount(cfg)
    ensures var s := Specs(cfg, stemWidth, v)[j];
      && s.numBlocks > 0
      && s.firstStride == StageFirstStride(cfg, j)
      && s.inChannels == (if j == 0 then FirstStageInput(cfg, stemWidth) else Doubled(cfg.res2OutChannels, j - 1))
      && s.outChannels == Doubled(cfg.res2OutChannels, j)
      && (j > 0 && cfg.res2OutChannels > 0 ==> s.inChannels != s.outChannels)
  {
    var blocks := NumBlocksTable(cfg.depth).value;
    var input := FirstStageInput(cfg, stemWidth);
    var specs := Schedule(cfg, v, blocks, 0, StageCount(cfg), input, cfg.res2OutChannels, cfg.numGroups * cfg.widthPerGroup);
    assert Specs(cfg, stemWidth, v) == specs;
    ScheduleClosedForm(cfg, v, blocks, 0, StageCount(cfg), input, cfg.res2OutChannels, cfg.numGroups * cfg.widthPerGroup, j);
    assert blocks[j] > 0;
  }

  /** The block class and keyword arguments of stage j: the bottleneck width doubled j times. */
  lemma ScheduledClass(cfg: Config, stemWidth: nat, v: Variant, j: nat)
    requires ConfigAccepted(cfg) && j < StageCount(cfg)
    ensures var s := Specs(cfg, stemWidth, v)[j];
      && s.cls == StageClass(cfg, j, Doubled(cfg.numGroups * cfg.widthPerGroup, j))
      && s.kwargs == StageKeywords(cfg, j, v)
  {
    var blocks := NumBlocksTable(cfg.depth).value;
    var input := FirstStageInput(cfg, stemWidth);
    assert Specs(cfg, stemWidth, v)
        == Schedule(cfg, v, blocks, 0, StageCount(cfg), input, cfg.res2OutChannels, cfg.numGroups * cfg.widthPerGroup);
    ScheduleClosedForm(cfg, v, blocks, 0, StageCount(cfg), input, cfg.res2OutChannels, cfg.numGroups * cfg.widthPerGroup, j);
  }

  /**
    The stage loop runs to the end exactly when the configuration is
    buildable; otherwise `make_stage` refuses the keyword arguments (R18 and
    R34 as written) or a convolution refuses its group count.
   */
  lemma SpecsBuild(cfg: Config, stemWidth: nat, v: Variant)
    requires ConfigAccepted(cfg)
    ensures BuildStages(Specs(cfg, stemWidth, v), v).Ok? <==> Buildable(cfg, v)
    ensures BuildStages(Specs(cfg, stemWidth, v), v).Err? ==> BuildStages(Specs(cfg, stemWidth, v), v).error == StageLoopError(cfg, v)
  {
    var specs := Specs(cfg, stemWidth, v);
    var fits := v == AsWritten ==> !Shallow(cfg.depth);
    forall j | 0 <= j < |specs|
      ensures SpecStage(specs[j], v).Ok? <==> fits && ClassGroupsFit(v, ScheduledBlockClass(cfg, j))
      ensures SpecStage(specs[j], v).Err? ==> SpecStage(specs[j], v).error == StageLoopError(cfg, v)
    {
      ScheduledSpec(cfg, stemWidth, v, j);
      ScheduledClass(cfg, stemWidth, v, j);
      StageKeywordsFit(cfg, j, Doubled(cfg.numGroups * cfg.widthPerGroup, j), v);
    }
    assert |specs| > 0;
  }

  /** The stages the builder makes from an accepted configuration whose block classes take their arguments. */
  function BuiltStages(cfg: Config, stemWidth: nat, v: Variant): (stages: seq<seq<Block>>)
    requires Buildable(cfg, v)
    ensures BuildStages(Specs(cfg, stemWidth, v), v) == Ok(stages)
    ensures |stages| == StageCount(cfg)
  {
    SpecsBuild(cfg, stemWidth, v);
    BuildStages(Specs(cfg, stemWidth, v), v).value
  }

  /** A stage built from its spec: the spec's ends, its stride, chained blocks that all output the spec's channels. */
  lemma SpecBuildsStage(s: StageSpec, v: Variant, stage: seq<Block>)
    requires s.numBlocks > 0
    requires SpecStage(s, v) == Ok(stage)
    ensures stage != [] && stage[0].inChannels == s.inChannels && stage[|stage| - 1].outChannels == s.outChannels
    ensures forall b :: b in stage ==> b.outChannels == s.outChannels
    ensures BlocksStride(stage) == s.firstStride && Chained(stage)
    ensures AllWellFormed(stage)
      <==> (s.inChannels != s.outChannels || s.firstStride == 1) && (v == AsWritten ==> SourceBlockSound(Bound(s.cls, s.kwargs), s.firstStride))
  {
  }

  /** The built stages are non-empty and every requested feature is one of them. */
  lemma BuiltStagesNonEmpty(cfg: Config, stemWidth: nat, v: Variant)
    requires Buildable(cfg, v)
    ensures var stages := BuiltStages(cfg, stemWidth, v);
      forall j :: 0 <= j < |stages| ==> stages[j] != []
  {
    var specs := Specs(cfg, stemWidth, v);
    var stages := BuiltStages(cfg, stemWidth, v);
    forall j | 0 <= j < |stages| ensures stages[j] != [] {
      ScheduledSpec(cfg, stemWidth, v, j);
      assert SpecStage(specs[j], v) == Ok(stages[j]);
    }
  }

  lemma ScheduleSatisfiesBackbone(cfg: Config, stemWidth: nat, v: Variant)
    requires Buildable(cfg, v)
    ensures NewResNet(StemOf(cfg, stemWidth), BuiltStages(cfg, stemWidth, v), None, Some(cfg.outFeatures)).Ok?
  {
    var stages := BuiltStages(cfg, stemWidth, v);
    BuiltStagesNonEmpty(cfg, stemWidth, v);
    forall f | f in cfg.outFeatures ensures Resolve(f) in Children(|stages|, false) {
      assert Resolve(f) == StageModule(OutStageIndex(f).value - 2);
    }
  }

  /** The first check after the stem-width lookup that fails, in the order the builder makes them. */
  function ConfigError(cfg: Config): (e: Option<BuildError>)
    ensures e.None? <==> ConfigAccepted(cfg)
    ensures e.Some? ==> !e.value.Backbone?
  {
    if cfg.res5Dilation != 1 && cfg.res5Dilation != 2 then Some(BadRes5Dilation)
    else if NumBlocksTable(cfg.depth).None? then Some(UnknownDepth)
    else if Shallow(cfg.depth) && (cfg.res2OutChannels != 64 || true in cfg.deformOnPerStage
                                   || cfg.res5Dilation != 1 || cfg.numGroups != 1) then Some(ShallowUnsupported)
    else if exists f :: f in cfg.outFeatures && OutStageIndex(f).None? then Some(NotAStageName)
    else if |cfg.outFeatures| == 0 then Some(NoStageRequested)
    else if !Shallow(cfg.depth) && |cfg.deformOnPerStage| < MaxStageIndex(cfg.outFeatures).value - 1 then Some(DeformListTooShort)
    else None
  }

  /** The backbone built from a buildable configuration: the stem, then the scheduled stages. */
  function BuiltNetwork(cfg: Config, stemWidth: nat, v: Variant): (n: Network)
    requires Buildable(cfg, v)
    ensures n.stem == StemOf(cfg, stemWidth) && n.stages == BuiltStages(cfg, stemWidth, v)
    ensures forall j :: 0 <= j < |n.stages| ==> n.stages[j] != []
    ensures n.outFeatures == ResolveAll(cfg.outFeatures)
    ensures n.featureStrides == StrideTable(4, n.stages) && n.featureChannels == ChannelTable(n.stem, n.stages)
  {
    ScheduleSatisfiesBackbone(cfg, stemWidth, v);
    BuiltStagesNonEmpty(cfg, stemWidth, v);
    NewResNet(StemOf(cfg, stemWidth), BuiltStages(cfg, stemWidth, v), None, Some(cfg.outFeatures)).value
  }

  /** The configuration assertions and the stage loop that follow the stem-width lookup. */
  function Assemble(cfg: Config, stemWidth: nat, v: Variant): (r: Result<Built, BuildError>)
    ensures r.Ok? <==> Buildable(cfg, v)
    ensures !ConfigAccepted(cfg) ==> r == Err(ConfigError(cfg).value)
    ensures ConfigAccepted(cfg) && r.Err? ==> r.error == Backbone(StageLoopError(cfg, v))
    ensures r.Ok? ==>
      && r.value.network == BuiltNetwork(cfg, stemWidth, v)
      && r.value.frozen == FrozenModules(r.value.network, cfg.freezeAt)
  {
    match ConfigError(cfg)
    case Some(e) => Err(e)
    case None =>
      SpecsBuild(cfg, stemWidth, v);
      match BuildStages(Specs(cfg, stemWidth, v), v)
      case Err(e) => Err(Backbone(e))
      case Ok(_) =>
        var network := BuiltNetwork(cfg, stemWidth, v);
        Ok(Built(network, FrozenModules(network, cfg.freezeAt)))
  }

  /**
    `build_resnet_backbone` as written: the stem width is looked up for
    every depth, and the table has no entry for 18 or 34; the blocks are
    the classes as written.
   */
  function BuildResNetBackboneAsWritten(cfg: Config): (r: Result<Built, BuildError>)
    ensures StemWidthTable(cfg.depth).None? ==> r == Err(UnknownDepth)
    ensures Shallow(cfg.depth) ==> r == Err(UnknownDepth)
    ensures StemWidthTable(cfg.depth).Some? ==> (r.Ok? <==> Buildable(cfg, AsWritten))
    ensures StemWidthTable(cfg.depth).Some? && ConfigAccepted(cfg) && r.Err? ==> r == Err(Backbone(GroupsMismatch))
    ensures r.Ok? ==> r.value.network == BuiltNetwork(cfg, StemWidthTable(cfg.depth).value, AsWritten)
  {
    match StemWidthTable(cfg.depth)
    case None => Err(UnknownDepth)
    case Some(w) =>
      assert !Shallow(cfg.depth);
      Assemble(cfg, w, AsWritten)
  }

  /**
    `build_resnet_backbone` with the stem width looked up only for the deep
    stem that uses it, `BasicBlock` given only the arguments it takes, and
    the corrected block classes.
   */
  function BuildResNetBackbone(cfg: Config): (r: Result<Built, BuildError>)
    ensures DeepStem(cfg) && StemWidthTable(cfg.depth).None? ==> r == Err(UnknownDepth)
    ensures !(DeepStem(cfg) && StemWidthTable(cfg.depth).None?) ==> (r.Ok? <==> Buildable(cfg, Corrected))
    ensures ConfigAccepted(cfg) && r.Err? && !(DeepStem(cfg) && StemWidthTable(cfg.depth).None?) ==> r == Err(Backbone(GroupsMismatch))
    ensures StemWidthTable(cfg.depth).Some? && r.Err? && BuildResNetBackboneAsWritten(cfg).Err? ==> r == BuildResNetBackboneAsWritten(cfg)
    ensures StemWidthTable(cfg.depth).Some? && !(true in cfg.deformOnPerStage) ==>
      (r.Ok? <==> BuildResNetBackboneAsWritten(cfg).Ok?) && (r.Err? ==> r == BuildResNetBackboneAsWritten(cfg))
    ensures r.Ok? ==> r.value.network == BuiltNetwork(cfg, StemWidthOrZero(cfg), Corrected)
  {
    if DeepStem(cfg) && StemWidthTable(cfg.depth).None? then Err(UnknownDepth)
    else
      GroupsVariantsAgree(cfg);
      Assemble(cfg, StemWidthOrZero(cfg), Corrected)
  }

  /** The stem width the deep stem uses; a shallow stem ignores it. */
  function StemWidthOrZero(cfg: Config): nat {
    if StemWidthTable(cfg.depth).Some? then StemWidthTable(cfg.depth).value else 0
  }

  // ---------------------------------------------------------------- what gets built

  /** The stride the schedule gives stage j: doubling from the stem's 4, res5 keeping res4's when dilated. */
  function ExpectedStride(cfg: Config, j: nat): nat {
    if j == 3 && cfg.res5Dilation == 2 then 16 else Doubled(4, j)
  }

  /**
    Whether stage j's blocks line up given fitting shortcuts: always with
    the corrected classes, and as written only where the stage's class is
    sound at its first stride.
   */
  predicate StageSound(cfg: Config, v: Variant, j: nat)
    requires !Shallow(cfg.depth) ==> j < |cfg.deformOnPerStage|
  {
    v == AsWritten ==> SourceBlockSound(StageClass(cfg, j, Doubled(cfg.numGroups * cfg.widthPerGroup, j)), StageFirstStride(cfg, j))
  }

  /** Facts about stage j of the built network, read off the schedule. */
  lemma BuiltStage(cfg: Config, stemWidth: nat, v: Variant, j: nat)
    requires Buildable(cfg, v) && j < StageCount(cfg)
    ensures var stages := BuiltStages(cfg, stemWidth, v);
      && stages[j] != []
      && stages[j][0].inChannels == (if j == 0 then FirstStageInput(cfg, stemWidth) else Doubled(cfg.res2OutChannels, j - 1))
      && stages[j][|stages[j]| - 1].outChannels == Doubled(cfg.res2OutChannels, j)
      && (forall b :: b in stages[j] ==> b.outChannels == Doubled(cfg.res2OutChannels, j))
      && BlocksStride(stages[j]) == StageFirstStride(cfg, j)
      && Chained(stages[j])
  {
    var specs := Specs(cfg, stemWidth, v);
    ScheduledSpec(cfg, stemWidth, v, j);
    SpecBuildsStage(specs[j], v, BuiltStages(cfg, stemWidth, v)[j]);
  }

  /** With a positive res2 width, stage j's blocks all line up exactly when the stage is sound. */
  lemma BuiltStageSound(cfg: Config, stemWidth: nat, v: Variant, j: nat)
    requires Buildable(cfg, v) && j < StageCount(cfg) && cfg.res2OutChannels > 0
    ensures AllWellFormed(BuiltStages(cfg, stemWidth, v)[j]) <==> StageSound(cfg, v, j)
  {
    var specs := Specs(cfg, stemWidth, v);
    ScheduledSpec(cfg, stemWidth, v, j);
    ScheduledClass(cfg, stemWidth, v, j);
    StageKeywordsFit(cfg, j, Doubled(cfg.numGroups * cfg.widthPerGroup, j), v);
    SpecBuildsStage(specs[j], v, BuiltStages(cfg, stemWidth, v)[j]);
  }

  /** Stages whose strides follow the schedule reach the scheduled feature strides. */
  lemma {:induction false} ScheduledStrides(cfg: Config, stages: seq<seq<Block>>, j: nat)
    requires j < |stages| && j < 4
    requires forall i :: 0 <= i <= j ==> BlocksStride(stages[i]) == StageFirstStride(cfg, i)
    ensures StrideAfter(4, stages, j + 1) == ExpectedStride(cfg, j)
    decreases j
  {
    assert StrideAfter(4, stages, j + 1) == StrideAfter(4, stages, j) * StageFirstStride(cfg, j);
    if j > 0 {
      ScheduledStrides(cfg, stages, j - 1);
      if !(j == 3 && cfg.res5Dilation == 2) {
        assert StageFirstStride(cfg, j) == 2;
        assert ExpectedStride(cfg, j - 1) == Doubled(4, j - 1);
      }
    }
  }

  lemma BuiltStridesUpTo(cfg: Config, stemWidth: nat, v: Variant, j: nat)
    requires Buildable(cfg, v) && j < StageCount(cfg)
    ensures StrideAfter(4, BuiltStages(cfg, stemWidth, v), j + 1) == ExpectedStride(cfg, j)
  {
    var stages := BuiltStages(cfg, stemWidth, v);
    forall i | 0 <= i <= j ensures BlocksStride(stages[i]) == StageFirstStride(cfg, i) {
      BuiltStage(cfg, stemWidth, v, i);
    }
    ScheduledStrides(cfg, stages, j);
  }

  /** Stage j of the schedule: its first block's input, its last block's output and its stride. */
  predicate ScheduledStage(cfg: Config, stemInput: nat, stage: seq<Block>, j: nat) {
    && stage != []
    && stage[0].inChannels == (if j == 0 then stemInput else Doubled(cfg.res2OutChannels, j - 1))
    && stage[|stage| - 1].outChannels == Doubled(cfg.res2OutChannels, j)
    && BlocksStride(stage) == StageFirstStride(cfg, j)
  }

  /** Every built stage is the one the schedule describes. */
  lemma BuiltStagesScheduled(cfg: Config, stemWidth: nat, v: Variant)
    requires Buildable(cfg, v)
    ensures var stages := BuiltStages(cfg, stemWidth, v);
      forall j :: 0 <= j < |stages| ==> ScheduledStage(cfg, FirstStageInput(cfg, stemWidth), stages[j], j)
  {
    var stages := BuiltStages(cfg, stemWidth, v);
    forall j | 0 <= j < |stages| ensures ScheduledStage(cfg, FirstStageInput(cfg, stemWidth), stages[j], j) {
      BuiltStage(cfg, stemWidth, v, j);
    }
  }

  /**
    The features a backbone over the schedule reports: the stem's output at
    stride 4, and stage j (res{j+2}) with res2_out * 2^j channels at stride
    4 * 2^j (res5 at res4's stride when dilated).
   */
  predicate ReportsSchedule(cfg: Config, stemInput: nat, n: Network) {
    && StemModule in n.featureStrides && n.featureStrides[StemModule] == 4
    && StemModule in n.featureChannels && n.featureChannels[StemModule] == stemInput
    && forall j :: 0 <= j < |n.stages| ==>
         && StageModule(j) in n.featureChannels && n.featureChannels[StageModule(j)] == Doubled(cfg.res2OutChannels, j)
         && StageModule(j) in n.featureStrides && n.featureStrides[StageModule(j)] == ExpectedStride(cfg, j)
  }

  /** A backbone over scheduled stages reports the scheduled features. */
  lemma ScheduledFeatures(cfg: Config, stemInput: nat, n: Network)
    requires |n.stages| <= 4 && n.stem.outChannels == stemInput
    requires forall j :: 0 <= j < |n.stages| ==> n.stages[j] != []
    requires forall j :: 0 <= j < |n.stages| ==> ScheduledStage(cfg, stemInput, n.stages[j], j)
    requires n.featureStrides == StrideTable(4, n.stages) && n.featureChannels == ChannelTable(n.stem, n.stages)
    ensures ReportsSchedule(cfg, stemInput, n)
  {
    forall j | 0 <= j < |n.stages|
      ensures StageModule(j) in n.featureChannels && n.featureChannels[StageModule(j)] == Doubled(cfg.res2OutChannels, j)
      ensures StageModule(j) in n.featureStrides && n.featureStrides[StageModule(j)] == ExpectedStride(cfg, j)
    {
      ScheduledStageChannels(cfg, stemInput, n.stem, n.stages, j);
      ScheduledStageStride(cfg, stemInput, n.stages, j);
    }
  }

  /** Stage j of scheduled stages has the scheduled stride in the backbone's stride table. */
  lemma ScheduledStageStride(cfg: Config, stemInput: nat, stages: seq<seq<Block>>, j: nat)
    requires j < |stages| <= 4
    requires forall i :: 0 <= i < |stages| ==> ScheduledStage(cfg, stemInput, stages[i], i)
    ensures var strides := StrideTable(4, stages);
      StageModule(j) in strides && strides[StageModule(j)] == ExpectedStride(cfg, j)
  {
    forall i | 0 <= i <= j ensures BlocksStride(stages[i]) == StageFirstStride(cfg, i) {
      assert ScheduledStage(cfg, stemInput, stages[i], i);
    }
    ScheduledStrides(cfg, stages, j);
  }

  /** Stage j of scheduled stages has the scheduled channels in the backbone's channel table. */
  lemma ScheduledStageChannels(cfg: Config, stemInput: nat, stem: Stem, stages: seq<seq<Block>>, j: nat)
    requires j < |stages|
    requires forall i :: 0 <= i < |stages| ==> stages[i] != []
    requires ScheduledStage(cfg, stemInput, stages[j], j)
    ensures var channels := ChannelTable(stem, stages);
      StageModule(j) in channels && channels[StageModule(j)] == Doubled(cfg.res2OutChannels, j)
  {
  }

  /** The built backbone has a stage per requested level and reports the scheduled features. */
  lemma BuiltFeatures(cfg: Config, stemWidth: nat, v: Variant)
    requires Buildable(cfg, v)
    ensures |BuiltNetwork(cfg, stemWidth, v).stages| == StageCount(cfg)
    ensures ReportsSchedule(cfg, FirstStageInput(cfg, stemWidth), BuiltNetwork(cfg, stemWidth, v))
  {
    var n := BuiltNetwork(cfg, stemWidth, v);
    BuiltStagesScheduled(cfg, stemWidth, v);
    ScheduledFeatures(cfg, FirstStageInput(cfg, stemWidth), n);
  }

  /** The builder freezes the first freeze_at modules of stem, res2, res3, ... */
  lemma BuiltFrozen(cfg: Config, stemWidth: nat, v: Variant)
    requires Buildable(cfg, v)
    ensures var n := BuiltNetwork(cfg, stemWidth, v);
      FrozenModules(n, cfg.freezeAt) == set m | m in ModuleOrder(|n.stages|)[..FrozenCount(cfg.freezeAt, |n.stages|)]
  {
    FreezeIsPrefix(BuiltNetwork(cfg, stemWidth, v), cfg.freezeAt);
  }

  /** The stem feeds the first stage, and each stage's last block feeds the next stage's first. */
  predicate FeedsForward(stemOut: nat, stages: seq<seq<Block>>) {
    && (forall j :: 0 <= j < |stages| ==> stages[j] != [])
    && (|stages| > 0 ==> stages[0][0].inChannels == stemOut)
    && forall j :: 0 <= j < |stages| - 1 ==> stages[j][|stages[j]| - 1].outChannels == stages[j + 1][0].inChannels
  }

  /** Scheduled stages feed each other: stage j outputs what stage j + 1 takes. */
  lemma ScheduledStagesChain(cfg: Config, stemInput: nat, stages: seq<seq<Block>>)
    requires forall j :: 0 <= j < |stages| ==> stages[j] != []
    requires forall j :: 0 <= j < |stages| ==> ScheduledStage(cfg, stemInput, stages[j], j)
    ensures FeedsForward(stemInput, stages)
  {
    forall j | 0 <= j < |stages| - 1
      ensures stages[j][|stages[j]| - 1].outChannels == stages[j + 1][0].inChannels
    {
      assert ScheduledStage(cfg, stemInput, stages[j], j);
      assert ScheduledStage(cfg, stemInput, stages[j + 1], j + 1);
    }
  }

  /** The stem feeds res2, and each built stage feeds the next. */
  lemma BuiltStagesChain(cfg: Config, stemWidth: nat, v: Variant)
    requires Buildable(cfg, v)
    ensures var n := BuiltNetwork(cfg, stemWidth, v);
      |n.stages| > 0 && FeedsForward(n.stem.outChannels, n.stages)
  {
    var n := BuiltNetwork(cfg, stemWidth, v);
    assert n.stem.outChannels == FirstStageInput(cfg, stemWidth);
    BuiltStagesScheduled(cfg, stemWidth, v);
    ScheduledStagesChain(cfg, FirstStageInput(cfg, stemWidth), n.stages);
  }

  /**
    Every stage's blocks chain, and with a positive res2 width a stage's
    blocks all line up exactly when the stage is sound.
   */
  predicate StagesSound(cfg: Config, v: Variant, stages: seq<seq<Block>>)
    requires ConfigAccepted(cfg) && |stages| <= StageCount(cfg)
  {
    forall j :: 0 <= j < |stages| ==>
      && Chained(stages[j])
      && (cfg.res2OutChannels > 0 ==> (AllWellFormed(stages[j]) <==> StageSound(cfg, v, j)))
  }

  /**
    The blocks of the built backbone's stages chain, and with a positive res2
    width a stage's blocks are all well-formed exactly when the stage is sound.
   */
  lemma BuiltBlocksWellFormed(cfg: Config, stemWidth: nat, v: Variant)
    requires Buildable(cfg, v)
    ensures StagesSound(cfg, v, BuiltNetwork(cfg, stemWidth, v).stages)
  {
    BuiltStagesSound(cfg, stemWidth, v);
  }

  /** With the corrected block classes and a positive res2 width, every block of the built backbone is well-formed. */
  lemma CorrectedBlocksWellFormed(cfg: Config, stemWidth: nat)
    requires Buildable(cfg, Corrected) && cfg.res2OutChannels > 0
    ensures var stages := BuiltNetwork(cfg, stemWidth, Corrected).stages;
      forall j :: 0 <= j < |stages| ==> AllWellFormed(stages[j])
  {
    var stages := BuiltStages(cfg, stemWidth, Corrected);
    forall j | 0 <= j < |stages| ensures AllWellFormed(stages[j]) {
      BuiltStageSoundly(cfg, stemWidth, Corrected, j);
    }
  }

  /** The built stages, before they are placed in the network, are sound in the sense of StagesSound. */
  lemma BuiltStagesSound(cfg: Config, stemWidth: nat, v: Variant)
    requires Buildable(cfg, v)
    ensures StagesSound(cfg, v, BuiltStages(cfg, stemWidth, v))
  {
    var stages := BuiltStages(cfg, stemWidth, v);
    forall j | 0 <= j < |stages|
      ensures Chained(stages[j])
      ensures cfg.res2OutChannels > 0 ==> (AllWellFormed(stages[j]) <==> StageSound(cfg, v, j))
    {
      BuiltStageSoundly(cfg, stemWidth, v, j);
    }
  }

  /** One built stage chains, and with a positive res2 width is well-formed exactly when it is sound. */
  lemma BuiltStageSoundly(cfg: Config, stemWidth: nat, v: Variant, j: nat)
    requires Buildable(cfg, v) && j < StageCount(cfg)
    ensures Chained(BuiltStages(cfg, stemWidth, v)[j])
    ensures cfg.res2OutChannels > 0 ==>
      (AllWellFormed(BuiltStages(cfg, stemWidth, v)[j]) <==> StageSound(cfg, v, j))
  {
    BuiltStage(cfg, stemWidth, v, j);
    if cfg.res2OutChannels > 0 {
      BuiltStageSound(cfg, stemWidth, v, j);
    }
  }

  // ---------------------------------------------------------------- concrete configurations

  /** The default R50 configuration (stride in the 1x1 conv, no deformable stages), all four stages requested. */
  function R50(freezeAt: int): Config {
    Config(50, 1, false, 3, 64, freezeAt, ["res2", "res3", "res4", "res5"], 1, 64, 256, true, 1,
           [false, false, false, false], false, 1, false, false, 64)
  }

  lemma R50Accepted(freezeAt: int)
    ensures ConfigAccepted(R50(freezeAt)) && StageCount(R50(freezeAt)) == 4
  {
    var cfg := R50(freezeAt);
    forall f | f in cfg.outFeatures ensures OutStageIndex(f).Some? {
      OutStageIndexAccepts(f);
    }
    OutStageIndexAccepts("res5");
    assert OutStageIndex(cfg.outFeatures[3]).value == 5;
  }

  /** Lists of plain stages name no deformable one. */
  lemma NoDeformableStage()
    ensures !(true in [false, false, false]) && !(true in [false, false, false, false])
  {
  }

  /** R50's bottleneck convolutions take its single group. */
  lemma R50GroupsFit(freezeAt: int)
    ensures ConfigAccepted(R50(freezeAt)) && GroupsAccepted(R50(freezeAt), Corrected)
  {
    R50Accepted(freezeAt);
    assert R50(freezeAt).deformOnPerStage == [false, false, false, false];
    NoDeformableStage();
    GroupsWithoutDeform(R50(freezeAt), Corrected);
  }

  /** Freezing at 2 covers the stem and res2. */
  lemma FrozenAtTwo(n: Network)
    requires |n.stages| >= 1
    ensures FrozenModules(n, 2) == {StemModule, StageModule(0)}
  {
    var stages := set i | 0 <= i < |n.stages| && 2 >= i + 2 :: StageModule(i);
    assert StageModule(0) in stages;
    assert forall m :: m in stages ==> m == StageModule(0);
  }

  /**
    A configuration whose checks pass builds exactly when its group counts
    fit, and then gives the backbone over its schedule, frozen at freeze_at;
    otherwise a convolution refuses its group count.
   */
  lemma AcceptedBuilds(cfg: Config)
    requires ConfigAccepted(cfg) && !DeepStem(cfg)
    ensures BuildResNetBackbone(cfg).Ok? <==> GroupsAccepted(cfg, Corrected)
    ensures BuildResNetBackbone(cfg).Err? ==> BuildResNetBackbone(cfg) == Err(Backbone(GroupsMismatch))
    ensures GroupsAccepted(cfg, Corrected) ==>
      var n := BuiltNetwork(cfg, 0, Corrected);
      && BuildResNetBackbone(cfg).value.frozen == FrozenModules(n, cfg.freezeAt)
      && BuildResNetBackbone(cfg).value.network.stages == n.stages
      && BuildResNetBackbone(cfg).value.network.featureStrides == n.featureStrides
      && BuildResNetBackbone(cfg).value.network.featureChannels == n.featureChannels
  {
    var w := StemWidthOrZero(cfg);
    assert BuildResNetBackbone(cfg) == Assemble(cfg, w, Corrected);
    if GroupsAccepted(cfg, Corrected) {
      assert BuiltNetwork(cfg, w, Corrected).stages == BuiltNetwork(cfg, 0, Corrected).stages;
    }
  }

  /** The features of a four-stage backbone without dilation: strides 4 to 32, channels res2_out to 8 * res2_out. */
  predicate FourStageReport(n: Network, res2OutChannels: nat) {
    && (forall j :: 0 <= j < 4 ==> StageModule(j) in n.featureStrides && StageModule(j) in n.featureChannels)
    && n.featureStrides[StageModule(0)] == 4
    && n.featureStrides[StageModule(1)] == 8
    && n.featureStrides[StageModule(2)] == 16
    && n.featureStrides[StageModule(3)] == 32
    && n.featureChannels[StageModule(0)] == res2OutChannels
    && n.featureChannels[StageModule(3)] == 8 * res2OutChannels
  }

  lemma ScheduleOfFourStages(cfg: Config, stemInput: nat, n: Network)
    requires ReportsSchedule(cfg, stemInput, n) && |n.stages| == 4 && cfg.res5Dilation == 1
    ensures FourStageReport(n, cfg.res2OutChannels)
  {
    assert Doubled(cfg.res2OutChannels, 3) == 8 * cfg.res2OutChannels;
  }

  /** With all four stages and no dilation the strides double from 4 to 32 and the channels grow eightfold. */
  lemma FourStageFeatures(cfg: Config)
    requires ConfigAccepted(cfg) && !DeepStem(cfg) && StageCount(cfg) == 4 && cfg.res5Dilation == 1
    ensures BuildResNetBackbone(cfg).Ok? <==> GroupsAccepted(cfg, Corrected)
    ensures BuildResNetBackbone(cfg).Ok? ==> FourStageReport(BuildResNetBackbone(cfg).value.network, cfg.res2OutChannels)
    ensures BuildResNetBackbone(cfg).Ok? && cfg.freezeAt == 2 ==> BuildResNetBackbone(cfg).value.frozen == {StemModule, StageModule(0)}
  {
    AcceptedBuilds(cfg);
    if GroupsAccepted(cfg, Corrected) {
      BuiltFeatures(cfg, 0, Corrected);
      var n := BuiltNetwork(cfg, 0, Corrected);
      ScheduleOfFourStages(cfg, FirstStageInput(cfg, 0), n);
      FrozenAtTwo(n);
    }
  }

  /**
    R50 with freeze_at 2: res2..res5 at strides 4, 8, 16, 32 with 256 to
    2048 channels, and the stem and res2 frozen.
   */
  lemma R50Backbone()
    ensures BuildResNetBackbone(R50(2)).Ok?
    ensures FourStageReport(BuildResNetBackbone(R50(2)).value.network, 256)
    ensures BuildResNetBackbone(R50(2)).value.frozen == {StemModule, StageModule(0)}
  {
    R50Accepted(2);
    R50GroupsFit(2);
    FourStageFeatures(R50(2));
  }

  /** R18 with the settings its assertions demand, only res5 requested. */
  function R18(): Config {
    Config(18, 1, false, 3, 64, 2, ["res5"], 1, 64, 64, true, 1, [], false, 1, false, false, 64)
  }

  lemma R18Accepted()
    ensures ConfigAccepted(R18()) && StageCount(R18()) == 4
    ensures GroupsAccepted(R18(), Corrected)
  {
    OutStageIndexAccepts("res5");
    assert R18().outFeatures[0] == "res5";
  }

  /**
    R18 never gets past the stem-width lookup as written, although every
    R18 assertion holds; the corrected builder constructs its four stages.
   */
  lemma ShallowDepthUnreachableAsWritten()
    ensures BuildResNetBackboneAsWritten(R18()) == Err(UnknownDepth)
    ensures BuildResNetBackbone(R18()).Ok?
    ensures |BuildResNetBackbone(R18()).value.network.stages| == 4
    ensures ReportsSchedule(R18(), 64, BuildResNetBackbone(R18()).value.network)
  {
    R18Accepted();
    AcceptedBuilds(R18());
    BuiltFeatures(R18(), 0, Corrected);
  }

  /**
    Past the stem-width lookup R18 would still fail as written: its stages
    hand `BasicBlock` the ResNeSt keyword arguments, which it does not take.
    Corrected, the same stages are built.
   */
  lemma ShallowKeywordsRefusedAsWritten(stemWidth: nat)
    ensures MakeStage(AsWritten, BasicBlockClass, 2, 1, 64, 64, StageKeywords(R18(), 0, AsWritten)) == Err(KeywordMismatch)
    ensures Assemble(R18(), stemWidth, AsWritten) == Err(Backbone(KeywordMismatch))
    ensures Assemble(R18(), stemWidth, Corrected).Ok?
  {
    R18Accepted();
    StageKeywordsFit(R18(), 0, 64, AsWritten);
  }

  /** ResNeSt-50 (radix 2) with the stride in the 1x1 convolution, res2 and res3 requested. */
  function ResNeSt50(): Config {
    Config(50, 2, false, 3, 64, 2, ["res3"], 1, 64, 256, true, 1, [false, false], false, 1, false, false, 64)
  }

  /**
    As written, ResNeSt with `stride_in_1x1` builds a res3 whose blocks do
    not all line up (its first block strides its main path twice); the
    corrected blocks all do.
   */
  lemma ResNeStStridesTwiceAsWritten()
    ensures BuildResNetBackboneAsWritten(ResNeSt50()).Ok? && BuildResNetBackbone(ResNeSt50()).Ok?
    ensures var stages := BuildResNetBackboneAsWritten(ResNeSt50()).value.network.stages;
      |stages| == 2 && !AllWellFormed(stages[1])
    ensures var stages := BuildResNetBackbone(ResNeSt50()).value.network.stages;
      |stages| == 2 && AllWellFormed(stages[1])
  {
    var cfg := ResNeSt50();
    ResNeSt50Accepted();
    assert StemWidthTable(cfg.depth) == Some(32) && StemWidthOrZero(cfg) == 32;
    BuiltStageSound(cfg, 32, AsWritten, 1);
    BuiltStageSound(cfg, 32, Corrected, 1);
  }

  lemma ResNeSt50Accepted()
    ensures ConfigAccepted(ResNeSt50()) && StageCount(ResNeSt50()) == 2
    ensures GroupsAccepted(ResNeSt50(), AsWritten) && GroupsAccepted(ResNeSt50(), Corrected)
    ensures !StageSound(ResNeSt50(), AsWritten, 1)
  {
    var cfg := ResNeSt50();
    OutStageIndexAccepts("res3");
    assert cfg.outFeatures[0] == "res3";
    GroupsWithoutDeform(cfg, AsWritten);
    GroupsWithoutDeform(cfg, Corrected);
    assert StageClass(cfg, 1, Doubled(64, 1)) == BottleneckClass(BottleneckArgs(128, 1, true, 1, true, true, 2, 64));
  }

  /** R50 with a deformable res2 whose offset predictor uses `DEFORM_NUM_GROUPS` groups. */
  function DeformR50(deformNumGroups: nat): Config {
    Config(50, 1, false, 3, 64, 2, ["res2", "res3", "res4", "res5"], 1, 64, 256, true, 1,
           [true, false, false, false], false, deformNumGroups, false, false, 64)
  }

  lemma DeformR50Accepted(deformNumGroups: nat)
    ensures ConfigAccepted(DeformR50(deformNumGroups)) && StageCount(DeformR50(deformNumGroups)) == 4
  {
    R50Accepted(2);
    assert DeformR50(deformNumGroups).outFeatures == R50(2).outFeatures;
  }

  /** The offset predictor of a deformable res2 reads its 64 bottleneck channels in deform_num_groups groups. */
  lemma DeformR50Res2(deformNumGroups: nat)
    ensures ConfigAccepted(DeformR50(deformNumGroups)) && StageCount(DeformR50(deformNumGroups)) == 4
      && ScheduledBlockClass(DeformR50(deformNumGroups), 0)
      == DeformBottleneckClass(BottleneckArgs(64, 1, true, 1, false, false, 1, 64), DeformArgs(false, deformNumGroups))
  {
    DeformR50Accepted(deformNumGroups);
  }

  /** A deformable block class over 64 bottleneck channels in one group passes the group check exactly when the offset groups divide 64. */
  lemma Deform64Groups(v: Variant, a: BottleneckArgs, d: DeformArgs)
    requires a.bottleneckChannels == 64 && a.numGroups == 1 && a.bottleneckWidth == 64
    ensures ClassGroupsFit(v, DeformBottleneckClass(a, d)) <==> d.deformGroups > 0 && 64 % d.deformGroups == 0
  {
  }

  /** Three offset groups cannot split res2's 64 channels, in either variant. */
  lemma DeformR50GroupsRefused()
    ensures ConfigAccepted(DeformR50(3)) && !GroupsAccepted(DeformR50(3), AsWritten) && !GroupsAccepted(DeformR50(3), Corrected)
  {
    DeformR50Res2(3);
    var c := ScheduledBlockClass(DeformR50(3), 0);
    Deform64Groups(AsWritten, c.args, c.deform);
    Deform64Groups(Corrected, c.args, c.deform);
  }

  /** With only res2 deformable and a positive `NUM_GROUPS`, the group check comes down to res2's offset predictor. */
  lemma OnlyRes2Deformable(cfg: Config, v: Variant)
    requires ConfigAccepted(cfg) && !Shallow(cfg.depth) && cfg.numGroups > 0
    requires !(true in cfg.deformOnPerStage[1..])
    ensures GroupsAccepted(cfg, v) <==> ClassGroupsFit(v, ScheduledBlockClass(cfg, 0))
  {
    forall j | 1 <= j < StageCount(cfg) ensures ClassGroupsFit(v, ScheduledBlockClass(cfg, j)) {
      assert cfg.deformOnPerStage[j] == cfg.deformOnPerStage[1..][j - 1];
      PlainStageGroups(cfg, v, j);
    }
  }

  /** Two offset groups split res2's 64 channels, and the later plain bottleneck stages take their single group. */
  lemma DeformR50GroupsFit()
    ensures ConfigAccepted(DeformR50(2)) && GroupsAccepted(DeformR50(2), Corrected)
  {
    var cfg := DeformR50(2);
    DeformR50Res2(2);
    var c := ScheduledBlockClass(cfg, 0);
    Deform64Groups(Corrected, c.args, c.deform);
    assert cfg.deformOnPerStage[1..] == [false, false, false];
    NoDeformableStage();
    OnlyRes2Deformable(cfg, Corrected);
  }

  /** The deformable res2 with three offset groups stops both builders at the group check; with two it builds. */
  lemma DeformGroupsRefused()
    ensures BuildResNetBackboneAsWritten(DeformR50(3)) == Err(Backbone(GroupsMismatch))
    ensures BuildResNetBackbone(DeformR50(3)) == Err(Backbone(GroupsMismatch))
    ensures BuildResNetBackbone(DeformR50(2)).Ok?
  {
    DeformR50GroupsRefused();
    DeformR50GroupsFit();
    AcceptedBuilds(DeformR50(3));
    AcceptedBuilds(DeformR50(2));
  }

  /**
    `NUM_GROUPS` 0 is no group count: without deformable stages or split
    attention, the plain 3x3 convolutions of a bottleneck backbone refuse it.
   */
  lemma ZeroGroupsRefused(cfg: Config)
    requires ConfigAccepted(cfg) && !Shallow(cfg.depth) && !(true in cfg.deformOnPerStage)
    requires cfg.numGroups == 0 && cfg.radix <= 1 && !cfg.deepStem
    ensures BuildResNetBackbone(cfg) == Err(Backbone(GroupsMismatch))
  {
    GroupsWithoutDeform(cfg, Corrected);
    AcceptedBuilds(cfg);
  }
}

=== FILE: results.dfy ===
/** Failure-compatible wrappers shared by every module of the model. */
module Results {

  /** An optional value: the model's stand-in for Python's `None`. */
  datatype Option<+T> = None | Some(value: T)

  /** The outcome of an operation that can raise: `Err` models a Python exception. */
  datatype Result<+T, +E> = Ok(value: T) | Err(error: E) {

    predicate IsFailure() {
      Err?
    }

    function PropagateFailure<U>(): Result<U, E>
      requires Err?
    {
      Err(error)
    }

    function Extract(): T
      requires Ok?
    {
      value
    }
  }

  /**
    The outcome of a loop over independent steps that stops at the first
    step that raises: every step's value when all succeed, otherwise the
    error of the first step that failed.
   */
  function AllOk<T, E>(rs: seq<Result<T, E>>): (r: Result<seq<T>, E>)
    ensures r.Ok? <==> forall i :: 0 <= i < |rs| ==> rs[i].Ok?
    ensures r.Ok? ==> |r.value| == |rs| && forall i :: 0 <= i < |rs| ==> rs[i] == Ok(r.value[i])
    ensures r.Err? ==> exists i :: 0 <= i < |rs| && rs[i] == Err(r.error) && forall j :: 0 <= j < i ==> rs[j].Ok?
  {
    if rs == [] then Ok([])
    else if rs[0].Err? then Err(rs[0].error)
    else
      match AllOk(rs[1..])
      case Err(e) =>
        assert forall i :: 1 <= i < |rs| ==> rs[i] == rs[1..][i - 1];
        Err(e)
      case Ok(vs) =>
        assert forall i :: 1 <= i < |rs| ==> rs[i] == rs[1..][i - 1];
        Ok([rs[0].value] + vs)
  }

  /**
    The outcome of such a loop whose steps each yield a pair, as two lists:
    the first and second components of every step when all succeed,
    otherwise the error of the first step that failed.
   */
  ghost predicate CollectsInOrder<A, B, E>(rs: seq<Result<(A, B), E>>, r: Result<(seq<A>, seq<B>), E>) {
    && (r.Ok? <==> forall i :: 0 <= i < |rs| ==> rs[i].Ok?)
    && (r.Ok? ==> |r.value.0| == |rs| && |r.value.1| == |rs|
                  && forall i :: 0 <= i < |rs| ==> rs[i] == Ok((r.value.0[i], r.value.1[i])))
    && (r.Err? ==> exists i :: 0 <= i < |rs| && rs[i] == Err(r.error) && forall j :: 0 <= j < i ==> rs[j].Ok?)
  }

  function CollectPairs<A, B, E>(rs: seq<Result<(A, B), E>>): (r: Result<(seq<A>, seq<B>), E>)
    ensures CollectsInOrder(rs, r)
  {
    match AllOk(rs)
    case Err(e) => Err(e)
    case Ok(vs) =>
      var firsts := seq(|vs|, i requires 0 <= i < |vs| => vs[i].0);
      var seconds := seq(|vs|, i requires 0 <= i < |vs| => vs[i].1);
      assert forall i :: 0 <= i < |rs| ==> rs[i] == Ok((firsts[i], seconds[i]));
      Ok((firsts, seconds))
  }
}

=== FILE: seqs.dfy ===
/** Sequence helpers: sums, index filters, gathers, and concatenation/splitting by counts. */
module Seqs {
  import opened Results

  function SumNat(xs: seq<nat>): nat
  {
    if xs == [] then 0 else xs[0] + SumNat(xs[1..])
  }

  function SumReal(xs: seq<real>): real
  {
    if xs == [] then 0.0 else xs[0] + SumReal(xs[1..])
  }

  predicate StrictlyIncreasing(s: seq<nat>) {
    forall a, b :: 0 <= a < b < |s| ==> s[a] < s[b]
  }

  /** The integers `0 <= i < n` satisfying `p`, ascending: what `mask.nonzero()` returns. */
  function IndicesWhere(n: nat, p: nat -> bool): (r: seq<nat>)
    ensures |r| <= n
    ensures forall j :: 0 <= j < |r| ==> r[j] < n && p(r[j])
    ensures forall i :: 0 <= i < n && p(i) ==> i in r
    ensures StrictlyIncreasing(r)
    decreases n
  {
    if n == 0 then []
    else IndicesWhere(n - 1, p) + (if p(n - 1) then [n - 1] else [])
  }

  /** When every index qualifies, the filter keeps them all. */
  lemma {:induction false} IndicesWhereAll(n: nat, p: nat -> bool)
    requires forall i :: 0 <= i < n ==> p(i)
    ensures IndicesWhere(n, p) == Range(n)
  {
    if n > 0 {
      IndicesWhereAll(n - 1, p);
      assert Range(n - 1) + [n - 1] == Range(n);
    }
  }

  /** A mask that holds nowhere below n selects nothing. */
  lemma {:induction false} IndicesWhereNone(n: nat, p: nat -> bool)
    requires forall i :: 0 <= i < n ==> !p(i)
    ensures IndicesWhere(n, p) == []
    decreases n
  {
    if n > 0 {
      IndicesWhereNone(n - 1, p);
    }
  }

  /** Two masks that agree below n select the same indices. */
  lemma {:induction false} IndicesWhereExt(n: nat, p: nat -> bool, q: nat -> bool)
    requires forall i :: 0 <= i < n ==> p(i) == q(i)
    ensures IndicesWhere(n, p) == IndicesWhere(n, q)
    decreases n
  {
    if n > 0 {
      IndicesWhereExt(n - 1, p, q);
    }
  }

  /** Advanced indexing `xs[idx]`, for indices known to be in range. */
  function Gather<T>(xs: seq<T>, idx: seq<nat>): (r: seq<T>)
    requires forall j :: 0 <= j < |idx| ==> idx[j] < |xs|
    ensures |r| == |idx|
    ensures forall j :: 0 <= j < |idx| ==> r[j] == xs[idx[j]]
  {
    seq(|idx|, j requires 0 <= j < |idx| => xs[idx[j]])
  }

  /** `torch.arange(n)` */
  function Range(n: nat): (r: seq<nat>)
    ensures |r| == n
    ensures forall j :: 0 <= j < n ==> r[j] == j
  {
    seq(n, j => j)
  }

  function Lengths<T>(xss: seq<seq<T>>): (r: seq<nat>)
    ensures |r| == |xss|
    ensures forall i :: 0 <= i < |xss| ==> r[i] == |xss[i]|
  {
    seq(|xss|, i requires 0 <= i < |xss| => |xss[i]|)
  }

  /** Concatenation along the first dimension (`cat(..., dim=0)`). */
  function Flatten<T>(xss: seq<seq<T>>): (r: seq<T>)
    ensures |r| == SumNat(Lengths(xss))
  {
    if xss == [] then []
    else
      assert Lengths(xss)[1..] == Lengths(xss[1..]);
      xss[0] + Flatten(xss[1..])
  }

  /**
    `tensor.split(counts, dim=0)`: consecutive chunks of the given sizes.
    The tensor library raises unless the sizes add up to the length.
   */
  function Split<T>(xs: seq<T>, counts: seq<nat>): (r: Option<seq<seq<T>>>)
    ensures r.Some? <==> SumNat(counts) == |xs|
    ensures r.Some? ==> Lengths(r.value) == counts && Flatten(r.value) == xs
    decreases counts
  {
    if counts == [] then
      if xs == [] then Some([]) else None
    else if counts[0] > |xs| then None
    else
      match Split(xs[counts[0]..], counts[1..])
      case None => None
      case Some(rest) =>
        var chunks := [xs[..counts[0]]] + rest;
        assert chunks[1..] == rest;
        assert Lengths(chunks) == [counts[0]] + Lengths(rest);
        Some(chunks)
  }

  /** Splitting a concatenation by the parts' own lengths gives the parts back. */
  lemma {:induction false} SplitFlatten<T>(xss: seq<seq<T>>)
    ensures Split(Flatten(xss), Lengths(xss)) == Some(xss)
  {
    if xss != [] {
      var flat := Flatten(xss);
      assert flat[..|xss[0]|] == xss[0];
      assert flat[|xss[0]|..] == Flatten(xss[1..]);
      assert Lengths(xss)[1..] == Lengths(xss[1..]);
      SplitFlatten(xss[1..]);
      assert [xss[0]] + xss[1..] == xss;
    }
  }

  /** A split is determined by its lengths: no two partitions of one sequence share them. */
  lemma FlattenInjective<T>(a: seq<seq<T>>, b: seq<seq<T>>)
    requires Lengths(a) == Lengths(b) && Flatten(a) == Flatten(b)
    ensures a == b
  {
    SplitFlatten(a);
    SplitFlatten(b);
  }
}

=== FILE: variants.dfy ===
/** The two readings the model gives of code that has a defect listed under Findings. */
module Variants {

  /** Which definition a construction follows: the code as written, or with the defects listed under Findings corrected. */
  datatype Variant = AsWritten | Corrected
}
